=== FILE: README.md ===
# Sweet Hope Bakery: cart, checkout, admin tables and tokens in Dafny

This project models the core of the Sweet Hope Bakery web site, a static storefront served as Cloudflare
Pages Functions. The model covers these pieces:

- **The shopper's cart.** The cart is kept in `localStorage` as a list of lines and a per-product summary.
  The model covers adding, removing, the total and the Stripe line items built from the cart.
- **The two checkout endpoints.**
  - create-checkout prices the cart's lines against the product catalog in KV and opens a Stripe session.
  - verify-checkout asks Stripe whether the session was paid. It then checks the client's claimed cart
    against a cart it re-prices itself.
- **The admin data API.**
  - get-data, save-data and delete-data read and write the four JSON tables kept in KV.
  - upload-images and delete-images handle the S3 keys an admin may touch.
  - The login endpoint checks a PBKDF2 password hash and issues an HS256 JWT.
  - A bearer-token gate protects the other endpoints.
- **The JWT module.** This is its own base64url codec and its sign/verify pair.
- **The Stripe form encoder.** This is `appendForm` and `stripeRequest`.
- **Page logic.**
  - the menu page's price sorting, record defaults, two-column grid and quantity options;
  - the admin customize page's `q:p, q:p` field parsers and image lists;
  - the checkout page's form checks and empty-cart redirect;
  - the admin mail page's sorting and HTML escaping;
  - the shared image slider.

JavaScript values are the `JsValues.JsValue` datatype. Objects are `Dicts.Dict`, an association list in
insertion order. Numbers are `NaN` or an unbounded integer. Whenever the source would throw, the model returns
`None` or `Err`. Work the model cannot see is passed in as a parameter. This covers crypto, `JSON.parse`,
UTF-8, the clock, KV, S3 presigning and `fetch`. Each handler is a pure function from its inputs to the
response it sends, plus the write or the request it makes.

## Model

| member | source | states |
|---|---|---|
| KvTables.ValidTableNames | functions/api/_kv.js:3-12 | A table name is accepted exactly when it is one of `products`, `home_page`, `about_page`, `contact_page`; other capitalisations, null and undefined are refused |
| KvTables.PartitionKey | functions/api/save-data.js:37 | Rows of `products` are keyed by `itemName`, rows of every page table by `sectionIndex` |
| KvTables.KeyOf | functions/api/save-data.js:38-41 | Reading a row's key throws exactly when the row is null or undefined |
| KvTables.FindIndex | functions/api/save-data.js:41 | `findIndex`: a found index holds the key and every earlier row differs; not found exactly when every row differs; a throw happens at some row whose key read throws with no match before it |
| KvTables.FindIndexFinds | functions/api/save-data.js:41 | The first row whose key matches is the index `findIndex` reports |
| KvTables.FindIndexThrows | functions/api/save-data.js:41 | `findIndex` throws exactly when it reaches a row whose key read throws, with every earlier row passing |
| KvTables.FindIndexCases | functions/api/save-data.js:41 | The search finds the first matching row reached, reports not found when every row passes, and throws when an unreadable row is reached first |
| KvTables.Upsert | functions/api/save-data.js:41-46 | After an upsert the item is in the table; an existing row with its key is replaced in place and nothing else moves, otherwise the item is appended; it fails only when a key read throws |
| KvTables.UpsertIdempotent | functions/api/save-data.js:41-46 | Saving the same item twice leaves the table as saving it once |
| KvTables.RemoveByKey | functions/api/delete-data.js:35 | The result is the reference filter of the rows whose key differs from the requested one: those rows, each as often as it occurred and in their order; it fails exactly when some row is null or undefined |
| KvTables.RemoveByKeyIdempotent | functions/api/delete-data.js:35 | Deleting the same key twice leaves the table as deleting it once |
| KvTables.TableOf | functions/api/save-data.js:27-34 | The best-effort read: the stored array, or an empty table when the value is missing, not an array or the read failed |
| KvTables.SaveData | functions/api/save-data.js:10-58 | A denied request is answered by the auth check; a missing KV binding is a 500, a body that is not JSON, or is null or undefined, a 500, and a table name outside the four a 400 (a body without `tableName` included, since the field then reads `undefined`), each writing nothing; otherwise, for a valid table, an upsert that succeeds is written and answered `{success: true}`, and one that fails (a null or undefined item, or a stored row the key search cannot read) is a 500 that writes nothing; the table is written exactly when the answer is success, and what is written is the stored table with the item upserted |
| KvTables.DeleteData | functions/api/delete-data.js:7-50 | The same gatekeeping and error answers (500 for a body that is not JSON or is null or undefined, 400 for a missing or unknown `tableName`), none of which writes; for a valid table a stored table whose rows all have readable keys is filtered, written and answered `{success: true}`, and one holding a null or undefined row is a 500; a write happens exactly on success, and is the stored table filtered by the requested key, holding no row with that key |
| KvTables.GetData | functions/api/get-data.js:7-41 | A missing binding is a 500 and a bad table name a 400; a failed read is a 500; without a key the stored value (or `[]`) is returned; with a key, a non-array table gives null, the first matching row reached is returned (null for a falsy row), no match gives null, and an unreadable row reached first is a 500 |
| AuthGate.CheckAuth | functions/api/_auth.js:7-25 | A missing secret is a 500; a missing or non-`Bearer ` header is a 401; the request passes exactly when the header text after `Bearer ` verifies as a JWT under the secret at the current time |
| AuthGate.TokenIsHeaderTail | functions/api/_auth.js:14-19 | `slice(7)` of `Bearer ` followed by a token gives the token back |
| AuthGate.FreshTokenAuthorizes | functions/api/_auth.js:7-25 | A token signed with the configured secret passes the gate until it expires |
| Base64Url.StdValueOfChar | functions/api/_jwt.js:8 | The 64-letter base64 alphabet is a bijection with 0..63 |
| Base64Url.EncodeChars | functions/api/_jwt.js:4-9 | The unpadded encoding has `ceil(4n/3)` letters, all from the standard alphabet |
| Base64Url.UnpaddedLengthMod | functions/api/_jwt.js:8 | An encoding's length is never 1 more than a multiple of 4 |
| Base64Url.Btoa | functions/api/_jwt.js:8 | `btoa` output is padded to a multiple of 4 |
| Base64Url.EncodeIsRenamedChars | functions/api/_jwt.js:8 | Renaming `+` and `/` and stripping the `=` run of `btoa` output leaves the unpadded standard encoding with the URL-safe letters |
| Base64Url.EncodeAlphabet | functions/api/_jwt.js:8 | Renaming `+` and `/` puts every letter of the standard encoding into the URL-safe alphabet |
| Base64Url.Encode | functions/api/_jwt.js:4-9 | An encoding is the unpadded standard encoding with the URL-safe letters, `ceil(4n/3)` long, and never holds `=` or the `.` that separates token parts |
| Base64Url.RemoveAsciiWhitespace | functions/api/_jwt.js:14 | `atob` first drops ASCII whitespace; text without any is unchanged |
| Base64Url.PadCount | functions/api/_jwt.js:13 | The `while (str.length % 4)` loop adds the fewest `=` that reach a multiple of 4: none, two or one |
| Base64Url.StripFinalPadding | functions/api/_jwt.js:14 | `atob` removes one or two final `=` only from a text whose length is a multiple of 4 |
| Base64Url.Atob | functions/api/_jwt.js:14 | A successful `atob` is the decoding of some text of standard letters whose length is not 1 more than a multiple of 4 |
| Base64Url.KeptUnlessWhitespace | functions/api/_jwt.js:14 | Dropping whitespace keeps every other character |
| Base64Url.AtobRefusesForeign | functions/api/_jwt.js:14 | `atob` throws on text holding a character outside the alphabet that is not whitespace or `=` |
| Base64Url.Decode | functions/api/_jwt.js:11-18 | A part holding a character outside both alphabets, whitespace and `=` does not decode |
| Base64Url.DecodeEncodeGroup | functions/api/_jwt.js:4-18 | Each group of one to three bytes decodes back from its letters |
| Base64Url.DecodeEncodeChars | functions/api/_jwt.js:4-18 | Decoding the unpadded letters of any byte string gives the bytes back |
| Base64Url.StripPadding | functions/api/_jwt.js:12-14 | Padding added by the decode loop is exactly what `atob` strips again |
| Base64Url.DecodeEncode | functions/api/_jwt.js:4-18 | `base64urlDecode(base64urlEncode(b)) == b` for every byte string |
| Jwt.Claims | functions/api/_jwt.js:41-46 | The signed claims are the payload with `iss` set to `sweethopebakeryy`, `iat` to now and `exp` to now plus the lifetime; every other payload field is kept |
| Jwt.Sign | functions/api/_jwt.js:48-56 | A token splits on `.` into exactly the encoded header, the encoded claims and the encoded MAC of the first two joined by a dot |
| Jwt.ThreeParts | functions/api/_jwt.js:56-68 | Three dot-free parts joined by dots split back into those three parts |
| Jwt.Verify | functions/api/_jwt.js:66-88 | Not three parts is "Invalid token format"; a bad HMAC is "Invalid signature"; a token is accepted exactly when the HMAC checks, the payload parses, the issuer matches and `exp`, if truthy, is not past; then the payload is returned |
| Jwt.NoExpiryClaimNeverExpires | functions/api/_jwt.js:85 | A payload without `exp` is never rejected as expired, so its verdict does not depend on the time |
| Jwt.SignThenVerify | functions/api/_jwt.js:37-88 | A token signed now verifies under the same secret at any time up to its expiry and yields the signed claims |
| Jwt.SignedPartsCheck | functions/api/_jwt.js:48-80 | A signed token splits into three parts whose HMAC checks and whose middle part decodes to the claims |
| Jwt.VerifyAccepts | functions/api/_jwt.js:66-88 | Three parts, a valid HMAC, the right issuer and an unexpired `exp` are enough for acceptance |
| Jwt.SignedClaimsRead | functions/api/_jwt.js:41-46 | The claims object reads back the issuer and the expiry it was built with |
| Jwt.TamperedClaimsRejected | functions/api/_jwt.js:74-77 | Swapping another payload into a signed token without re-signing it is refused when the MAC differs |
| PasswordAuth.BitXorZero | functions/api/rate/authenticate.js:13 | `x ^ y` is 0 exactly when `x == y` |
| PasswordAuth.BitOrZero | functions/api/rate/authenticate.js:13 | `x \| y` is 0 exactly when both are 0 |
| PasswordAuth.XorFoldZero | functions/api/rate/authenticate.js:11-15 | The OR of the code-unit XORs over a prefix is 0 exactly when the prefixes are equal |
| PasswordAuth.TimingSafeEqual | functions/api/rate/authenticate.js:8-16 | Non-strings and strings of different lengths compare unequal; the result is true exactly for two equal strings |
| PasswordAuth.ParsePbkdf2Hash | functions/api/rate/authenticate.js:18-24 | A stored hash parses exactly when it has four `$`-fields, the first `pbkdf2` and the second a positive number as `Number()` reads it (integral here, see Left out); salt and hash are the third and fourth fields |
| PasswordAuth.SplitFormattedHash | functions/api/rate/authenticate.js:19 | `pbkdf2$n$salt$hash` splits into its four fields when salt and hash hold no `$` |
| PasswordAuth.ParseFormattedHash | functions/api/rate/authenticate.js:18-24 | Parsing a formatted hash gives back the parameters it was formatted from |
| PasswordAuth.Authenticate | functions/api/rate/authenticate.js:52-80 | Missing hash, then missing secret, then an unparsable hash are 500s in that order; the answer is 200 with a signed token exactly when the derived key equals the stored hash, and 401 exactly when it is derived but differs; once configured, a body that cannot be read, a null or undefined body, and a derivation that throws are each 500 `Internal error: ` followed by the error's message |
| PasswordAuth.ConfigCheckedFirst | functions/api/rate/authenticate.js:53-59 | With configuration missing the answer is a 500 that depends on neither the request nor the key derivation |
| PasswordAuth.LoginTokenAuthorizes | functions/api/rate/authenticate.js:74-75 | The token a successful login returns passes the bearer gate until it expires |
| ImageKeys.StartsWithAny | functions/api/_s3.js:11 | `some(prefix => key.startsWith(prefix))` holds exactly when one of the prefixes starts the key |
| ImageKeys.IsSafeKey | functions/api/_s3.js:7-12 | A key is safe exactly when it is a non-empty string, not absolute, free of `..` and `\`, and is the icon or lies under `images/` or `header/` |
| ImageKeys.SafeKeyByCharacters | functions/api/_s3.js:7-12 | The same test stated character by character |
| ImageKeys.SafeKeyRefusesTraversal | functions/api/_s3.js:9 | `images/../data/products.json` is refused |
| ImageKeys.SafeKeyRefusesAbsolute | functions/api/_s3.js:9 | An absolute key is refused |
| ImageKeys.SafeKeyRefusesBackslash | functions/api/_s3.js:9 | A key with a backslash is refused |
| ImageKeys.SafeKeyRefusesOthers | functions/api/_s3.js:8-11 | Keys outside the folders, the empty string, numbers and null are refused |
| ImageKeys.ExtensionOf | functions/api/upload-images.js:28 | The extension is the lower-cased dot-free suffix that starts at the beginning or after a dot, that is the text after the last dot, or the whole name when there is no dot |
| ImageKeys.ContentTypeOfAcceptedUpload | functions/api/upload-images.js:38-43 | Every accepted extension maps to an image content type; `jpg` and `jpeg` to `image/jpeg`, the rest to `image/` plus the extension |
| ImageKeys.UploadImages | functions/api/upload-images.js:12-55 | Denied, unconfigured and unreadable requests are refused in that order; a body that is not JSON, or is null or undefined, is a 500; a `filenames` that is missing (it reads `undefined`) or not a non-empty array is a 400 "No filenames provided", and a list holding an unsafe name is a 400 "Invalid filename"; uploads are produced exactly when `filenames` is a non-empty array of safe image names, one per name in order, each with its public URL and a URL presigned for its content type |
| ImageKeys.AllValidUploads | functions/api/upload-images.js:27-32 | The loop passes exactly when every name is a safe key with an allowed extension |
| ImageKeys.UploadsStayInImageFolders | functions/api/upload-images.js:27-47 | Nothing is presigned outside the two folders and the icon, and one bad name refuses the whole request |
| ImageKeys.DeleteImages | functions/api/delete-images.js:9-45 | Denied and unconfigured requests are refused first; a body that is not JSON, or is null or undefined, is a 500; an `s3Keys` that is missing (it reads `undefined`) or not a non-empty array is a 400 "No keys provided", and a list holding an unsafe key is a 400 "Invalid key"; a delete is requested exactly when `s3Keys` is a non-empty array of safe keys, with those keys in order; success is reported exactly when the request is made and does not fail |
| ImageKeys.AllSafeKeys | functions/api/delete-images.js:24-28 | The loop passes exactly when every key is safe |
| ImageKeys.DeletesStayInImageFolders | functions/api/delete-images.js:24-38 | No S3 delete names a key outside the folders or one containing `..` |
| StripeForm.FormRendersLeaves | functions/api/_stripe.js:3-18 | `appendForm` emits one pair per scalar leaf of the value, in order, each under a key extending the given one |
| StripeForm.ElementsRender | functions/api/_stripe.js:5-9 | The array branch emits its elements' pairs in index order |
| StripeForm.FieldsRender | functions/api/_stripe.js:11-15 | The object branch emits its fields' pairs in key order |
| StripeForm.FormOfScalars | functions/api/_stripe.js:4-17 | null and undefined emit nothing; a scalar emits one pair of its key and `String(value)`; an empty array emits nothing |
| StripeForm.ArrayFormInOrder | functions/api/_stripe.js:5-9 | An array is the concatenation of its elements' forms under `key[i]` |
| StripeForm.ObjectFormInOrder | functions/api/_stripe.js:11-15 | An object is the concatenation of its fields' forms under `key[child]` |
| StripeForm.Entries | functions/api/_stripe.js:29 | `Object.entries` of an object is its fields and of an array its indices as strings with their elements |
| StripeForm.BuildRequest | functions/api/_stripe.js:20-35 | The URL is the API base plus the path; the bearer secret is always sent; a form body is sent exactly for a truthy body; the shared helper adds `Content-Type` only with a body, the create-checkout copy always, and the verify-checkout copy sends only `Authorization` |
| StripeForm.Receive | functions/api/_stripe.js:36-48 | A 2xx reply is returned parsed; otherwise the error is Stripe's `error.message`, the raw text, or `Stripe API error (status)`, in that order of preference |
| ServerCart.CatalogGet | functions/api/rate/verify-checkout.js:28 | The `Map` lookup finds a product exactly when one has that name, and then it is the last one |
| ServerCart.CatalogKeyingsAgree | functions/api/rate/create-checkout.js:26 | When every `itemName` is a string, keying by `String(itemName)` and by `itemName` find the same product |
| ServerCart.AddLine | functions/api/rate/verify-checkout.js:45-50 | Adding a priced line raises the total by its price, sums into an existing entry or appends a new one, and leaves every other entry alone |
| ServerCart.AddLineSums | functions/api/rate/verify-checkout.js:45-50 | One step of the loop keeps the invariant: entries are exactly the names seen, each holding that name's quantity and price sums, and the total is the sum of prices |
| ServerCart.Summarize | functions/api/rate/verify-checkout.js:29-53 | The cart has one entry per distinct name, each the sum of that name's quantities and prices, and the total is the sum of all prices |
| ServerCart.TotalIsSumOfEntries | functions/api/rate/verify-checkout.js:45-53 | The total always equals the sum of the entries' prices |
| ServerCart.PriceLine | functions/api/rate/verify-checkout.js:40-43 | A line is priced exactly when `Number(price)` and `Number(quantityKey)` are finite, with those values |
| ServerCart.ValidateLine | functions/api/rate/verify-checkout.js:33-43 | A line without a name or quantity key, or naming no product, is invalid; a valid line keeps its name |
| ServerCart.ValidateLines | functions/api/rate/verify-checkout.js:32-51 | All lines validate or the cart is invalid; valid lines are priced in order |
| ServerCart.BuildValidatedCart | functions/api/rate/verify-checkout.js:23-54 | A non-array or empty cart is invalid; the cart is valid exactly when every line validates, and then it is the summary of the priced lines |
| ServerCart.ValidCartSums | functions/api/rate/verify-checkout.js:23-54 | A valid cart's total equals the sum of its entries' prices |
| ServerCart.PricedNames | functions/api/rate/verify-checkout.js:33-38 | The names in a validated cart are exactly the names on its lines |
| ServerCart.SummaryLine | functions/api/rate/create-checkout.js:57-68 | An unknown product throws "Unknown product"; a non-finite price or quantity throws "Invalid quantity for" the name |
| ServerCart.SummaryLines | functions/api/rate/create-checkout.js:57-76 | Every line is priced or the first failing line's error is thrown |
| ServerCart.BuildCartSummary | functions/api/rate/create-checkout.js:52-79 | The summary is the sum per name and the total of the priced lines, or the first line's error |
| ServerCart.SummaryAgreesWithValidation | functions/api/rate/create-checkout.js:52-79 | On a cart that verify-checkout accepts, create-checkout's summary is the same cart and total |
| ServerCart.LinesAgree | functions/api/rate/create-checkout.js:57-68 | Lines that validate are priced the same way by both endpoints |
| ServerCart.Cents | functions/api/rate/create-checkout.js:45 | The unit amount is the price times 100 |
| ServerCart.StripeLineItem | functions/api/rate/create-checkout.js:28-48 | A null line throws; an unknown product throws "Unknown product"; an item keeps the line's name and quantity key, quantity 1 and the catalog price in cents |
| ServerCart.BuildStripeLineItems | functions/api/rate/create-checkout.js:25-50 | One item per line in order, or the first failing line's error |
| CheckoutEndpoints.LoadProducts | functions/api/rate/create-checkout.js:17-23 | The catalog is the stored array; no binding and a non-array are the two distinct errors |
| CheckoutEndpoints.CaughtError | functions/api/rate/create-checkout.js:172-179 | Errors naming an unknown product, an invalid quantity or an empty cart become 400 "Invalid cart"; all others are 500 |
| CheckoutEndpoints.LineItemErrorsAreClientErrors | functions/api/rate/create-checkout.js:25-50 | Every error the line-item builder throws on non-null lines is answered as "Invalid cart" |
| CheckoutEndpoints.SummaryErrorsAreClientErrors | functions/api/rate/create-checkout.js:52-79 | Every error the summary builder throws is answered as "Invalid cart" |
| CheckoutEndpoints.LineItemForm | functions/api/rate/create-checkout.js:38-48 | A line item is sent as exactly five form fields, in order: currency `usd`, product name, `actual_quantity` metadata, unit amount and quantity `1` |
| CheckoutEndpoints.ReturnUrl | functions/api/rate/create-checkout.js:8-11 | The return URL is the return path and its query after a prefix of the site base, as resolving an absolute path against a base gives |
| CheckoutEndpoints.ReturnUrlKeepsOrigin | functions/api/rate/create-checkout.js:10 | Resolving against `scheme://authority` keeps only the scheme and authority: a trailing slash, a path, a query or a fragment of the site base is dropped |
| CheckoutEndpoints.PricedCall | functions/api/rate/create-checkout.js:158-167 | A session request is made exactly when the catalog loads and both builders succeed; it posts the line items and return URL to `/checkout/sessions` |
| CheckoutEndpoints.PricingError | functions/api/rate/create-checkout.js:158-160 | The error reported is the catalog's, else the line items', else the summary's |
| CheckoutEndpoints.SessionResponse | functions/api/rate/create-checkout.js:162-179 | 200 with the client secret exactly when Stripe returns a session, else the caught error |
| CheckoutEndpoints.CreateCheckout | functions/api/rate/create-checkout.js:145-180 | A missing secret is a 500 with no call; an unreadable body is the caught error; an empty cart is 400 "Cart is empty" with no call; for a non-empty cart a pricing failure is the caught pricing error with no call, and otherwise the priced call is made and the answer is the session response |
| CheckoutEndpoints.EmptyCartIgnoresCatalog | functions/api/rate/create-checkout.js:153-156 | An empty cart is refused before the catalog is read or Stripe is called |
| CheckoutEndpoints.LoadProductsOrNull | functions/api/rate/verify-checkout.js:16-21 | The catalog is read only when bound and an array; a failed read throws |
| CheckoutEndpoints.CartMismatch | functions/api/rate/verify-checkout.js:191-206 | The mismatch flag is set exactly when the client's cart and total do not match the validated cart |
| CheckoutEndpoints.ItemsAgree | functions/api/rate/verify-checkout.js:198-204 | The loop finds no mismatch exactly when every server entry has a client entry with equal quantity and price |
| CheckoutEndpoints.VerdictsMeanAgreement | functions/api/rate/verify-checkout.js:198-204 | The per-entry verdicts all hold exactly when every entry agrees |
| CheckoutEndpoints.AllTrue | functions/api/rate/verify-checkout.js:198-204 | The early-exit scan reports true exactly when every verdict holds |
| CheckoutEndpoints.HonestClaimMatches | functions/api/rate/verify-checkout.js:191-206 | A client that reports the validated cart and total exactly is never flagged |
| CheckoutEndpoints.CustomerEmail | functions/api/rate/verify-checkout.js:185 | The email is Stripe's when truthy, else the client's, else null |
| CheckoutEndpoints.Decide | functions/api/rate/verify-checkout.js:277-280 | `success` is true exactly when paid and the claim matches; the email is reported as found |
| CheckoutEndpoints.ServerCartOf | functions/api/rate/verify-checkout.js:187-188 | With no catalog the cart is invalid; otherwise it is the validated cart of the request's lines |
| CheckoutEndpoints.VerifyCheckout | functions/api/rate/verify-checkout.js:167-285 | A missing secret is a 500 with no call; a missing session id is 400 with no call; the call is made exactly for a readable body with a session id, is a GET of that session, and the answer is then the verified response; when Stripe returns a session and the cart validates, the answer is 200 and `success` is true exactly when paid and the claim matches |
| CheckoutEndpoints.VerifiedResponse | functions/api/rate/verify-checkout.js:183-284 | 200 exactly when Stripe returns a session and the catalog read does not throw; then `success` is paid-and-matching |
| ClientCart.GetCartStore | src/js/modules/cart.js:11-27 | A non-empty store is read only from a parsable current-format value, and then its lines are the stored lines and its summary the stored summary object (an array summary reads as empty, see Left out); anything else reads as the empty store |
| ClientCart.SavedStoreReadsBack | src/js/modules/cart.js:11-31 | A saved store reads back as itself |
| ClientCart.LegacySummaryIsDiscarded | src/js/modules/cart.js:19-22 | An older summary-only object reads as the empty cart |
| ClientCart.AddToEntry | src/js/modules/cart.js:54-59 | A missing or falsy entry becomes `{quantity, price}`; an object entry has the amounts added with `+`; a truthy primitive throws |
| ClientCart.AddToEntrySums | src/js/modules/cart.js:55-56 | Integer amounts are summed |
| ClientCart.AddToCart | src/js/modules/cart.js:43-64 | A lookup error, an unknown product and a missing price are the three errors, in that order; success is the line added with the `parseInt` of the quantity key |
| ClientCart.AddLine | src/js/modules/cart.js:50-63 | One line is appended; the product's entry is updated; every other entry and the key order stay; a new product's key goes last |
| ClientCart.AddLineStartsEntry | src/js/modules/cart.js:57-58 | A product new to the cart starts at the added quantity and price |
| ClientCart.AddLineSumsEntry | src/js/modules/cart.js:54-56 | A product already in the cart accumulates quantity and price |
| ClientCart.KeepOtherLines | src/js/modules/cart.js:70 | The result is the reference filter of the lines for other products, in order and with their multiplicity; it throws exactly when a line is null or undefined |
| ClientCart.KeepOtherLinesIdempotent | src/js/modules/cart.js:70 | Filtering twice is filtering once |
| ClientCart.RemoveFromCart | src/js/modules/cart.js:66-72 | After removal the product has no entry and no line; the lines are the others in order, the summary keys the others in order, and every other entry keeps its value |
| Dicts.KeysOfRemove | src/js/modules/cart.js:69 | `delete` leaves the other keys in their old order |
| ClientCart.RemoveFromCartIdempotent | src/js/modules/cart.js:66-72 | Removing twice is removing once |
| ClientCart.EmptyStoreNamesAgree | src/js/modules/cart.js:13 | The empty store's lines and summary name the same products |
| ClientCart.AddKeepsNamesAgree | src/js/modules/cart.js:43-64 | Adding keeps the lines and the summary naming the same products |
| ClientCart.RemoveKeepsNamesAgree | src/js/modules/cart.js:66-72 | Removing keeps the lines and the summary naming the same products |
| ClientCart.EmptyCartHasNoLines | src/js/modules/cart.js:83-85 | When lines and summary agree, the cart is empty exactly when there are no lines |
| ClientCart.SumPrices | src/js/modules/cart.js:78-81 | `reduce` succeeds exactly when every entry can be read |
| ClientCart.SumPricesOfNumbers | src/js/modules/cart.js:78-81 | With numeric prices the total is their integer sum |
| ClientCart.AddRaisesTotal | src/js/modules/cart.js:43-81 | Adding a line raises the cart total by the line's price |
| ClientCart.BuildLineItems | src/js/modules/cart.js:89-100 | One item per summary entry in key order, named by the key, quantity 1, the price times 100 and the actual quantity |
| ClientCart.LineItemsMatchTotal | src/js/modules/cart.js:78-100 | With numeric prices the items' unit amounts add up to 100 times the cart total |
| ClientDatabase.Select | src/js/modules/database.js:15-36 | Without a key (left out, `null` or `undefined`) the table is returned; a non-array table gives itself or null; with an array, the first row whose key matches by `String` is returned (null for a falsy row), no match gives null, and it throws exactly when an unreadable row is reached first |
| ClientDatabase.GetTable | src/js/modules/database.js:15-37 | A cached table is never fetched again; an admin's 401 logs out and returns null without caching; only a successful fetch changes the cache, and only for that table |
| ClientDatabase.GetTableLoadsOnce | src/js/modules/database.js:15-26 | After one successful load the next lookup uses the cache whatever the network would say |
| ClientDatabase.ClearCache | src/js/modules/database.js:43-49 | A truthy name drops only that table; otherwise the whole cache is emptied |
| ClientDatabase.Write | src/js/modules/database.js:68-106 | A 401 logs out with "Unauthorized"; other failures report `HTTP status` or the network message and keep the cache; success drops the table from the cache and returns the server's reply |
| ClientDatabase.WriteThenReadRefetches | src/js/modules/database.js:68-106 | After a successful write, the next read of that table goes to the network |
| Menu.SortPrices | src/js/pages/menu.js:106-112 | The sorted prices are a rearrangement of the entries, in ascending numeric key order when every key is numeric |
| Menu.SortPricesKeepsPairs | src/js/pages/menu.js:106-112 | Sorting keeps keys distinct and every key's price |
| Menu.NormaliseRecord | src/js/pages/menu.js:18-24 | The name is kept; a truthy description, image list or customization map is kept unchanged and a falsy one becomes its empty default; prices are a rearrangement of the price entries (or none when the map is falsy), in ascending numeric order of their keys when every key is numeric |
| Menu.NormaliseAll | src/js/pages/menu.js:18-24 | All products normalise in order exactly when none is null or undefined |
| Menu.NormaliseIdempotent | src/js/pages/menu.js:18-24 | Normalising a normalised record changes nothing |
| Menu.ReadBack | src/js/pages/menu.js:18-24 | A record already in normal form is its own normalisation |
| Menu.GridLayout | src/js/pages/menu.js:28-41 | The rows list every product once, in order, two per row, with the last one centred exactly when the count is odd |
| Menu.OptionValues | src/js/components/product.js:27-29 | Null or undefined prices throw; otherwise there is one option per price entry, and with `_`-free keys each option splits back to the key at its place in the numerically sorted entries |
| Menu.QuantityRecovered | src/js/pages/menu.js:51-53 | Splitting an option's value on `_` recovers the quantity it was built from |
| Menu.OptionsOfferEveryKey | src/js/components/product.js:27-29 | With `_`-free keys the options offer every price key and nothing else |
| Menu.OfferedAt | src/js/components/product.js:27-29 | Every price key is offered by some option |
| Menu.OfferedIsKey | src/js/components/product.js:27-29 | Every option offers a price key |
| Menu.OptionsAscend | src/js/components/product.js:27 | With numeric `_`-free keys the options come in ascending order of quantity |
| Customize.PairOf | src/js/pages/customize.js:204-206 | A piece is split on `:` and its first two fields trimmed; it is kept only when both are non-empty, so neither holds a `:` |
| Customize.PairsOf | src/js/pages/customize.js:204 | One piece per comma-separated field, in order |
| Customize.Collect | src/js/pages/customize.js:202-217 | The parsed object has distinct keys, a key exactly for each kept piece, and the value of the last piece with that key |
| Customize.ParsePrices | src/js/pages/customize.js:201-208 | A quantity is present exactly when some piece yields it, and its price is `parseInt` of the last such piece |
| Customize.ParseCustomizations | src/js/pages/customize.js:210-217 | A name is present exactly when some piece yields it, and its value is the trimmed text of the last such piece |
| Customize.EmptyTextParsesEmpty | src/js/pages/customize.js:203-216 | A blank field parses to an empty object |
| Customize.PairOfFormatted | src/js/pages/customize.js:205 | `k:v` reads back as the pair when both are plain text |
| Customize.ParseFormatted | src/js/pages/customize.js:211-217 | Parsing `k:v, k:v` typed from an object gives the object back |
| Customize.Without | src/js/pages/customize.js:292 | The filter removes every copy of the URL and keeps the count of every other |
| Customize.SectionImages | src/js/pages/customize.js:289-319 | The intended save: the saved list is the section's existing URLs without the removed one, then the uploaded URLs |
| Customize.SectionImagesCounts | src/js/pages/customize.js:289-319 | The removed URL survives only if uploaded again; every other URL keeps its count plus its uploads |
| Customize.SectionSaveAsWritten | src/js/pages/customize.js:289-319 | As written, the saved list is just the uploads: the existing images are never read |
| Customize.SectionSaveDropsImages | src/js/pages/customize.js:289-319 | An existing image neither removed nor uploaded again is lost as written and kept by the intended save |
| Customize.WithoutKeepsOrder | src/js/pages/customize.js:292 | Survivors stay in their original order |
| Customize.WithoutAny | src/js/pages/customize.js:220 | No URL marked for removal survives, and every other keeps its count |
| Customize.WithoutSingle | src/js/pages/customize.js:220 | Marking one URL for removal filters as the section edit does |
| Customize.EditedImages | src/js/pages/customize.js:219-248 | Every saved URL is a kept existing one or an upload; every unmarked existing URL is kept; the uploads come last |
| Customize.EditedImagesCounts | src/js/pages/customize.js:219-248 | A marked URL survives only if uploaded again; every other keeps its count plus its uploads |
| Customize.EditProduct | src/js/pages/customize.js:195-249 | The intended save: the record holds the typed name and description, the parsed prices and customizations (empty objects for blank fields), and the product's images as `EditedImages` leaves them |
| Customize.ProductRecordFields | src/js/pages/customize.js:242-249 | A product record reads back its five fields: name, description, prices, customizations and image URLs |
| Customize.EditSaveAsWritten | src/js/pages/customize.js:194-220 | As written, the save throws a ReferenceError at the image list, before anything is deleted, uploaded or saved |
| Customize.EditSaveLosesEdits | src/js/pages/customize.js:194-249 | Whatever was typed, the save as written keeps nothing, while the intended save writes the name and the surviving images |
| Customize.AddProduct | src/js/pages/customize.js:351-387 | Nothing is saved exactly when the name is empty; otherwise the record holds the name, the description, the parsed prices and customizations, and the uploaded URLs (none when the upload failed) |
| Customize.TypedCustomizationsSaved | src/js/pages/customize.js:367-386 | Customizations typed as `k:v, k:v` are saved as the object they spell |
| Customize.AddSection | src/js/pages/customize.js:390-413 | Nothing is saved exactly when the section index is empty; otherwise the record for that page holds the index, the header and body texts, and the uploaded URLs |
| Customize.SectionRecordFields | src/js/pages/customize.js:411 | A section record reads back its four fields |
| CheckoutForm.EnterCheckout | src/js/pages/checkout.js:13-17 | The page redirects to `/menu` exactly when the cart is empty, that is when it has no lines |
| CheckoutForm.EmailCheckMatchesPattern | src/js/pages/checkout.js:132-133 | The email check accepts exactly the strings `^[^\s@]+@[^\s@]+\.[^\s@]+$` matches |
| CheckoutForm.SeparatorsDoNotCount | src/js/pages/checkout.js:141 | Spaces, dashes and brackets between digits do not change the digit count |
| CheckoutForm.AllDigitsCount | src/js/pages/checkout.js:141 | A string of digits counts every character |
| CheckoutForm.ValidateCheckout | src/js/pages/checkout.js:114-176 | Name, email, phone, date and the too-soon check fail in that order with their messages; the details are saved exactly when all pass, with trimmed name and email and the defaults `pickup` and `''` |
| HtmlEscape.EscapeChar | src/js/pages/mail.js:30-38 | Only `& < > " '` are replaced, by entities beginning `&`; the output never contains `< > " '` |
| HtmlEscape.ChainIsCharwise | src/js/pages/mail.js:32-37 | The five chained global replaces equal escaping each character on its own |
| HtmlEscape.EscapeHtml | functions/api/rate/verify-checkout.js:79-87 | A falsy value gives `''`; otherwise `String(value)` escaped, with no `< > " '` left |
| HtmlEscape.UnescapeEscape | src/js/pages/mail.js:30-38 | Escaping loses nothing: the text can be read back |
| HtmlEscape.BreaksAfterEscape | src/js/pages/mail.js:40 | Turning newlines into `<br>` after escaping is the same as doing both per character |
| HtmlEscape.FormatBody | src/js/pages/mail.js:40 | A formatted body has no newline, quote or apostrophe |
| Mail.SortNewestFirst | src/js/pages/mail.js:27-28 | Sorting rearranges the box without losing or adding a message |
| Mail.NewestFirst | src/js/pages/mail.js:27-28 | When every date is a number the box runs from newest to oldest |
| Mail.SortedBoxUnchanged | src/js/pages/mail.js:27-28 | A box already newest first is left as it is, ties included |
| Mail.CardOf | src/js/pages/mail.js:30-55 | Each of from, to, date and subject shows as `''` when falsy and otherwise as its text with every character escaped; the body likewise, with each newline shown as `<br>`; no field holds markup characters and the body no newline |
| Mail.CardShowsSender | src/js/pages/mail.js:50 | The sender shown reads back to the sender's text |
| Mail.ShowBox | src/js/pages/mail.js:43-72 | The empty notice appears exactly for an empty box, and there is one card per message in newest-first order |
| Mail.Compose | src/js/pages/mail.js:102-113 | The message is from the support address, to a one-element list holding the recipients field, dated now, with the typed subject and body |
| Slider.Initial | src/js/shared.js:66-67 | A slider starts at the first slide |
| Slider.Rem | src/js/shared.js:111 | `%` is NaN for NaN or a zero divisor and keeps an index already in range |
| Slider.Next | src/js/shared.js:110-113 | Forward from the last slide wraps to the first; otherwise one on; no slides gives NaN |
| Slider.Prev | src/js/shared.js:115-118 | Back from the first slide wraps to the last; otherwise one back; no slides gives NaN |
| Slider.NextPrevInverse | src/js/shared.js:110-118 | Forward then back, or back then forward, returns to the same slide |
| Slider.FullTurn | src/js/shared.js:110-113 | As many presses as there are slides return to the slide shown before |
| Slider.WrapToFirst | src/js/shared.js:110-113 | Pressing forward past the last slide lands on the first |
| Slider.HandleSwipe | src/js/shared.js:92-103 | A swipe of more than 50 pixels leftwards goes forward, rightwards goes back, shorter does nothing |
| Slider.Offset | src/js/shared.js:105-108 | The wrapper is shifted left by 100% per index, between `-(n-1)*100` and 0 for an index in range |
| Sorting.SortByRank | src/js/pages/menu.js:108 | The comparator sort is a permutation, ascending by rank when every rank is a number |
| Sorting.SortOrderedIsIdentity | src/js/pages/mail.js:27-28 | Sorting an already ordered list leaves it unchanged (the sort is stable) |
| Strings.Trim | src/js/pages/customize.js:205 | The trimmed text is a slice of the input whose ends are not whitespace |
| Strings.TrimRemovesOnlyWhitespace | src/js/pages/customize.js:205 | Everything `trim` removes from either end is whitespace |
| Strings.LastPart | functions/api/upload-images.js:28 | `split(c).pop()` is the suffix after the last separator, or the whole text when there is none |
| Strings.SplitLastIsSuffix | functions/api/upload-images.js:28 | The last part of a split starts at the beginning or just after a separator |
| Strings.Split | functions/api/_jwt.js:67 | At least one part, and no part contains the separator |
| Strings.JoinSplit | functions/api/_jwt.js:67 | Joining the parts with the separator gives the text back |
| Strings.SplitJoin | functions/api/_jwt.js:67 | Splitting separator-free parts joined by it gives the parts back |
| Strings.Includes | functions/api/_s3.js:9 | `includes` holds exactly when the text occurs somewhere |
| Strings.ToLowerAscii | functions/api/upload-images.js:28 | `toLowerCase` maps each ASCII capital to its small letter and keeps the length |
| JsValues.ParseInt | src/js/modules/cart.js:52 | A string of digits parses to its decimal value |
| JsValues.NumberOfDigits | functions/api/rate/verify-checkout.js:41-42 | `Number()` of a non-empty string of digits is its decimal value, and of blank text is 0 |
| JsValues.NumberOfExponent | functions/api/rate/authenticate.js:21 | `Number()` of digits, `e` and digits is the mantissa times ten to the exponent |
| JsValues.NumberOfRadix | src/js/pages/menu.js:108 | `Number()` of `0x`, `0o` or `0b` and digits of that radix is their value in that radix |
| PasswordAuth.ParseStoredHash | functions/api/rate/authenticate.js:18-24 | A `pbkdf2$count$salt$hash` text with `$`-free fields parses exactly when the count reads as a positive number, and then to that count, salt and hash |
| PasswordAuth.ExponentIterationsAccepted | functions/api/rate/authenticate.js:21-22 | An iteration count written with an exponent, such as `1e5`, is accepted with its value |
| Jwt.ExponentExpiryRead | functions/api/_jwt.js:85 | A string `exp` written with an exponent is expired exactly when its value is before the time |

## Left out

- The source has no coalescing rebuild or purge scheduler, so nothing models one. After a KV write there are
  only two fire-and-forget fetches, both left out as network I/O:
  - one CDN purge (functions/api/_deploy.js:3-16);
  - one deploy-hook call (functions/api/delete-data.js:40-43).
- The get-inbox, get-outbox, send-email and get-order endpoints are I/O and are not modelled. Neither are the
  `listEmails` and `createAwsClients` helpers of `_s3.js`.
- I/O, crypto and the clock are parameters:
  - HMAC-SHA-256, PBKDF2, `JSON.parse`/`JSON.stringify`, UTF-8 encoding, the clock, KV, S3 presigning,
    SES and `fetch`;
  - Each is a function or value passed in, for example `Jwt.Primitives`, `presign`, `derive` and `reply`. Their
    own correctness is not modelled.
- Numbers are integers or `NaN`. The source works with floats, so these are integer-only:
  - fractional prices and `Math.round`;
  - `toFixed`;
  - `Number()` of a fractional string;
  - touch coordinates.
- `String.prototype.toLowerCase` is modelled for ASCII letters only.
- JavaScript orders integer-like object keys before the others. Objects here keep plain insertion order.
- `JSON.stringify` turning `NaN` into `null` is not modelled.
- ClientCart.GetCartStore: a stored `summary` that is an array reads as an empty summary, and a truthy array
  entry is treated like a primitive that throws. JavaScript would keep both as objects.
- ClientCart: `clearCart`, `getCartLines`, the customer-details and completed-order storage
  (cart.js:74-76, 102-136) are plain storage writes and reads, not modelled.
- `persistOrderSnapshot` in create-checkout is not modelled (create-checkout.js:81-95, 169). It is a
  best-effort KV write whose failure is only logged.
- verify-checkout's order e-mails, receipt texts and S3 replay guard are not modelled (verify-checkout.js:89-165,
  209-275). They run only for a paid, matching order, so `success` is already true; a replay answers with the
  same body. When the guard's S3 head or put request fails for another reason, the handler answers 500. The
  model does not have that path.
- PasswordAuth.TimingSafeEqual compares Unicode code points where the source compares UTF-16 code units.
  The verdict is the same, because two strings are equal exactly when their code units are.
- Mail.SortNewestFirst: when some date is not a number the comparator returns `NaN`. The order the engine
  then picks is implementation-defined, so only the permutation is stated in that case.
- Fetching the inbox and outbox and sending a composed message are I/O, not modelled. The body preview is
  DOM work, also not modelled.
- CheckoutForm.ValidateCheckout: the too-soon test compares the chosen date with two days from now. It needs
  the clock and date parsing, so its outcome is the `tooSoon` parameter. Its message says three days while
  the code adds two; the model keeps the message as written.
- CheckoutForm: after validation, `saveCompletedOrder` and the Stripe `confirm` call are not modelled. Nor is
  the order summary rendering.
- Customize.EditProduct: every input is taken as present. A missing input element would make `?.value`
  undefined and drop the field from the JSON, which is not modelled.
- Customize: the `deleteImages` calls and the `new URL(...).pathname` key extraction are not modelled.
  The `Date.now()` file names are not modelled either.
- Slider: arrows are wired only when both exist. This is DOM wiring, not modelled.
- `database.js` `authHeaders` and the redirect done by `handle401` are not modelled. Only the fact that a
  401 logs out is kept.
- Rendering of products, cart lists and pages is not modelled (HTML strings and DOM updates).
- JsValues.NumberOf reads decimal literals with a sign, a fraction and an exponent, and `0x`/`0o`/`0b`
  literals, but only integral values are numbers here: `1.5`, `1e-3`, `Infinity` and `-Infinity` read as
  `NaN`, where `Number()` gives a number. Magnitudes beyond the double range stay exact integers.
- PasswordAuth.ParsePbkdf2Hash: a fractional iteration count such as `pbkdf2$1.5$s$h` is accepted by the
  source and refused here, and a count beyond the double range such as `1e400` is `Infinity` and refused by
  the source but accepted here as an integer.
- Jwt.Verify: a string `exp` that is fractional or `-Infinity` reads as `NaN` here, so it never expires, where
  the source compares its number with the time.
- JsValues.ParseInt does not recognise the `0x` prefix that makes a radix-less `parseInt` read hexadecimal.
- Property reads see only an object's own fields. Names inherited from `Object.prototype` (`constructor`,
  `__proto__`, `toString`) are absent here, where JavaScript would find them.
- ImageKeys.UploadImages: a presigning call that rejects makes the handler answer 500 "Internal error"
  (functions/api/upload-images.js:37-54). `presign` is a total function here, so that path is not modelled.
- KvTables.SaveData and KvTables.DeleteData: a rejected `kv.put` answers 500 (functions/api/save-data.js:49,
  functions/api/delete-data.js:38). The write is modelled as always succeeding.
- CheckoutEndpoints.CreateCheckout: the return URL's base is the `siteBase` parameter. The fallback to
  `new URL(request.url).origin` is not modelled (functions/api/rate/create-checkout.js:8-10).
- CheckoutEndpoints.ReturnUrl: only a base written `scheme://authority…` is resolved. The source throws for a
  base that is not an absolute URL, and the handler then answers 500; here such a base is kept whole. The
  normalisation done when a URL is serialised (lower-cased host, default port dropped, percent-encoding) is
  not modelled either.
- StripeForm.BuildRequest: the form body is the list of key/value pairs. The percent-encoding done by
  `URLSearchParams.toString()` is not modelled (functions/api/_stripe.js:28-32).
- Sorting, Menu.SortPrices and Mail.SortNewestFirst: ties keep their order because `Array.prototype.sort` is
  stable since ECMAScript 2019. An older engine might order ties differently.

## Findings

| source | as written | input that shows it | evidently intended | confidence | as-written member | corrected member |
|---|---|---|---|---|---|---|
| src/js/pages/customize.js:220 | The product save handler reads `product.imageURLs`, but no `product` is in scope there (the name is only a parameter of the render loop at line 64), so the click throws a ReferenceError before anything is saved | any click on a product's save button | start from the imageURLs of the product the row shows, minus the removed ones, plus the uploads | not executed | Customize.EditSaveAsWritten (shown by Customize.EditSaveLosesEdits) | Customize.EditProduct |
| src/js/pages/customize.js:290 | The section save reads `row.dataset.imageUrls`, but the section row is rendered without a `data-image-urls` attribute (src/js/components/customize-page.js:38), so the existing images always read as empty | a section with one image, saved with no image removed or uploaded | start from the images the row renders (src/js/components/customize-page.js:74) | not executed | Customize.SectionSaveAsWritten (shown by Customize.SectionSaveDropsImages) | Customize.SectionImages |

=== FILE: auth_gate.dfy ===
/**
 * `checkAuth`, the gate in front of every admin handler: a configured
 * secret, an `Authorization: Bearer <token>` header, and a token that
 * verifies. It answers None to let the request through, or the response
 * to send instead.
 */
module AuthGate {
  import opened Outcomes
  import opened Strings
  import opened JsValues
  import opened Http
  import opened Jwt
  import Dicts

  const BearerPrefix := "Bearer "

  const Unauthorized := ErrorResponse(401, "Unauthorized")

  const SecretMissing := ErrorResponse(500, "JWT_SECRET not configured")

  /** `!JWT_SECRET`: the variable is unset or empty. */
  predicate Unset(v: Option<string>) {
    v.None? || v.value == ""
  }

  /**
   * `checkAuth(context)`. `jwtSecret` is the environment variable,
   * `authorization` the request header (None when absent) and `now` the
   * current time in seconds.
   */
  function CheckAuth(p: Primitives, jwtSecret: Option<string>, authorization: Option<string>, now: int): (denied: Option<Response>)
    ensures Unset(jwtSecret) ==> denied == Some(SecretMissing)
    ensures !Unset(jwtSecret) && (authorization.None? || !StartsWith(authorization.value, BearerPrefix)) ==>
      denied == Some(Unauthorized)
    ensures denied.None? <==>
      !Unset(jwtSecret) && authorization.Some? && StartsWith(authorization.value, BearerPrefix) &&
      Verify(p, authorization.value[|BearerPrefix|..], jwtSecret.value, now).Ok?
    ensures denied.Some? ==> denied.value == SecretMissing || denied.value == Unauthorized
  {
    if Unset(jwtSecret) then Some(SecretMissing)
    else if authorization.None? || authorization.value == "" || !StartsWith(authorization.value, BearerPrefix) then
      Some(Unauthorized)
    else
      var token := authorization.value[7..];
      match Verify(p, token, jwtSecret.value, now)
      case Err(_) => Some(Unauthorized)
      case Ok(_) => None
  }

  /** The token checked is the header with its first seven characters, `Bearer `, removed. */
  lemma TokenIsHeaderTail(token: string)
    ensures StartsWith(BearerPrefix + token, BearerPrefix) && (BearerPrefix + token)[7..] == token
  {
  }

  /**
   * A token signed with the configured secret lets its bearer through until
   * it expires, given UTF-8 and JSON that round-trip on its claims.
   */
  lemma FreshTokenAuthorizes(p: Primitives, payload: Dicts.Dict<JsValue>, secret: string, issuedAt: int,
                             expiresIn: int, now: int)
    requires secret != ""
    requires var text := p.stringify(Obj(Claims(payload, issuedAt, expiresIn)));
      p.utf8Decode(p.utf8(text)) == text && p.parse(text) == Some(Obj(Claims(payload, issuedAt, expiresIn)))
    requires now <= issuedAt + expiresIn
    ensures CheckAuth(p, Some(secret), Some(BearerPrefix + Sign(p, payload, secret, issuedAt, expiresIn)), now).None?
  {
    TokenIsHeaderTail(Sign(p, payload, secret, issuedAt, expiresIn));
    SignThenVerify(p, payload, secret, issuedAt, expiresIn, now);
  }
}

=== FILE: base64url.dfy ===
/**
 * base64url (section 5 of RFC 4648) as the token code builds it: the
 * standard base64 that `btoa` produces, with `+` and `/` replaced by `-` and
 * `_` and the `=` padding dropped; and the reverse, which restores the
 * alphabet and the padding and hands the text to `atob`.
 */
module Base64Url {
  import opened Outcomes
  import opened Strings

  type Byte = x: int | 0 <= x < 256

  // ---------------------------------------------------------------- alphabets

  /** The character of a 6-bit value in the standard alphabet (Table 1 of RFC 4648). */
  function StdChar(v: int): (c: char)
    requires 0 <= v < 64
    ensures IsStdChar(c)
  {
    if v < 26 then ('A' as int + v) as char
    else if v < 52 then ('a' as int + v - 26) as char
    else if v < 62 then ('0' as int + v - 52) as char
    else if v == 62 then '+'
    else '/'
  }

  predicate IsStdChar(c: char) {
    ('A' <= c <= 'Z') || ('a' <= c <= 'z') || ('0' <= c <= '9') || c == '+' || c == '/'
  }

  predicate AllStdChars(s: string) {
    forall i :: 0 <= i < |s| ==> IsStdChar(s[i])
  }

  /** The 6-bit value of a character of the standard alphabet: the inverse of `StdChar`. */
  function StdValue(c: char): (v: int)
    requires IsStdChar(c)
    ensures 0 <= v < 64 && StdChar(v) == c
  {
    if 'A' <= c <= 'Z' then c as int - 'A' as int
    else if 'a' <= c <= 'z' then c as int - 'a' as int + 26
    else if '0' <= c <= '9' then c as int - '0' as int + 52
    else if c == '+' then 62
    else 63
  }

  lemma StdValueOfChar(v: int)
    requires 0 <= v < 64
    ensures IsStdChar(StdChar(v)) && StdValue(StdChar(v)) == v
  {
  }

  /** The URL- and filename-safe alphabet of Table 2 of RFC 4648. */
  predicate IsUrlChar(c: char) {
    ('A' <= c <= 'Z') || ('a' <= c <= 'z') || ('0' <= c <= '9') || c == '-' || c == '_'
  }

  /** `.replace(/\+/g, '-').replace(/\//g, '_')`. */
  function ToUrlAlphabet(s: string): string {
    ReplaceAll(ReplaceAll(s, '+', '-'), '/', '_')
  }

  /** `.replace(/-/g, '+').replace(/_/g, '/')`. */
  function FromUrlAlphabet(s: string): string {
    ReplaceAll(ReplaceAll(s, '-', '+'), '_', '/')
  }

  // ---------------------------------------------------------------- encoding

  /** One group of one to three bytes as two to four characters: six bits per character, the last one zero-filled. */
  function EncodeGroup(g: seq<Byte>): (s: string)
    requires 1 <= |g| <= 3
    ensures |s| == |g| + 1 && AllStdChars(s)
  {
    if |g| == 1 then [StdChar(g[0] / 4), StdChar(g[0] % 4 * 16)]
    else if |g| == 2 then [StdChar(g[0] / 4), StdChar(g[0] % 4 * 16 + g[1] / 16), StdChar(g[1] % 16 * 4)]
    else [StdChar(g[0] / 4), StdChar(g[0] % 4 * 16 + g[1] / 16), StdChar(g[1] % 16 * 4 + g[2] / 64), StdChar(g[2] % 64)]
  }

  /** The standard-alphabet characters of `b` without padding, group by group. */
  function EncodeChars(b: seq<Byte>): (s: string)
    ensures |s| == UnpaddedLength(|b|)
    ensures AllStdChars(s)
    decreases |b|
  {
    if |b| == 0 then ""
    else if |b| <= 3 then EncodeGroup(b)
    else EncodeGroup(b[..3]) + EncodeChars(b[3..])
  }

  /** The number of characters `n` bytes encode to before padding. */
  function UnpaddedLength(n: nat): nat {
    if n == 0 then 0 else if n == 1 then 2 else if n == 2 then 3 else 4 + UnpaddedLength(n - 3)
  }

  /** One or two bytes past a whole group leave two or three characters past a group of four. */
  lemma {:induction false} UnpaddedLengthMod(n: nat)
    ensures UnpaddedLength(n) % 4 == (if n % 3 == 0 then 0 else n % 3 + 1)
    ensures n > 0 ==> UnpaddedLength(n) > 0
  {
    if n >= 3 {
      UnpaddedLengthMod(n - 3);
    }
  }

  /** `btoa` of the binary string whose code units are the bytes: padded with `=` to a multiple of four. */
  function Btoa(b: seq<Byte>): (s: string)
    ensures |s| % 4 == 0
  {
    UnpaddedLengthMod(|b|);
    EncodeChars(b) + Repeat('=', (3 - |b| % 3) % 3)
  }

  /**
   * `base64urlEncode` of a byte sequence: the unpadded standard encoding
   * with `+` and `/` renamed, so every character is URL-safe and none is
   * the `=` of padding or the `.` that separates the parts of a token.
   */
  function Encode(b: seq<Byte>): (r: string)
    ensures r == ToUrlAlphabet(EncodeChars(b))
    ensures |r| == UnpaddedLength(|b|)
    ensures forall i :: 0 <= i < |r| ==> IsUrlChar(r[i])
    ensures '=' !in r && '.' !in r
  {
    EncodeIsRenamedChars(b);
    EncodeAlphabet(b);
    TrimTrailing(ToUrlAlphabet(Btoa(b)), '=')
  }

  /** Stripping the `=` run after renaming leaves the unpadded standard encoding with `+` and `/` renamed. */
  lemma EncodeIsRenamedChars(b: seq<Byte>)
    ensures TrimTrailing(ToUrlAlphabet(Btoa(b)), '=') == ToUrlAlphabet(EncodeChars(b))
  {
    var e := EncodeChars(b);
    var n := (3 - |b| % 3) % 3;
    ReplaceAllConcat(e, Repeat('=', n), '+', '-');
    ReplaceAllConcat(ReplaceAll(e, '+', '-'), ReplaceAll(Repeat('=', n), '+', '-'), '/', '_');
    assert ReplaceAll(ReplaceAll(Repeat('=', n), '+', '-'), '/', '_') == Repeat('=', n);
    var u := ToUrlAlphabet(e);
    assert |u| > 0 ==> u[|u| - 1] != '=' by {
      if |u| > 0 {
        assert IsStdChar(e[|e| - 1]);
      }
    }
    TrimTrailingAppended(u, '=', n);
  }

  /** Renaming `+` and `/` puts every character of the standard encoding into the URL-safe alphabet. */
  lemma EncodeAlphabet(b: seq<Byte>)
    ensures forall i :: 0 <= i < |EncodeChars(b)| ==> IsUrlChar(ToUrlAlphabet(EncodeChars(b))[i])
  {
    var e := EncodeChars(b);
    assert forall i :: 0 <= i < |e| ==> IsUrlChar(ToUrlAlphabet(e)[i]) by {
      forall i | 0 <= i < |e| ensures IsUrlChar(ToUrlAlphabet(e)[i]) {
        assert IsStdChar(e[i]);
      }
    }
  }

  // ---------------------------------------------------------------- decoding

  /** The ASCII whitespace `atob` skips. */
  predicate IsAsciiWhitespace(c: char) {
    c == '\t' || c == '\n' || c == '\U{000C}' || c == '\r' || c == ' '
  }

  function RemoveAsciiWhitespace(s: string): (r: string)
    ensures forall i :: 0 <= i < |r| ==> !IsAsciiWhitespace(r[i])
    ensures (forall i :: 0 <= i < |s| ==> !IsAsciiWhitespace(s[i])) ==> r == s
  {
    if |s| == 0 then ""
    else (if IsAsciiWhitespace(s[0]) then "" else [s[0]]) + RemoveAsciiWhitespace(s[1..])
  }

  /** Two to four characters back to one to three bytes; bits past the last whole byte are dropped. */
  function DecodeGroup(s: string): (g: seq<Byte>)
    requires 2 <= |s| <= 4 && AllStdChars(s)
    ensures |g| == |s| - 1
  {
    var v0, v1 := StdValue(s[0]), StdValue(s[1]);
    if |s| == 2 then [v0 * 4 + v1 / 16]
    else
      var v2 := StdValue(s[2]);
      if |s| == 3 then [v0 * 4 + v1 / 16, v1 % 16 * 16 + v2 / 4]
      else [v0 * 4 + v1 / 16, v1 % 16 * 16 + v2 / 4, v2 % 4 * 64 + StdValue(s[3])]
  }

  /** The bytes of unpadded standard-alphabet text: three per group of four characters, then one or two. */
  function DecodeChars(s: string): (b: seq<Byte>)
    requires |s| % 4 != 1 && AllStdChars(s)
    decreases |s|
  {
    if |s| == 0 then []
    else if |s| <= 4 then DecodeGroup(s)
    else DecodeGroup(s[..4]) + DecodeChars(s[4..])
  }

  /**
   * `atob`, the forgiving-base64 decode of the HTML standard: ASCII
   * whitespace is skipped; when the length is a multiple of four, one or two
   * trailing `=` are dropped; a length one more than a multiple of four, or a
   * character outside the standard alphabet, makes it throw (None).
   */
  function Atob(s: string): (r: Option<seq<Byte>>)
    ensures r.Some? ==> exists u :: |u| % 4 != 1 && AllStdChars(u) && r.value == DecodeChars(u)
  {
    var u := StripFinalPadding(RemoveAsciiWhitespace(s));
    if |u| % 4 == 1 || !AllStdChars(u) then None else Some(DecodeChars(u))
  }

  /** When the length is a multiple of four, one or two trailing `=` are removed. */
  function StripFinalPadding(t: string): (u: string)
    ensures |t| % 4 != 0 || |t| < 2 || t[|t| - 1] != '=' ==> u == t
    ensures |t| % 4 == 0 && |t| >= 2 && t[|t| - 1] == '=' && t[|t| - 2] == '=' ==> u == t[..|t| - 2]
    ensures |t| % 4 == 0 && |t| >= 2 && t[|t| - 1] == '=' && t[|t| - 2] != '=' ==> u == t[..|t| - 1]
  {
    if |t| % 4 == 0 && |t| >= 2 && t[|t| - 1] == '=' then
      (if t[|t| - 2] == '=' then t[..|t| - 2] else t[..|t| - 1])
    else t
  }

  /** How many `=` the loop `while (str.length % 4) str += '='` appends to text of length `n`. */
  function PadCount(n: nat): (k: nat)
    ensures k < 4 && (n + k) % 4 == 0
    ensures n % 4 == 0 ==> k == 0
    ensures n % 4 == 2 ==> k == 2
    ensures n % 4 == 3 ==> k == 1
  {
    (4 - n % 4) % 4
  }

  /** A character neither alphabet has, which is not whitespace or padding either. */
  predicate IsForeign(c: char) {
    !IsStdChar(c) && !IsUrlChar(c) && !IsAsciiWhitespace(c) && c != '='
  }

  /** Whitespace removal keeps every other character. */
  lemma {:induction false} KeptUnlessWhitespace(s: string, c: char)
    requires c in s && !IsAsciiWhitespace(c)
    ensures c in RemoveAsciiWhitespace(s)
    decreases |s|
  {
    if s[0] != c {
      assert c in s[1..];
      KeptUnlessWhitespace(s[1..], c);
    }
  }

  /** `atob` throws on any foreign character, wherever it stands. */
  lemma AtobRefusesForeign(s: string, c: char)
    requires c in s && IsForeign(c)
    ensures Atob(s).None?
  {
    var w := RemoveAsciiWhitespace(s);
    KeptUnlessWhitespace(s, c);
    var u := StripFinalPadding(w);
    var j :| 0 <= j < |w| && w[j] == c;
    assert u == w[..|u|];
    assert j < |u| && u[j] == c;
  }

  /**
   * `base64urlDecode`: back to the standard alphabet, `=` appended up to a
   * multiple of four, then `atob`. Text holding a character outside both
   * alphabets is refused.
   */
  function Decode(str: string): (r: Option<seq<Byte>>)
    ensures (exists i :: 0 <= i < |str| && IsForeign(str[i])) ==> r.None?
  {
    var t := FromUrlAlphabet(str);
    var padded := t + Repeat('=', PadCount(|t|));
    if i :| 0 <= i < |str| && IsForeign(str[i]) then
      assert padded[i] == str[i];
      AtobRefusesForeign(padded, str[i]);
      Atob(padded)
    else Atob(padded)
  }

  // ---------------------------------------------------------------- round trip

  lemma GroupArithmetic(b0: Byte, b1: Byte, b2: Byte)
    ensures var v0, v1, v2, v3 := b0 / 4, b0 % 4 * 16 + b1 / 16, b1 % 16 * 4 + b2 / 64, b2 % 64;
      v0 * 4 + v1 / 16 == b0 && v1 % 16 * 16 + v2 / 4 == b1 && v2 % 4 * 64 + v3 == b2
  {
  }

  /** Each group decodes to the bytes it was encoded from. */
  lemma DecodeEncodeGroup(g: seq<Byte>)
    requires 1 <= |g| <= 3
    ensures DecodeGroup(EncodeGroup(g)) == g
  {
    var s := EncodeGroup(g);
    var b1 := if |g| >= 2 then g[1] else 0;
    var b2 := if |g| == 3 then g[2] else 0;
    var v0, v1, v2, v3 := g[0] / 4, g[0] % 4 * 16 + b1 / 16, b1 % 16 * 4 + b2 / 64, b2 % 64;
    GroupArithmetic(g[0], b1, b2);
    StdValueOfChar(v0);
    StdValueOfChar(v1);
    assert StdValue(s[0]) == v0 && StdValue(s[1]) == v1;
    if |g| >= 2 {
      StdValueOfChar(v2);
      assert StdValue(s[2]) == v2;
    }
    if |g| == 3 {
      StdValueOfChar(v3);
      assert StdValue(s[3]) == v3;
    }
  }

  /** Decoding the unpadded characters of `b` gives `b` back. */
  lemma {:induction false} DecodeEncodeChars(b: seq<Byte>)
    ensures UnpaddedLength(|b|) % 4 != 1 && DecodeChars(EncodeChars(b)) == b
    decreases |b|
  {
    UnpaddedLengthMod(|b|);
    if 1 <= |b| <= 3 {
      DecodeEncodeGroup(b);
    } else if |b| > 3 {
      var s := EncodeChars(b);
      assert s[..4] == EncodeGroup(b[..3]) && s[4..] == EncodeChars(b[3..]);
      DecodeEncodeGroup(b[..3]);
      DecodeEncodeChars(b[3..]);
      assert b == b[..3] + b[3..];
    }
  }

  /** Decoding an encoding gives back the original bytes, for every byte sequence. */
  lemma DecodeEncode(b: seq<Byte>)
    ensures Decode(Encode(b)) == Some(b)
  {
    var e := EncodeChars(b);
    var t := FromUrlAlphabet(Encode(b));
    assert t == e by {
      forall i | 0 <= i < |e| ensures t[i] == e[i] {
        assert IsStdChar(e[i]);
      }
    }
    var padded := e + Repeat('=', PadCount(|e|));
    assert RemoveAsciiWhitespace(padded) == padded by {
      forall i | 0 <= i < |padded| ensures !IsAsciiWhitespace(padded[i]) {
        if i < |e| {
          assert IsStdChar(e[i]);
        }
      }
    }
    DecodeEncodeChars(b);
    StripPadding(e);
  }

  /** Padding unpadded standard text to a multiple of four and letting `atob` strip it gives the text back. */
  lemma StripPadding(e: string)
    requires AllStdChars(e) && |e| % 4 != 1
    ensures var padded := e + Repeat('=', PadCount(|e|));
      RemoveAsciiWhitespace(padded) == padded ==> Atob(padded) == Some(DecodeChars(e))
  {
    var k := PadCount(|e|);
    var padded := e + Repeat('=', k);
    assert StripFinalPadding(padded) == e by {
      assert |e| > 0 ==> padded[|e| - 1] != '=' by {
        if |e| > 0 {
          assert IsStdChar(e[|e| - 1]);
        }
      }
      if k == 0 {
        assert padded == e;
      } else if k == 2 {
        assert padded[..|padded| - 2] == e;
      } else {
        assert padded[..|padded| - 1] == e;
      }
    }
  }
}

=== FILE: checkout_endpoints.dfy ===
/**
 * The two checkout endpoints around the cart pricing: creating a Stripe
 * checkout session for a cart, and verifying a paid session against the
 * cart the client claims to have bought. The request body, the catalog read
 * from KV and Stripe's reply are parameters; the handlers decide the
 * response and the Stripe request they make.
 */
module CheckoutEndpoints {
  import opened Outcomes
  import opened Strings
  import opened JsValues
  import opened Http
  import opened ServerCart
  import opened StripeForm
  import Dicts

  /** What reading `data/products.json` gave: no KV binding, a read that threw, or the stored JSON. */
  datatype CatalogRead = NoBinding | ReadThrew(message: string) | Read(data: JsValue)

  /** Both endpoints answer 500 when the Stripe secret is not configured. */
  const MissingSecret := ErrorResponse(500, "STRIPE_SECRET_KEY not configured")

  /** A field of a response's JSON body. */
  function Field(r: Response, name: string): JsValue {
    OptionalProp(r.body, name)
  }

  // ---------------------------------------------------------------- checkout creation

  /** `loadProducts`: the catalog array, or the message of the error it throws. */
  function LoadProducts(read: CatalogRead): (r: Result<seq<JsValue>, string>)
    ensures r.Ok? <==> read.Read? && read.data.Arr?
    ensures r.Ok? ==> r.value == read.data.items
    ensures read.NoBinding? ==> r == Err("KV binding not available")
    ensures read.Read? && !read.data.Arr? ==> r == Err("Unable to load products data")
  {
    match read
    case NoBinding => Err("KV binding not available")
    case ReadThrew(m) => Err(m)
    case Read(data) => if data.Arr? then Ok(data.items) else Err("Unable to load products data")
  }

  /** A message naming a cart problem: one of the three phrases the handler looks for. */
  predicate NamesCartProblem(message: string) {
    Includes(message, "Unknown product") || Includes(message, "Invalid quantity") || Includes(message, "Cart is empty")
  }

  /** The `catch` block: cart problems are the client's fault (400), anything else is 500. */
  function CaughtError(message: string): (resp: Response)
    ensures NamesCartProblem(message) ==> resp == ErrorResponse(400, "Invalid cart")
    ensures !NamesCartProblem(message) ==> resp == InternalError
  {
    if NamesCartProblem(message) then ErrorResponse(400, "Invalid cart") else InternalError
  }

  /** Every message starting with a phrase the handler looks for names a cart problem. */
  lemma PrefixedMessagesNameCartProblems(phrase: string, rest: string)
    requires phrase == "Unknown product" || phrase == "Invalid quantity" || phrase == "Cart is empty"
    ensures NamesCartProblem(phrase + rest)
  {
    assert OccursAt(phrase, phrase, 0);
    ContainsOfPrefixPlus(phrase, rest, phrase);
  }

  /**
   * Pricing failures are reported as a bad cart: with a readable catalog
   * and no null line, any error building the line items throws maps to 400.
   */
  lemma LineItemErrorsAreClientErrors(lines: seq<JsValue>, products: seq<JsValue>)
    requires AllReadable(products)
    requires forall i :: 0 <= i < |lines| ==> !(lines[i].Null? || lines[i].Undefined?)
    ensures BuildStripeLineItems(lines, products).Err? ==>
      CaughtError(BuildStripeLineItems(lines, products).error).status == 400
  {
    var items := BuildStripeLineItems(lines, products);
    if items.Err? {
      var i :| 0 <= i < |lines| && StripeLineItem(lines[i], products) == Err(items.error);
      LineErrorNamesCartProblem(items.error, LineField(lines[i], "name"));
    }
  }

  /** Likewise any error building the summary throws maps to 400, whatever the lines. */
  lemma SummaryErrorsAreClientErrors(lines: seq<JsValue>, products: seq<JsValue>)
    requires AllReadable(products)
    ensures BuildCartSummary(lines, products).Err? ==>
      CaughtError(BuildCartSummary(lines, products).error).status == 400
  {
    var summary := BuildCartSummary(lines, products);
    if summary.Err? {
      var i :| 0 <= i < |lines| && SummaryLine(lines[i], products) == Err(summary.error);
      LineErrorNamesCartProblem(summary.error, LineField(lines[i], "name"));
    }
  }

  lemma LineErrorNamesCartProblem(error: string, name: string)
    requires error == "Unknown product: " + name || error == "Invalid quantity for " + name
    ensures NamesCartProblem(error)
  {
    if error == "Unknown product: " + name {
      assert error == "Unknown product" + (": " + name);
      PrefixedMessagesNameCartProblems("Unknown product", ": " + name);
    } else {
      assert error == "Invalid quantity" + (" for " + name);
      PrefixedMessagesNameCartProblems("Invalid quantity", " for " + name);
    }
  }

  // ---------------------------------------------------------------- the return URL

  /** The path and query of the page Stripe sends the customer back to. */
  const ReturnPath := "/return?session_id={CHECKOUT_SESSION_ID}"

  /** In an http(s) URL, the authority ends where a path, query or fragment starts. */
  predicate EndsAuthority(c: char) {
    c == '/' || c == '\\' || c == '?' || c == '#'
  }

  /** The first index at or after `k` holding `c`, or `|s|`. */
  function IndexFrom(s: string, c: char, k: nat): (e: nat)
    requires k <= |s|
    ensures k <= e <= |s|
    ensures forall j :: k <= j < e ==> s[j] != c
    ensures e < |s| ==> s[e] == c
    decreases |s| - k
  {
    if k == |s| || s[k] == c then k else IndexFrom(s, c, k + 1)
  }

  /** The first index at or after `k` that ends an authority, or `|s|`. */
  function AuthorityEnd(s: string, k: nat): (e: nat)
    requires k <= |s|
    ensures k <= e <= |s|
    ensures forall j :: k <= j < e ==> !EndsAuthority(s[j])
    ensures e < |s| ==> EndsAuthority(s[e])
    decreases |s| - k
  {
    if k == |s| || EndsAuthority(s[k]) then k else AuthorityEnd(s, k + 1)
  }

  /**
   * The scheme and authority of a base written `scheme://authority…`, which
   * is all an absolute path resolved against it keeps. A base of any other
   * shape is kept whole.
   */
  function OriginOf(base: string): (o: string)
    ensures |o| <= |base| && o == base[..|o|]
  {
    var colon := IndexFrom(base, ':', 0);
    if colon + 3 <= |base| && base[colon + 1..colon + 3] == "//" then base[..AuthorityEnd(base, colon + 3)]
    else base
  }

  /**
   * `getReturnUrl`: `new URL(ReturnPath, siteBase)`. The path is absolute,
   * so the result is the return path after some prefix of the site base.
   */
  function ReturnUrl(siteBase: string): (r: string)
    ensures |ReturnPath| <= |r| <= |siteBase| + |ReturnPath| && r[|r| - |ReturnPath|..] == ReturnPath
    ensures r[..|r| - |ReturnPath|] == siteBase[..|r| - |ReturnPath|]
  {
    OriginOf(siteBase) + ReturnPath
  }

  /**
   * Whatever follows the authority of the site base is dropped:
   * `https://shop.example`, `https://shop.example/` and
   * `https://shop.example/app` all give `https://shop.example/return?…`.
   */
  lemma ReturnUrlKeepsOrigin(scheme: string, authority: string, rest: string)
    requires ':' !in scheme
    requires forall j :: 0 <= j < |authority| ==> !EndsAuthority(authority[j])
    requires rest == [] || EndsAuthority(rest[0])
    ensures ReturnUrl(scheme + "://" + authority + rest) == scheme + "://" + authority + ReturnPath
  {
    var base := scheme + "://" + authority + rest;
    var colon := IndexFrom(base, ':', 0);
    assert base[|scheme|] == ':';
    assert forall j :: 0 <= j < |scheme| ==> base[j] == scheme[j];
    assert colon == |scheme|;
    assert base[colon + 1..colon + 3] == "//";
    var start := |scheme| + 3;
    assert forall j :: start <= j < start + |authority| ==> base[j] == authority[j - start];
    var end := AuthorityEnd(base, start);
    if rest != [] {
      assert base[start + |authority|] == rest[0];
    }
    assert end == start + |authority|;
    assert base[..end] == scheme + "://" + authority;
  }

  /** The body of the session-creation request. */
  function SessionBody(items: seq<LineItem>, returnUrl: string): JsValue {
    Obj([
      ("line_items", Arr(seq(|items|, i requires 0 <= i < |items| => LineItemJson(items[i])))),
      ("mode", Str("payment")),
      ("ui_mode", Str("custom")),
      ("return_url", Str(returnUrl))])
  }

  /**
   * Each line item is sent as five form fields, `key[price_data][currency]=usd`
   * through `key[quantity]=1`: the currency is usd, the name and the
   * quantity key are sent as given, and the quantity is always 1.
   */
  lemma LineItemForm(key: string, item: LineItem)
    ensures var pd := ChildKey(key, "price_data");
      var prod := ChildKey(pd, "product_data");
      AppendForm(key, LineItemJson(item)) == [
        (ChildKey(pd, "currency"), "usd"),
        (ChildKey(prod, "name"), item.name),
        (ChildKey(ChildKey(prod, "metadata"), "actual_quantity"), item.actualQuantity),
        (ChildKey(pd, "unit_amount"), NumberToString(item.unitAmount)),
        (ChildKey(key, "quantity"), "1")]
  {
    var v := LineItemJson(item);
    var pd := ChildKey(key, "price_data");
    PriceDataForm(pd, item, v.fields[0].1);
    assert FieldPairs(key, v, 1) == [(ChildKey(key, "quantity"), "1")];
    assert FieldPairs(key, v, 0) == AppendForm(pd, v.fields[0].1) + FieldPairs(key, v, 1);
  }

  lemma PriceDataForm(pd: string, item: LineItem, priceData: JsValue)
    requires priceData == LineItemJson(item).fields[0].1
    ensures AppendForm(pd, priceData) == [
      (ChildKey(pd, "currency"), "usd"),
      (ChildKey(ChildKey(pd, "product_data"), "name"), item.name),
      (ChildKey(ChildKey(ChildKey(pd, "product_data"), "metadata"), "actual_quantity"), item.actualQuantity),
      (ChildKey(pd, "unit_amount"), NumberToString(item.unitAmount))]
  {
    var prod := ChildKey(pd, "product_data");
    var productData := priceData.fields[1].1;
    ProductDataForm(prod, item.name, item.actualQuantity, productData);
    assert FieldPairs(pd, priceData, 3) == [];
    assert FieldPairs(pd, priceData, 2) == [(ChildKey(pd, "unit_amount"), NumberToString(item.unitAmount))];
    assert FieldPairs(pd, priceData, 1) == AppendForm(prod, productData) + FieldPairs(pd, priceData, 2);
    assert FieldPairs(pd, priceData, 0) == [(ChildKey(pd, "currency"), "usd")] + FieldPairs(pd, priceData, 1);
  }

  lemma ProductDataForm(prod: string, name: string, quantityKey: string, productData: JsValue)
    requires productData == Obj([("name", Str(name)), ("metadata", Obj([("actual_quantity", Str(quantityKey))]))])
    ensures AppendForm(prod, productData) == [
      (ChildKey(prod, "name"), name),
      (ChildKey(ChildKey(prod, "metadata"), "actual_quantity"), quantityKey)]
  {
    var meta := ChildKey(prod, "metadata");
    var metadata := productData.fields[1].1;
    assert FieldPairs(meta, metadata, 1) == [];
    assert FieldPairs(meta, metadata, 0) == [(ChildKey(meta, "actual_quantity"), quantityKey)];
    assert FieldPairs(prod, productData, 2) == [];
    assert FieldPairs(prod, productData, 1) == AppendForm(meta, metadata);
    assert FieldPairs(prod, productData, 0) == [(ChildKey(prod, "name"), name)] + FieldPairs(prod, productData, 1);
  }

  datatype CheckoutOutcome = CheckoutOutcome(response: Response, call: Option<StripeCall>)

  /** `const { cartLines } = body`, read only once the body is known not to be null. */
  function CartLinesOf(body: JsValue): JsValue {
    OptionalProp(body, "cartLines")
  }

  /** The cart lines a checkout can be created for: a non-empty array. */
  predicate HasLines(body: JsValue) {
    CartLinesOf(body).Arr? && |CartLinesOf(body).items| > 0
  }

  /** The session object Stripe's reply resolves to, when the request succeeded and the session is not null. */
  function SessionOf(reply: Result<Reply, string>): (r: Option<JsValue>)
    ensures r.Some? ==> reply.Ok? && Ok2xx(reply.value.status) && !(r.value.Null? || r.value.Undefined?)
    ensures r.Some? ==> r == Some(Receive(reply.value).value)
  {
    if reply.Err? then None
    else
      var session := Receive(reply.value);
      if session.Err? || session.value.Null? || session.value.Undefined? then None else Some(session.value)
  }

  /** `{ clientSecret: session.client_secret }` as serialised: an undefined secret leaves the object empty. */
  function ClientSecretJson(session: JsValue): JsValue {
    var secret := OptionalProp(session, "client_secret");
    if secret == Undefined then Obj([]) else Obj([("clientSecret", secret)])
  }

  /**
   * `onRequestPost` of checkout creation. `body` is what
   * `request.json()` gave (Err when it throws), `catalog` the KV read, and
   * `reply` the Stripe exchange (Err when `fetch` throws). The line items
   * are built before the summary, so the first failure is theirs.
   */
  function CreateCheckout(secretKey: string, body: Result<JsValue, string>, catalog: CatalogRead,
                          siteBase: string, reply: Result<Reply, string>): (o: CheckoutOutcome)
    ensures secretKey == "" ==> o == CheckoutOutcome(MissingSecret, None)
    ensures o.response.status in {200, 400, 500}
    ensures (secretKey != "" && body.Ok? && !(body.value.Null? || body.value.Undefined?) && !HasLines(body.value)) ==>
      o == CheckoutOutcome(ErrorResponse(400, "Cart is empty"), None)
    ensures o.call.Some? ==> (secretKey != "" && body.Ok? && HasLines(body.value) &&
      o.call == PricedCall(secretKey, CartLinesOf(body.value).items, catalog, siteBase))
    ensures o.response.status == 200 ==> (o.call.Some? && SessionOf(reply).Some? &&
      o.response.body == ClientSecretJson(SessionOf(reply).value))
    ensures secretKey != "" && body.Err? ==> o == CheckoutOutcome(CaughtError(body.error), None)
    ensures secretKey != "" && body.Ok? && HasLines(body.value) ==>
      var lines := CartLinesOf(body.value).items;
      (PricedCall(secretKey, lines, catalog, siteBase).None? ==>
         o == CheckoutOutcome(CaughtError(PricingError(lines, catalog)), None)) &&
      (PricedCall(secretKey, lines, catalog, siteBase).Some? ==> o.response == SessionResponse(reply))
  {
    if secretKey == "" then CheckoutOutcome(MissingSecret, None)
    else if body.Err? then CheckoutOutcome(CaughtError(body.error), None)
    else if body.value.Null? || body.value.Undefined? then CheckoutOutcome(CaughtError(NullBodyError), None)
    else if !HasLines(body.value) then CheckoutOutcome(ErrorResponse(400, "Cart is empty"), None)
    else
      var lines := CartLinesOf(body.value).items;
      var call := PricedCall(secretKey, lines, catalog, siteBase);
      if call.None? then CheckoutOutcome(CaughtError(PricingError(lines, catalog)), None)
      else CheckoutOutcome(SessionResponse(reply), call)
  }

  /**
   * The session request for a cart, once the catalog is loaded and both
   * builders succeed; None when one of them throws.
   */
  function PricedCall(secretKey: string, lines: seq<JsValue>, catalog: CatalogRead, siteBase: string): (c: Option<StripeCall>)
    ensures c.Some? <==> (LoadProducts(catalog).Ok? &&
      BuildStripeLineItems(lines, LoadProducts(catalog).value).Ok? &&
      BuildCartSummary(lines, LoadProducts(catalog).value).Ok?)
    ensures c.Some? ==> c.value == BuildRequest(CheckoutCopy, secretKey, "POST", "/checkout/sessions",
      SessionBody(BuildStripeLineItems(lines, LoadProducts(catalog).value).value, ReturnUrl(siteBase)))
  {
    var products := LoadProducts(catalog);
    if products.Err? then None
    else
      var items := BuildStripeLineItems(lines, products.value);
      if items.Err? || BuildCartSummary(lines, products.value).Err? then None
      else Some(BuildRequest(CheckoutCopy, secretKey, "POST", "/checkout/sessions", SessionBody(items.value, ReturnUrl(siteBase))))
  }

  /** The message of the first error loading the catalog or pricing the lines throws. */
  function PricingError(lines: seq<JsValue>, catalog: CatalogRead): (m: string)
    ensures LoadProducts(catalog).Err? ==> m == LoadProducts(catalog).error
    ensures (LoadProducts(catalog).Ok? && BuildStripeLineItems(lines, LoadProducts(catalog).value).Err?) ==>
      m == BuildStripeLineItems(lines, LoadProducts(catalog).value).error
  {
    var products := LoadProducts(catalog);
    if products.Err? then products.error
    else
      var items := BuildStripeLineItems(lines, products.value);
      if items.Err? then items.error
      else
        var summary := BuildCartSummary(lines, products.value);
        if summary.Err? then summary.error else ""
  }

  /** `Response.json({ clientSecret: session.client_secret })`, or the caught error. */
  function SessionResponse(reply: Result<Reply, string>): (resp: Response)
    ensures resp.status in {200, 400, 500}
    ensures resp.status == 200 <==> SessionOf(reply).Some?
    ensures resp.status == 200 ==> resp.body == ClientSecretJson(SessionOf(reply).value)
  {
    if reply.Err? then CaughtError(reply.error)
    else
      var session := Receive(reply.value);
      if session.Err? then CaughtError(session.error)
      else if session.value.Null? || session.value.Undefined? then InternalError
      else Response(200, ClientSecretJson(session.value))
  }

  /** An empty or non-array cart is refused before the catalog is read or Stripe is called. */
  lemma EmptyCartIgnoresCatalog(secretKey: string, body: JsValue, c1: CatalogRead, c2: CatalogRead,
                                siteBase: string, r1: Result<Reply, string>, r2: Result<Reply, string>)
    requires secretKey != "" && !(body.Null? || body.Undefined?) && !HasLines(body)
    ensures CreateCheckout(secretKey, Ok(body), c1, siteBase, r1) == CreateCheckout(secretKey, Ok(body), c2, siteBase, r2)
  {
  }

  // ---------------------------------------------------------------- payment verification

  /** `loadProductsFromKv`: the catalog, None when it is absent or not an array, or the error a failed read throws. */
  function LoadProductsOrNull(read: CatalogRead): (r: Result<Option<seq<JsValue>>, string>)
    ensures r.Err? <==> read.ReadThrew?
    ensures r.Ok? && r.value.Some? <==> read.Read? && read.data.Arr?
    ensures r.Ok? && r.value.Some? ==> r.value.value == read.data.items
  {
    match read
    case NoBinding => Ok(None)
    case ReadThrew(m) => Err(m)
    case Read(data) => if data.Arr? then Ok(Some(data.items)) else Ok(None)
  }

  /** The client's claim for one product agrees with the server's entry, compared as numbers. */
  predicate ItemAgrees(clientItem: JsValue, server: Entry) {
    Truthy(clientItem) &&
    SameNumber(ToNumber(OptionalProp(clientItem, "quantity")), Int(server.quantity)) &&
    SameNumber(ToNumber(OptionalProp(clientItem, "price")), Int(server.price))
  }

  /**
   * The client cart has as many keys as the server cart, and for every
   * product the server priced the client holds an entry with the same
   * quantity and price.
   */
  predicate CartsAgree(cart: JsValue, server: Dicts.Dict<Entry>) {
    |ObjectKeys(cart)| == |server| &&
    forall name :: name in Dicts.Keys(server) ==>
      ItemAgrees(OptionalMember(cart, name), Dicts.Get(server, name).value)
  }

  /**
   * When the claim matches: the server cart is valid, the client sent a
   * cart whose total is numerically the server's total, and the carts agree.
   */
  predicate ClaimMatches(validated: Validated, cart: JsValue, cartTotal: JsValue) {
    validated.Valid? && Truthy(cart) &&
    SameNumber(ToNumber(cartTotal), Int(validated.total)) &&
    CartsAgree(cart, validated.cart)
  }

  /**
   * The mismatch check as the handler runs it: the early tests, the key
   * counts, then the loop over the server's products.
   */
  method CartMismatch(validated: Validated, cart: JsValue, cartTotal: JsValue) returns (mismatch: bool)
    ensures mismatch <==> !ClaimMatches(validated, cart, cartTotal)
  {
    mismatch := !validated.Valid? || !Truthy(cart) || !SameNumber(ToNumber(cartTotal), Int(validated.total));
    if !mismatch {
      var cartKeys := ObjectKeys(cart);
      var validatedKeys := Dicts.Keys(validated.cart);
      if |cartKeys| != |validatedKeys| {
        mismatch := true;
      } else {
        var agree := ItemsAgree(cart, validated.cart);
        mismatch := !agree;
      }
    }
  }

  /**
   * The loop over the server's keys, stopping at the first product whose
   * client entry is missing or differs in quantity or price. Each product's
   * comparison is a pure function of the two carts, so it is evaluated up
   * front and the loop scans the verdicts.
   */
  method ItemsAgree(cart: JsValue, server: Dicts.Dict<Entry>) returns (agree: bool)
    ensures agree <==> forall name :: name in Dicts.Keys(server) ==>
      ItemAgrees(OptionalMember(cart, name), Dicts.Get(server, name).value)
  {
    var verdicts := Verdicts(cart, server);
    agree := AllTrue(verdicts);
    VerdictsMeanAgreement(cart, server);
  }

  /** Whether the client agrees on each of the server's products, in key order. */
  function Verdicts(cart: JsValue, server: Dicts.Dict<Entry>): (vs: seq<bool>)
    ensures |vs| == |server|
  {
    seq(|server|, j requires 0 <= j < |server| => ItemAgrees(OptionalMember(cart, server[j].0), Dicts.Get(server, server[j].0).value))
  }

  lemma VerdictsMeanAgreement(cart: JsValue, server: Dicts.Dict<Entry>)
    ensures (forall j :: 0 <= j < |server| ==> Verdicts(cart, server)[j]) <==>
      forall name :: name in Dicts.Keys(server) ==> ItemAgrees(OptionalMember(cart, name), Dicts.Get(server, name).value)
  {
    var vs := Verdicts(cart, server);
    var keys := Dicts.Keys(server);
    assert forall j :: 0 <= j < |server| ==> vs[j] == ItemAgrees(OptionalMember(cart, keys[j]), Dicts.Get(server, keys[j]).value);
    if forall j :: 0 <= j < |server| ==> vs[j] {
      forall name | name in keys
        ensures ItemAgrees(OptionalMember(cart, name), Dicts.Get(server, name).value)
      {
        var j :| 0 <= j < |keys| && keys[j] == name;
        assert vs[j];
      }
    }
  }

  /** A scan for the first false verdict; true when there is none. */
  method AllTrue(verdicts: seq<bool>) returns (all: bool)
    ensures all <==> forall j :: 0 <= j < |verdicts| ==> verdicts[j]
  {
    var i := 0;
    while i < |verdicts|
      invariant 0 <= i <= |verdicts|
      invariant forall j :: 0 <= j < i ==> verdicts[j]
    {
      if !verdicts[i] {
        return false;
      }
      i := i + 1;
    }
    return true;
  }

  /** The JSON object a client holds for a cart: each name mapped to `{quantity, price}`. */
  function CartJson(cart: Dicts.Dict<Entry>): JsValue {
    Obj(Dicts.MapValues(cart, EntryJson))
  }

  function EntryJson(e: Entry): (v: JsValue)
    ensures OptionalProp(v, "quantity") == Num(Int(e.quantity))
    ensures OptionalProp(v, "price") == Num(Int(e.price))
  {
    var fields := [("quantity", Num(Int(e.quantity))), ("price", Num(Int(e.price)))];
    assert Dicts.IndexOf(fields, "price") == 1 by {
      assert fields[1..] == [("price", Num(Int(e.price)))];
    }
    Obj(fields)
  }

  /** A client that reports exactly the server's cart and total never triggers a mismatch. */
  lemma HonestClaimMatches(validated: Validated)
    requires validated.Valid?
    ensures ClaimMatches(validated, CartJson(validated.cart), Num(Int(validated.total)))
  {
    var server := validated.cart;
    var cart := CartJson(server);
    forall name | name in Dicts.Keys(server)
      ensures ItemAgrees(OptionalMember(cart, name), Dicts.Get(server, name).value)
    {
      HonestItemAgrees(server, name);
    }
    assert |ObjectKeys(cart)| == |server|;
  }

  lemma HonestItemAgrees(server: Dicts.Dict<Entry>, name: string)
    requires name in Dicts.Keys(server)
    ensures ItemAgrees(OptionalMember(CartJson(server), name), Dicts.Get(server, name).value)
  {
    assert Dicts.HasKey(server, name);
    CartEntry(server, name);
    EntryAgrees(Dicts.Get(server, name).value);
  }

  /** The client entry of a product the server priced is that entry's JSON. */
  lemma CartEntry(server: Dicts.Dict<Entry>, name: string)
    requires Dicts.HasKey(server, name)
    ensures OptionalMember(CartJson(server), name) == EntryJson(Dicts.Get(server, name).value)
  {
    var f: Entry -> JsValue := EntryJson;
    var fields := Dicts.MapValues(server, f);
    var cart := CartJson(server);
    assert cart == Obj(fields);
    Dicts.GetMapValues(server, f, name);
    var e := Dicts.Get(server, name).value;
    assert Dicts.Get(fields, name) == Some(f(e));
    assert Prop(cart, name) == Some(EntryJson(e));
    MemberAgreesWithProp(cart, name);
  }

  lemma EntryAgrees(e: Entry)
    ensures ItemAgrees(EntryJson(e), e)
  {
    assert Truthy(EntryJson(e));
  }

  /** `session.payment_status === 'paid'`. */
  predicate Paid(session: JsValue) {
    OptionalProp(session, "payment_status") == Str("paid")
  }

  /** `session.customer_details?.email || customerDetails?.customer_email || null`. */
  function CustomerEmail(session: JsValue, body: JsValue): (r: JsValue)
    ensures Truthy(r) || r == Null
    ensures Truthy(OptionalProp(OptionalProp(session, "customer_details"), "email")) ==>
      r == OptionalProp(OptionalProp(session, "customer_details"), "email")
  {
    Or(OptionalProp(OptionalProp(session, "customer_details"), "email"),
       Or(OptionalProp(OptionalProp(body, "customerDetails"), "customer_email"), Null))
  }

  /**
   * The decision once the session is known: `success` is reported true
   * exactly when Stripe says the session is paid and the client's claim
   * matches the cart priced from the catalog.
   */
  function Decide(paid: bool, validated: Validated, cart: JsValue, cartTotal: JsValue, customerEmail: JsValue): (resp: Response)
    ensures resp.status == 200
    ensures Field(resp, "success") == Bool(true) <==> paid && ClaimMatches(validated, cart, cartTotal)
    ensures Field(resp, "customerEmail") == customerEmail
  {
    var mismatch := !ClaimMatches(validated, cart, cartTotal);
    var fields := [("success", Bool(paid && validated.Valid? && !mismatch)), ("customerEmail", customerEmail)];
    assert Dicts.IndexOf(fields, "customerEmail") == 1 by {
      assert fields[1..] == [("customerEmail", customerEmail)];
    }
    Response(200, Obj(fields))
  }

  datatype VerifyOutcome = VerifyOutcome(response: Response, call: Option<StripeCall>)

  /** `session_id`. */
  function SessionIdOf(body: JsValue): JsValue {
    OptionalProp(body, "session_id")
  }

  /** The cart validated against the catalog read from KV; an absent catalog makes it invalid. */
  function ServerCartOf(body: JsValue, catalog: CatalogRead): (r: Result<Validated, string>)
    ensures (catalog.NoBinding? || (catalog.Read? && !catalog.data.Arr?)) ==> r == Ok(Invalid)
    ensures catalog.ReadThrew? ==> r.Err?
    ensures catalog.Read? && catalog.data.Arr? ==> r == BuildValidatedCart(CartLinesOf(body), catalog.data.items)
  {
    var products := LoadProductsOrNull(catalog);
    if products.Err? then Err(products.error)
    else if products.value.None? then Ok(Invalid)
    else BuildValidatedCart(CartLinesOf(body), products.value.value)
  }

  /**
   * `onRequestPost` of payment verification. The order e-mails and the
   * replay guard are not modelled; they run only when `success` is true.
   */
  function VerifyCheckout(secretKey: string, body: Result<JsValue, string>, reply: Result<Reply, string>,
                          catalog: CatalogRead): (o: VerifyOutcome)
    ensures secretKey == "" ==> o == VerifyOutcome(MissingSecret, None)
    ensures o.response.status in {200, 400, 500}
    ensures (secretKey != "" && body.Ok? && !(body.value.Null? || body.value.Undefined?) &&
      !Truthy(SessionIdOf(body.value))) ==>
      o == VerifyOutcome(ErrorResponse(400, "session_id is required"), None)
    ensures o.call.Some? ==> (body.Ok? && Truthy(SessionIdOf(body.value)) &&
      o.call.value == BuildRequest(VerifyCopy, secretKey, "GET",
                                   "/checkout/sessions/" + ToJsString(SessionIdOf(body.value)), Undefined))
    ensures Field(o.response, "success") == Bool(true) ==>
      (o.call.Some? && SessionOf(reply).Some? && Paid(SessionOf(reply).value) &&
       catalog.Read? && catalog.data.Arr? && ServerCartOf(body.value, catalog).Ok? &&
       ClaimMatches(ServerCartOf(body.value, catalog).value, OptionalProp(body.value, "cart"),
                    OptionalProp(body.value, "cartTotal")))
    ensures o.call.Some? <==>
      secretKey != "" && body.Ok? && !(body.value.Null? || body.value.Undefined?) && Truthy(SessionIdOf(body.value))
    ensures o.call.Some? ==> o.response == VerifiedResponse(body.value, reply, catalog)
    ensures o.call.Some? && SessionOf(reply).Some? && ServerCartOf(body.value, catalog).Ok? ==>
      o.response.status == 200 &&
      (Field(o.response, "success") == Bool(true) <==>
        Paid(SessionOf(reply).value) &&
        ClaimMatches(ServerCartOf(body.value, catalog).value, OptionalProp(body.value, "cart"),
                     OptionalProp(body.value, "cartTotal")))
  {
    if secretKey == "" then VerifyOutcome(MissingSecret, None)
    else if body.Err? || body.value.Null? || body.value.Undefined? then VerifyOutcome(InternalError, None)
    else
      var request := body.value;
      var sessionId := SessionIdOf(request);
      if !Truthy(sessionId) then VerifyOutcome(ErrorResponse(400, "session_id is required"), None)
      else
        var call := BuildRequest(VerifyCopy, secretKey, "GET", "/checkout/sessions/" + ToJsString(sessionId), Undefined);
        VerifyOutcome(VerifiedResponse(request, reply, catalog), Some(call))
  }

  /** Everything after the Stripe request: any error thrown along the way is a 500. */
  function VerifiedResponse(request: JsValue, reply: Result<Reply, string>, catalog: CatalogRead): (resp: Response)
    ensures resp.status in {200, 500}
    ensures resp.status == 200 <==> SessionOf(reply).Some? && ServerCartOf(request, catalog).Ok?
    ensures resp.status == 200 ==>
      (Field(resp, "success") == Bool(true) <==>
        Paid(SessionOf(reply).value) &&
        ClaimMatches(ServerCartOf(request, catalog).value, OptionalProp(request, "cart"), OptionalProp(request, "cartTotal")))
    ensures resp.status == 200 ==> Field(resp, "customerEmail") == CustomerEmail(SessionOf(reply).value, request)
  {
    var session := SessionOf(reply);
    if session.None? then InternalError
    else
      var validated := ServerCartOf(request, catalog);
      if validated.Err? then InternalError
      else
        Decide(Paid(session.value), validated.value, OptionalProp(request, "cart"),
               OptionalProp(request, "cartTotal"), CustomerEmail(session.value, request))
  }
}

=== FILE: checkout_form.dfy ===
/**
 * The checkout page: the redirect away from an empty cart, and the checks
 * the pay button runs before anything is saved or sent to Stripe. The
 * checks run in a fixed order and stop at the first failure: name, email,
 * phone, pickup date present, pickup date not too soon.
 */
module CheckoutForm {
  import opened Outcomes
  import opened Strings
  import ClientCart

  // ---------------------------------------------------------------- entering the page

  datatype Entry = RedirectTo(path: string) | ShowCheckout

  /** An empty cart sends the visitor back to the menu before anything is rendered. */
  function EnterCheckout(store: ClientCart.Store): (r: Entry)
    ensures r == RedirectTo("/menu") <==> ClientCart.IsCartEmpty(store)
    ensures ClientCart.NamesAgree(store) ==> (r.ShowCheckout? <==> |store.lines| > 0)
  {
    assert ClientCart.NamesAgree(store) ==> (ClientCart.IsCartEmpty(store) <==> |store.lines| == 0) by {
      if ClientCart.NamesAgree(store) {
        ClientCart.EmptyCartHasNoLines(store);
      }
    }
    if ClientCart.IsCartEmpty(store) then RedirectTo("/menu") else ShowCheckout
  }

  // ---------------------------------------------------------------- the email pattern

  /** A run of `[^\s@]+`. */
  predicate Segment(s: string) {
    |s| > 0 && '@' !in s && HasNoWhitespace(s)
  }

  /**
   * `/^[^\s@]+@[^\s@]+\.[^\s@]+$/` matches `s`: there are positions `i`
   * and `j` cutting it into three segments joined by `@` and `.`.
   */
  ghost predicate MatchesEmailPattern(s: string) {
    exists i, j :: 0 < i < j < |s| - 1 && s[i] == '@' && s[j] == '.'
      && Segment(s[..i]) && Segment(s[i + 1..j]) && Segment(s[j + 1..])
  }

  /** The position of the first `c`, or `|s|` when there is none. */
  function FirstIndex(s: string, c: char): (i: nat)
    ensures i <= |s| && c !in s[..i]
    ensures i < |s| ==> s[i] == c
  {
    if |s| == 0 then 0
    else if s[0] == c then 0
    else
      var i := 1 + FirstIndex(s[1..], c);
      assert s[..i] == [s[0]] + s[1..][..i - 1];
      i
  }

  /** A `c` with none before it is the first. */
  lemma {:induction false} FirstIndexAt(s: string, c: char, i: int)
    requires 0 <= i < |s| && s[i] == c && forall k :: 0 <= k < i ==> s[k] != c
    ensures FirstIndex(s, c) == i
    decreases i
  {
    if i > 0 {
      FirstIndexAt(s[1..], c, i - 1);
    }
  }

  /** The email check as the page could compute it without a regular-expression engine. */
  function IsValidEmail(s: string): (ok: bool)
    ensures ok ==> '@' in s && HasNoWhitespace(s)
  {
    var i := FirstIndex(s, '@');
    HasNoWhitespace(s) && 0 < i < |s| && '@' !in s[i + 1..] && |s| - i >= 4 && '.' in s[i + 2..|s| - 1]
  }

  /** The executable check accepts exactly the strings the pattern matches. */
  lemma EmailCheckMatchesPattern(s: string)
    ensures IsValidEmail(s) <==> MatchesEmailPattern(s)
  {
    if IsValidEmail(s) {
      var i := FirstIndex(s, '@');
      var d :| 0 <= d < |s[i + 2..|s| - 1]| && s[i + 2..|s| - 1][d] == '.';
      var j := i + 2 + d;
      assert s[j] == '.';
      SegmentOfSlice(s, 0, i);
      SegmentOfSlice(s, i + 1, j);
      SegmentOfSlice(s, j + 1, |s|);
      assert s[j + 1..|s|] == s[j + 1..];
      assert s[0..i] == s[..i];
    }
    if MatchesEmailPattern(s) {
      var i, j :| 0 < i < j < |s| - 1 && s[i] == '@' && s[j] == '.'
        && Segment(s[..i]) && Segment(s[i + 1..j]) && Segment(s[j + 1..]);
      PatternFacts(s, i, j);
    }
  }

  /** A slice of a whitespace-free string whose `@`s all lie outside it is a segment, when non-empty. */
  lemma SegmentOfSlice(s: string, a: int, b: int)
    requires 0 <= a < b <= |s| && HasNoWhitespace(s)
    requires forall k :: a <= k < b ==> s[k] != '@'
    ensures Segment(s[a..b])
  {
    forall k | 0 <= k < b - a ensures s[a..b][k] == s[a + k] { }
  }

  lemma PatternFacts(s: string, i: int, j: int)
    requires 0 < i < j < |s| - 1 && s[i] == '@' && s[j] == '.'
    requires Segment(s[..i]) && Segment(s[i + 1..j]) && Segment(s[j + 1..])
    ensures IsValidEmail(s)
  {
    forall k | 0 <= k < |s| ensures !IsJsWhitespace(s[k]) && (k != i ==> s[k] != '@') {
      if k < i {
        assert s[k] == s[..i][k];
      } else if i < k < j {
        assert s[k] == s[i + 1..j][k - i - 1];
      } else if j < k {
        assert s[k] == s[j + 1..][k - j - 1];
      }
    }
    FirstIndexAt(s, '@', i);
    var t := s[i + 1..];
    assert '@' !in t by {
      forall k | 0 <= k < |t| ensures t[k] != '@' {
        assert t[k] == s[i + 1 + k];
      }
    }
    assert s[i + 2..|s| - 1][j - i - 2] == '.';
  }

  // ---------------------------------------------------------------- the phone number

  /** `(phone.match(/\d/g) || []).length`. */
  function DigitCount(s: string): (n: nat)
    ensures n <= |s|
  {
    if |s| == 0 then 0 else (if IsDigit(s[0]) then 1 else 0) + DigitCount(s[1..])
  }

  lemma {:induction false} DigitCountConcat(a: string, b: string)
    ensures DigitCount(a + b) == DigitCount(a) + DigitCount(b)
    decreases |a|
  {
    if |a| > 0 {
      assert (a + b)[0] == a[0] && (a + b)[1..] == a[1..] + b;
      DigitCountConcat(a[1..], b);
    } else {
      assert a + b == b;
    }
  }

  /** Spaces, dashes and brackets typed between the digits do not change the count. */
  lemma SeparatorsDoNotCount(a: string, sep: char, b: string)
    requires !IsDigit(sep)
    ensures DigitCount(a + [sep] + b) == DigitCount(a + b)
  {
    DigitCountConcat(a + [sep], b);
    DigitCountConcat(a, [sep]);
    DigitCountConcat(a, b);
    assert [sep][1..] == [];
  }

  /** A string of digits counts every character. */
  lemma {:induction false} AllDigitsCount(s: string)
    requires AllDigits(s)
    ensures DigitCount(s) == |s|
    decreases |s|
  {
    if |s| > 0 {
      AllDigitsCount(s[1..]);
    }
  }

  // ---------------------------------------------------------------- the pay button

  /** Which element an error message is written into. */
  datatype ErrorSlot = ConfirmErrors | EmailErrors | PhoneErrors

  /** What the form holds when the pay button is pressed; None for an element the page lacks. */
  datatype FormInput = FormInput(
    name: Option<string>, email: Option<string>, phone: Option<string>, pickupDate: Option<string>,
    acquisitionMethod: Option<string>, deliveryAddress: Option<string>)

  /** The customer details saved before payment. */
  datatype CustomerDetails = CustomerDetails(
    customerName: string, customerEmail: string, customerPhone: string,
    acquisitionDate: string, acquisitionMethod: string, deliveryAddress: string)

  datatype Validation = Invalid(slot: ErrorSlot, message: string) | Proceed(details: CustomerDetails)

  /** `input?.value || fallback`. */
  function ValueOr(input: Option<string>, fallback: string): (r: string)
    ensures r == "" ==> fallback == ""
  {
    if input.Some? && input.value != "" then input.value else fallback
  }

  const NameMessage := "Please enter your name."
  const EmailMessage := "Please enter a valid email address."
  const PhoneMessage := "Please enter a valid phone number with at least 10 digits."
  const DateMessage := "Please select a pickup date."
  const TooSoonMessage := "Pickup date must be at least 3 days from today."

  /**
   * The pay-button handler up to saving the details. `tooSoon` is the
   * comparison of the chosen date with two days from now, which needs the
   * clock and date parsing.
   */
  function ValidateCheckout(form: FormInput, tooSoon: bool): (r: Validation)
    ensures Trim(ValueOr(form.name, "")) == "" ==> r == Invalid(ConfirmErrors, NameMessage)
    ensures Trim(ValueOr(form.name, "")) != "" && !MatchesEmailPattern(Trim(ValueOr(form.email, "")))
      ==> r == Invalid(EmailErrors, EmailMessage)
    ensures Trim(ValueOr(form.name, "")) != "" && MatchesEmailPattern(Trim(ValueOr(form.email, "")))
      && DigitCount(ValueOr(form.phone, "")) < 10
      ==> r == Invalid(PhoneErrors, PhoneMessage)
    ensures Trim(ValueOr(form.name, "")) != "" && MatchesEmailPattern(Trim(ValueOr(form.email, "")))
      && DigitCount(ValueOr(form.phone, "")) >= 10 && ValueOr(form.pickupDate, "") == ""
      ==> r == Invalid(ConfirmErrors, DateMessage)
    ensures Trim(ValueOr(form.name, "")) != "" && MatchesEmailPattern(Trim(ValueOr(form.email, "")))
      && DigitCount(ValueOr(form.phone, "")) >= 10 && ValueOr(form.pickupDate, "") != "" && tooSoon
      ==> r == Invalid(ConfirmErrors, TooSoonMessage)
    ensures r.Proceed? <==>
      Trim(ValueOr(form.name, "")) != "" && MatchesEmailPattern(Trim(ValueOr(form.email, "")))
      && DigitCount(ValueOr(form.phone, "")) >= 10 && ValueOr(form.pickupDate, "") != "" && !tooSoon
    ensures r.Proceed? ==> r.details == CustomerDetails(
      Trim(ValueOr(form.name, "")), Trim(ValueOr(form.email, "")), ValueOr(form.phone, ""),
      ValueOr(form.pickupDate, ""), ValueOr(form.acquisitionMethod, "pickup"), ValueOr(form.deliveryAddress, ""))
  {
    var name := Trim(ValueOr(form.name, ""));
    var email := Trim(ValueOr(form.email, ""));
    var phone := ValueOr(form.phone, "");
    var date := ValueOr(form.pickupDate, "");
    EmailCheckMatchesPattern(email);
    if name == "" then Invalid(ConfirmErrors, NameMessage)
    else if !IsValidEmail(email) then Invalid(EmailErrors, EmailMessage)
    else if DigitCount(phone) < 10 then Invalid(PhoneErrors, PhoneMessage)
    else if date == "" then Invalid(ConfirmErrors, DateMessage)
    else if tooSoon then Invalid(ConfirmErrors, TooSoonMessage)
    else Proceed(CustomerDetails(name, email, phone, date, ValueOr(form.acquisitionMethod, "pickup"),
                                 ValueOr(form.deliveryAddress, "")))
  }
}

=== FILE: client_cart.dfy ===
/**
 * The browser cart kept in local storage under `shb_cart`: the lines in the
 * order they were added (`{name, quantityKey}`) and a per-product summary
 * (`{quantity, price}` keyed by name). Reading storage, the catalog lookup
 * and JSON parsing are parameters; each operation takes the store it read
 * and returns the store it would save.
 */
module ClientCart {
  import opened Outcomes
  import opened JsValues
  import Dicts
  import Seqs

  /** The parsed cart: its `lines` array and its `summary` object. */
  datatype Store = Store(lines: seq<JsValue>, summary: Dicts.Dict<JsValue>)

  const EmptyStore: Store := Store([], [])

  /** The JSON object `saveCartStore` writes for a store. */
  function StoreJson(store: Store): JsValue {
    Obj([("lines", Arr(store.lines)), ("summary", Obj(store.summary))])
  }

  /** The current format: an array of lines and a truthy object summary (`typeof` also admits arrays). */
  predicate HasStoreShape(parsed: JsValue) {
    Truthy(parsed) && OptionalProp(parsed, "lines").Arr? &&
    (OptionalProp(parsed, "summary").Obj? || OptionalProp(parsed, "summary").Arr?)
  }

  /**
   * `getCartStore()`: `stored` is the raw storage value and `parse` stands
   * for `JSON.parse` (None when it throws). Anything but a current-format
   * store, including the older summary-only object, reads as the empty store.
   */
  function GetCartStore(stored: Option<string>, parse: string -> Option<JsValue>): (s: Store)
    ensures s != EmptyStore ==>
      stored.Some? && stored.value != "" && parse(stored.value).Some? && HasStoreShape(parse(stored.value).value)
    ensures stored.Some? && stored.value != "" && parse(stored.value).Some? && HasStoreShape(parse(stored.value).value) ==>
      s.lines == OptionalProp(parse(stored.value).value, "lines").items
    ensures stored.Some? && stored.value != "" && parse(stored.value).Some? && HasStoreShape(parse(stored.value).value) ==>
      var summary := OptionalProp(parse(stored.value).value, "summary");
      s.summary == if summary.Obj? then summary.fields else []
  {
    if stored.None? || stored.value == "" then EmptyStore
    else
      var parsed := parse(stored.value);
      if parsed.None? || !HasStoreShape(parsed.value) then EmptyStore
      else
        var summary := OptionalProp(parsed.value, "summary");
        Store(OptionalProp(parsed.value, "lines").items, if summary.Obj? then summary.fields else [])
  }

  /** What is saved is what is read back next time. */
  lemma SavedStoreReadsBack(store: Store, text: string, parse: string -> Option<JsValue>)
    requires text != "" && parse(text) == Some(StoreJson(store))
    ensures GetCartStore(Some(text), parse) == store
  {
    var fields := [("lines", Arr(store.lines)), ("summary", Obj(store.summary))];
    assert Dicts.IndexOf(fields, "summary") == 1 by {
      assert fields[1..] == [("summary", Obj(store.summary))];
    }
  }

  /** A summary-only object from the older format is discarded. */
  lemma LegacySummaryIsDiscarded(text: string, parse: string -> Option<JsValue>, summary: Dicts.Dict<JsValue>)
    requires parse(text) == Some(Obj(summary))
    requires !Dicts.HasKey(summary, "lines")
    ensures GetCartStore(Some(text), parse) == EmptyStore
  {
  }

  // ---------------------------------------------------------------- adding

  /** The line `addToCart` appends. */
  function LineJson(name: string, quantityKey: string): JsValue {
    Obj([("name", Str(name)), ("quantityKey", Str(quantityKey))])
  }

  /** The value `addToCart` resolves to, for the caller's feedback. */
  function AddedJson(name: string, quantityKey: string, price: JsValue): JsValue {
    Obj([("name", Str(name)), ("quantity", Str(quantityKey)), ("price", price)])
  }

  /**
   * `menuItem.prices[quantityKey]` for a truthy menu item: None when
   * `prices` is null or undefined, which throws.
   */
  function CatalogPrice(menuItem: JsValue, quantityKey: string): Option<JsValue>
    requires Truthy(menuItem)
  {
    Member(Prop(menuItem, "prices").value, quantityKey)
  }

  /**
   * The summary entry after adding `qty` and `price` to `existing`: a
   * truthy object is updated in place with `+=`; a truthy primitive cannot
   * take a property in a module and throws; anything else is replaced.
   */
  function AddToEntry(existing: Option<JsValue>, qty: Number, price: JsValue): (r: Result<JsValue, string>)
    ensures (existing.None? || !Truthy(existing.value)) ==> r == Ok(Obj([("quantity", Num(qty)), ("price", price)]))
    ensures r.Err? <==> existing.Some? && Truthy(existing.value) && !existing.value.Obj?
    ensures r.Ok? && existing.Some? && Truthy(existing.value) ==>
      r.value == WithAmounts(existing.value, Add(OptionalProp(existing.value, "quantity"), Num(qty)),
                             Add(OptionalProp(existing.value, "price"), price))
  {
    if existing.None? || !Truthy(existing.value) then Ok(Obj([("quantity", Num(qty)), ("price", price)]))
    else if !existing.value.Obj? then Err("Cannot create property 'quantity' on a primitive")
    else
      var e := existing.value;
      Ok(WithAmounts(e, Add(OptionalProp(e, "quantity"), Num(qty)), Add(OptionalProp(e, "price"), price)))
  }

  /** The object `e` after assigning its `quantity` and then its `price`. */
  function WithAmounts(e: JsValue, quantity: JsValue, price: JsValue): (r: JsValue)
    requires e.Obj?
    ensures r.Obj? && OptionalProp(r, "quantity") == quantity && OptionalProp(r, "price") == price
  {
    assert "quantity"[0] != "price"[0];
    Obj(Dicts.Set(Dicts.Set(e.fields, "quantity", quantity), "price", price))
  }

  /** An object entry with integer amounts takes the sums. */
  lemma AddToEntrySums(e: JsValue, q: int, p: int, qty: int, price: int)
    requires e.Obj? && OptionalProp(e, "quantity") == Num(Int(q)) && OptionalProp(e, "price") == Num(Int(p))
    ensures AddToEntry(Some(e), Int(qty), Num(Int(price))).Ok?
    ensures var r := AddToEntry(Some(e), Int(qty), Num(Int(price))).value;
      r.Obj? && OptionalProp(r, "quantity") == Num(Int(q + qty)) && OptionalProp(r, "price") == Num(Int(p + price))
  {
    var quantity := Add(Num(Int(q)), Num(Int(qty)));
    var total := Add(Num(Int(p)), Num(Int(price)));
    assert quantity == Num(Int(q + qty)) && total == Num(Int(p + price));
    assert AddToEntry(Some(e), Int(qty), Num(Int(price))) == Ok(WithAmounts(e, quantity, total));
  }

  /**
   * `addToCart(name, quantityKey)`. `menuItem` is what
   * `getTable('products', name)` produced (Err when it threw). The product
   * and its price are looked up before the store is touched; on success the
   * result holds the store to save and the value returned.
   */
  function AddToCart(store: Store, name: string, quantityKey: string, menuItem: Result<JsValue, string>): (r: Result<(Store, JsValue), string>)
    ensures menuItem.Err? ==> r == Err(menuItem.error)
    ensures menuItem.Ok? && !Truthy(menuItem.value) ==> r == Err("Product not found: " + name)
    ensures menuItem.Ok? && Truthy(menuItem.value) && CatalogPrice(menuItem.value, quantityKey) == Some(Undefined) ==>
      r == Err("Price not found for " + name + " qty " + quantityKey)
    ensures r.Ok? ==>
      menuItem.Ok? && Truthy(menuItem.value) &&
      var price := CatalogPrice(menuItem.value, quantityKey);
      price.Some? && !price.value.Undefined? &&
      r == AddLine(store, name, quantityKey, ParseInt(quantityKey), price.value)
  {
    if menuItem.Err? then Err(menuItem.error)
    else if !Truthy(menuItem.value) then Err("Product not found: " + name)
    else
      var price := CatalogPrice(menuItem.value, quantityKey);
      if price.None? then Err("Cannot read properties of undefined")
      else if price.value.Undefined? then Err("Price not found for " + name + " qty " + quantityKey)
      else AddLine(store, name, quantityKey, ParseInt(quantityKey), price.value)
  }

  /**
   * The store update once the price is known: `qty` (the `parseInt` of the
   * quantity key) and `price` go into the product's summary entry and one
   * line is appended; every other entry stays as it was.
   */
  function AddLine(store: Store, name: string, quantityKey: string, qty: Number, price: JsValue): (r: Result<(Store, JsValue), string>)
    ensures r.Ok? <==> AddToEntry(Dicts.Get(store.summary, name), qty, price).Ok?
    ensures r.Ok? ==>
      var after := r.value.0;
      after.lines == store.lines + [LineJson(name, quantityKey)] &&
      r.value.1 == AddedJson(name, quantityKey, price) &&
      Dicts.Get(after.summary, name) == Some(AddToEntry(Dicts.Get(store.summary, name), qty, price).value) &&
      (forall k :: k != name ==> Dicts.Get(after.summary, k) == Dicts.Get(store.summary, k)) &&
      (Dicts.HasKey(store.summary, name) ==> Dicts.Keys(after.summary) == Dicts.Keys(store.summary)) &&
      (!Dicts.HasKey(store.summary, name) ==> Dicts.Keys(after.summary) == Dicts.Keys(store.summary) + [name])
  {
    var entry := AddToEntry(Dicts.Get(store.summary, name), qty, price);
    if entry.Err? then Err(entry.error)
    else
      var summary := Dicts.Set(store.summary, name, entry.value);
      Ok((Store(store.lines + [LineJson(name, quantityKey)], summary), AddedJson(name, quantityKey, price)))
  }

  /** With integer amounts, a product new to the cart starts at the added quantity and price. */
  lemma AddLineStartsEntry(store: Store, name: string, quantityKey: string, qty: int, price: int)
    requires !HasEntry(store.summary, name)
    ensures AddLine(store, name, quantityKey, Int(qty), Num(Int(price))).Ok?
    ensures NumericEntry(AddLine(store, name, quantityKey, Int(qty), Num(Int(price))).value.0.summary, name, qty, price)
  {
    var entry0 := [("quantity", Num(Int(qty))), ("price", Num(Int(price)))];
    assert Dicts.IndexOf(entry0, "price") == 1 by {
      assert entry0[1..] == [("price", Num(Int(price)))];
    }
  }

  /** With integer amounts, adding to a product already in the cart sums its quantity and price. */
  lemma AddLineSumsEntry(store: Store, name: string, quantityKey: string, qty: int, price: int, q: int, p: int)
    requires NumericEntry(store.summary, name, q, p)
    ensures AddLine(store, name, quantityKey, Int(qty), Num(Int(price))).Ok?
    ensures NumericEntry(AddLine(store, name, quantityKey, Int(qty), Num(Int(price))).value.0.summary, name, q + qty, p + price)
  {
    AddToEntrySums(Dicts.Get(store.summary, name).value, q, p, qty, price);
  }

  /** The summary holds a truthy entry for `name`, the case `cart[name]` tests. */
  predicate HasEntry(summary: Dicts.Dict<JsValue>, name: string) {
    Dicts.Get(summary, name).Some? && Truthy(Dicts.Get(summary, name).value)
  }

  /** The entry for `name` is an object with integer quantity `q` and price `p`. */
  predicate NumericEntry(summary: Dicts.Dict<JsValue>, name: string, q: int, p: int) {
    HasEntry(summary, name) && Dicts.Get(summary, name).value.Obj? &&
    OptionalProp(Dicts.Get(summary, name).value, "quantity") == Num(Int(q)) &&
    OptionalProp(Dicts.Get(summary, name).value, "price") == Num(Int(p))
  }

  // ---------------------------------------------------------------- removing

  /** `line.name`; None when the line is null or undefined, which throws. */
  function LineNameValue(line: JsValue): Option<JsValue> {
    Prop(line, "name")
  }

  /** `lines.filter(line => line.name !== name)`. */
  function KeepOtherLines(lines: seq<JsValue>, name: string): (r: Result<seq<JsValue>, string>)
    ensures r.Ok? <==> forall i :: 0 <= i < |lines| ==> LineNameValue(lines[i]).Some?
    ensures r.Ok? ==> forall l :: l in r.value <==> l in lines && LineNameValue(l).value != Str(name)
    ensures r.Ok? ==> |r.value| <= |lines|
    ensures r.Ok? ==> r.value == Seqs.Filter(lines, l => LineNameValue(l) != Some(Str(name)))
  {
    if |lines| == 0 then Ok([])
    else
      var here := LineNameValue(lines[0]);
      var rest := KeepOtherLines(lines[1..], name);
      assert forall i :: 1 <= i < |lines| ==> lines[i] == lines[1..][i - 1];
      assert forall l :: l in lines <==> l == lines[0] || l in lines[1..];
      if here.None? then Err("Cannot read properties of null (reading 'name')")
      else if rest.Err? then rest
      else if here.value != Str(name) then Ok([lines[0]] + rest.value)
      else rest
  }

  /** Filtering again removes nothing more. */
  lemma {:induction false} KeepOtherLinesIdempotent(lines: seq<JsValue>, name: string)
    requires KeepOtherLines(lines, name).Ok?
    ensures KeepOtherLines(KeepOtherLines(lines, name).value, name) == KeepOtherLines(lines, name)
  {
    if |lines| > 0 {
      KeepOtherLinesIdempotent(lines[1..], name);
      var rest := KeepOtherLines(lines[1..], name).value;
      if LineNameValue(lines[0]).value != Str(name) {
        assert ([lines[0]] + rest)[1..] == rest;
      }
    }
  }

  /** `removeFromCart(name)`: the product's entry and all of its lines go; the rest keep their order. */
  function RemoveFromCart(store: Store, name: string): (r: Result<Store, string>)
    ensures r.Ok? <==> forall i :: 0 <= i < |store.lines| ==> LineNameValue(store.lines[i]).Some?
    ensures r.Ok? ==> !Dicts.HasKey(r.value.summary, name)
    ensures r.Ok? ==> forall k :: k != name ==> Dicts.Get(r.value.summary, k) == Dicts.Get(store.summary, k)
    ensures r.Ok? ==> forall l :: l in r.value.lines <==> l in store.lines && LineNameValue(l).value != Str(name)
    ensures r.Ok? ==> r.value.lines == Seqs.Filter(store.lines, l => LineNameValue(l) != Some(Str(name)))
    ensures r.Ok? ==> Dicts.Keys(r.value.summary) == Seqs.Filter(Dicts.Keys(store.summary), k => k != name)
  {
    var lines := KeepOtherLines(store.lines, name);
    if lines.Err? then Err(lines.error)
    else
      var summary := Dicts.Remove(store.summary, name);
      Dicts.KeysOfRemove(store.summary, name);
      forall k | k != name ensures Dicts.Get(summary, k) == Dicts.Get(store.summary, k) {
        Dicts.RemoveKeepsOthers(store.summary, name, k);
      }
      Ok(Store(lines.value, summary))
  }

  /** Removing a product twice is the same as removing it once. */
  lemma RemoveFromCartIdempotent(store: Store, name: string)
    requires RemoveFromCart(store, name).Ok?
    ensures RemoveFromCart(RemoveFromCart(store, name).value, name) == RemoveFromCart(store, name)
  {
    KeepOtherLinesIdempotent(store.lines, name);
  }

  // ---------------------------------------------------------------- the lines/summary invariant

  /** The names carried by the well-formed lines (objects with a string `name`). */
  function LineNames(lines: seq<JsValue>): set<string> {
    set l | l in lines && LineNameValue(l).Some? && LineNameValue(l).value.Str? :: LineNameValue(l).value.s
  }

  /**
   * Every line is an object naming its product, and the products named by
   * the lines are exactly the keys of the summary.
   */
  predicate NamesAgree(store: Store) {
    (forall i :: 0 <= i < |store.lines| ==> store.lines[i].Obj? && LineNameValue(store.lines[i]).value.Str?) &&
    LineNames(store.lines) == set k | k in Dicts.Keys(store.summary)
  }

  lemma EmptyStoreNamesAgree()
    ensures NamesAgree(EmptyStore)
  {
  }

  /** A successful add keeps the lines and the summary naming the same products. */
  lemma AddKeepsNamesAgree(store: Store, name: string, quantityKey: string, qty: Number, price: JsValue)
    requires NamesAgree(store)
    requires AddLine(store, name, quantityKey, qty, price).Ok?
    ensures NamesAgree(AddLine(store, name, quantityKey, qty, price).value.0)
  {
    var after := AddLine(store, name, quantityKey, qty, price).value.0;
    var line := LineJson(name, quantityKey);
    assert LineNameValue(line) == Some(Str(name));
    assert forall l :: l in after.lines <==> l in store.lines || l == line;
    assert LineNames(after.lines) == LineNames(store.lines) + {name};
    Dicts.KeysHasKey(store.summary, name);
    assert (set k | k in Dicts.Keys(after.summary)) == (set k | k in Dicts.Keys(store.summary)) + {name};
  }

  /** A successful remove keeps the lines and the summary naming the same products. */
  lemma RemoveKeepsNamesAgree(store: Store, name: string)
    requires NamesAgree(store)
    requires RemoveFromCart(store, name).Ok?
    ensures NamesAgree(RemoveFromCart(store, name).value)
  {
    var after := RemoveFromCart(store, name).value;
    forall i | 0 <= i < |after.lines|
      ensures after.lines[i].Obj? && LineNameValue(after.lines[i]).value.Str?
    {
      assert after.lines[i] in store.lines;
    }
    assert LineNames(after.lines) == LineNames(store.lines) - {name};
    forall k ensures k in Dicts.Keys(after.summary) <==> k in Dicts.Keys(store.summary) && k != name {
      Dicts.KeysHasKey(after.summary, k);
      Dicts.KeysHasKey(store.summary, k);
      if k != name {
        Dicts.RemoveKeepsOthers(store.summary, name, k);
      }
    }
    assert (set k | k in Dicts.Keys(after.summary)) == (set k | k in Dicts.Keys(store.summary)) - {name};
  }

  // ---------------------------------------------------------------- totals and line items

  /** `isCartEmpty()`. */
  predicate IsCartEmpty(store: Store) {
    |Dicts.Keys(store.summary)| == 0
  }

  /** While the invariant holds, the summary is empty exactly when there are no lines. */
  lemma EmptyCartHasNoLines(store: Store)
    requires NamesAgree(store)
    ensures IsCartEmpty(store) <==> |store.lines| == 0
  {
    if |store.lines| > 0 {
      assert store.lines[0] in store.lines;
      assert LineNameValue(store.lines[0]).value.s in LineNames(store.lines);
    }
    if |store.summary| > 0 {
      var k := Dicts.Keys(store.summary)[0];
      assert k in Dicts.Keys(store.summary);
      assert k in LineNames(store.lines);
    }
  }

  /** `item.price`; None when the entry is null or undefined, which throws. */
  function EntryPrice(item: JsValue): Option<JsValue> {
    Prop(item, "price")
  }

  /** `items.reduce((total, item) => total + item.price, 0)`, folding from the left. */
  function SumPrices(items: seq<JsValue>): (r: Result<JsValue, string>)
    ensures r.Ok? <==> forall i :: 0 <= i < |items| ==> EntryPrice(items[i]).Some?
  {
    if |items| == 0 then Ok(Num(Int(0)))
    else
      var init := items[..|items| - 1];
      assert forall i :: 0 <= i < |init| ==> init[i] == items[i];
      var t := SumPrices(init);
      var p := EntryPrice(items[|items| - 1]);
      if t.Err? then t
      else if p.None? then Err("Cannot read properties of null (reading 'price')")
      else Ok(Add(t.value, p.value))
  }

  /** `getCartTotal()`. */
  function GetCartTotal(store: Store): Result<JsValue, string> {
    SumPrices(Dicts.Values(store.summary))
  }

  /** The entry's price when it is an integer. */
  function IntPrice(item: JsValue): int {
    var p := OptionalProp(item, "price");
    if p.Num? && p.n.Int? then p.n.i else 0
  }

  predicate NumericPrice(item: JsValue) {
    !(item.Null? || item.Undefined?) && OptionalProp(item, "price").Num? && OptionalProp(item, "price").n.Int?
  }

  function PriceSum(items: seq<JsValue>): int {
    if |items| == 0 then 0 else PriceSum(items[..|items| - 1]) + IntPrice(items[|items| - 1])
  }

  /** With integer prices the total is their arithmetic sum. */
  lemma {:induction false} SumPricesOfNumbers(items: seq<JsValue>)
    requires forall i :: 0 <= i < |items| ==> NumericPrice(items[i])
    ensures SumPrices(items) == Ok(Num(Int(PriceSum(items))))
  {
    if |items| > 0 {
      var init := items[..|items| - 1];
      assert forall i :: 0 <= i < |init| ==> init[i] == items[i];
      SumPricesOfNumbers(init);
    }
  }

  lemma {:induction false} PriceSumAppend(items: seq<JsValue>, x: JsValue)
    ensures PriceSum(items + [x]) == PriceSum(items) + IntPrice(x)
  {
    assert (items + [x])[..|items|] == items;
  }

  lemma {:induction false} PriceSumUpdate(items: seq<JsValue>, i: int, x: JsValue)
    requires 0 <= i < |items|
    ensures PriceSum(items[i := x]) == PriceSum(items) - IntPrice(items[i]) + IntPrice(x)
    decreases |items|
  {
    var n := |items| - 1;
    if i < n {
      assert items[i := x][..n] == items[..n][i := x];
      PriceSumUpdate(items[..n], i, x);
    } else {
      assert items[i := x][..n] == items[..n];
    }
  }

  /** With integer prices, adding a priced line raises the cart total by that price. */
  lemma AddRaisesTotal(store: Store, name: string, quantityKey: string, qty: Number, price: int)
    requires forall i :: 0 <= i < |store.summary| ==> NumericPrice(store.summary[i].1)
    requires forall i :: 0 <= i < |store.summary| ==> store.summary[i].1.Obj?
    ensures AddLine(store, name, quantityKey, qty, Num(Int(price))).Ok?
    ensures GetCartTotal(store) == Ok(Num(Int(PriceSum(Dicts.Values(store.summary)))))
    ensures GetCartTotal(AddLine(store, name, quantityKey, qty, Num(Int(price))).value.0) ==
      Ok(Num(Int(PriceSum(Dicts.Values(store.summary)) + price)))
  {
    var before := Dicts.Values(store.summary);
    var existing := Dicts.Get(store.summary, name);
    var i := Dicts.IndexOf(store.summary, name);
    assert existing.Some? ==> existing == Some(store.summary[i].1);
    var entry := AddToEntry(existing, qty, Num(Int(price)));
    EntryPriceAfterAdd(existing, qty, price);
    var summary := Dicts.Set(store.summary, name, entry.value);
    assert AddLine(store, name, quantityKey, qty, Num(Int(price))).value.0.summary == summary;
    SetEntryTotal(store.summary, name, entry.value);
    SetKeepsNumericPrices(store.summary, name, entry.value);
    assert PriceSum(Dicts.Values(summary)) == PriceSum(before) + price;
    SumPricesOfNumbers(before);
    SumPricesOfNumbers(Dicts.Values(summary));
  }

  /** The entry after an integer-priced add has an integer price: the old one plus the added one. */
  lemma EntryPriceAfterAdd(existing: Option<JsValue>, qty: Number, price: int)
    requires existing.Some? ==> existing.value.Obj? && NumericPrice(existing.value)
    ensures AddToEntry(existing, qty, Num(Int(price))).Ok?
    ensures NumericPrice(AddToEntry(existing, qty, Num(Int(price))).value)
    ensures IntPrice(AddToEntry(existing, qty, Num(Int(price))).value) ==
      (if existing.Some? then IntPrice(existing.value) else 0) + price
  {
    if existing.None? {
      var fields := [("quantity", Num(qty)), ("price", Num(Int(price)))];
      assert Dicts.IndexOf(fields, "price") == 1 by {
        assert fields[1..] == [("price", Num(Int(price)))];
      }
    }
  }

  /** Storing `entry` under `name` replaces the old entry's price in the sum, or adds to it. */
  lemma SetEntryTotal(summary: Dicts.Dict<JsValue>, name: string, entry: JsValue)
    ensures PriceSum(Dicts.Values(Dicts.Set(summary, name, entry))) == PriceSum(Dicts.Values(summary)) + IntPrice(entry) -
      (if Dicts.HasKey(summary, name) then IntPrice(Dicts.Get(summary, name).value) else 0)
  {
    var before := Dicts.Values(summary);
    Dicts.ValuesAfterSet(summary, name, entry);
    if Dicts.HasKey(summary, name) {
      PriceSumUpdate(before, Dicts.IndexOf(summary, name), entry);
    } else {
      PriceSumAppend(before, entry);
    }
  }

  /** Storing an integer-priced entry keeps every price an integer. */
  lemma SetKeepsNumericPrices(summary: Dicts.Dict<JsValue>, name: string, entry: JsValue)
    requires forall i :: 0 <= i < |summary| ==> NumericPrice(summary[i].1)
    requires NumericPrice(entry)
    ensures var after := Dicts.Values(Dicts.Set(summary, name, entry));
      forall i :: 0 <= i < |after| ==> NumericPrice(after[i])
  {
    Dicts.ValuesAfterSet(summary, name, entry);
  }

  /** One client-side Stripe line item. */
  datatype LineItem = LineItem(name: string, unitAmount: Number, quantity: int, actualQuantity: JsValue)

  /** The JSON object `buildLineItems` produces for an item. */
  function LineItemJson(item: LineItem): JsValue {
    Obj([("price_data", Obj([("currency", Str("usd")),
                             ("product_data", Obj([("name", Str(item.name))])),
                             ("unit_amount", Num(item.unitAmount))])),
         ("quantity", Num(Int(item.quantity))),
         ("actual_quantity", item.actualQuantity)])
  }

  /** `buildLineItems()`: one item per summary entry, in key order, priced in cents. */
  function BuildLineItems(store: Store): (r: Result<seq<LineItem>, string>)
    decreases |store.summary|
    ensures r.Ok? <==> forall i :: 0 <= i < |store.summary| ==> !(store.summary[i].1.Null? || store.summary[i].1.Undefined?)
    ensures r.Ok? ==> |r.value| == |store.summary|
    ensures r.Ok? ==> forall i :: 0 <= i < |r.value| ==>
      (var item := store.summary[i].1;
       r.value[i].name == store.summary[i].0 && r.value[i].quantity == 1 &&
       r.value[i].unitAmount == Times(ToNumber(OptionalProp(item, "price")), Int(100)) &&
       r.value[i].actualQuantity == OptionalProp(item, "quantity"))
  {
    if |store.summary| == 0 then Ok([])
    else
      var (name, item) := store.summary[0];
      var rest := BuildLineItems(Store(store.lines, store.summary[1..]));
      assert forall i :: 1 <= i < |store.summary| ==> store.summary[i] == store.summary[1..][i - 1];
      if item.Null? || item.Undefined? then Err("Cannot read properties of null (reading 'price')")
      else if rest.Err? then rest
      else
        Ok([LineItem(name, Times(ToNumber(OptionalProp(item, "price")), Int(100)), 1, OptionalProp(item, "quantity"))] + rest.value)
  }

  function UnitAmountSum(items: seq<LineItem>): int {
    if |items| == 0 then 0
    else (if items[0].unitAmount.Int? then items[0].unitAmount.i else 0) + UnitAmountSum(items[1..])
  }

  /** With integer prices the line items' amounts add up to the cart total in cents. */
  lemma {:induction false} LineItemsMatchTotal(store: Store)
    requires forall i :: 0 <= i < |store.summary| ==> NumericPrice(store.summary[i].1)
    ensures BuildLineItems(store).Ok?
    ensures UnitAmountSum(BuildLineItems(store).value) == 100 * PriceSum(Dicts.Values(store.summary))
    decreases |store.summary|
  {
    if |store.summary| > 0 {
      var tail := Store(store.lines, store.summary[1..]);
      LineItemsMatchTotal(tail);
      FirstUnitAmount(store);
      PriceSumCons(Dicts.Values(store.summary));
      Dicts.ValuesTail(store.summary);
    }
  }

  /** The first item's amount is its entry's price in cents, ahead of the rest. */
  lemma FirstUnitAmount(store: Store)
    requires |store.summary| > 0 && NumericPrice(store.summary[0].1)
    requires BuildLineItems(Store(store.lines, store.summary[1..])).Ok?
    ensures BuildLineItems(store).Ok?
    ensures UnitAmountSum(BuildLineItems(store).value) ==
      100 * IntPrice(store.summary[0].1) + UnitAmountSum(BuildLineItems(Store(store.lines, store.summary[1..])).value)
  {
    var item := store.summary[0].1;
    var rest := BuildLineItems(Store(store.lines, store.summary[1..])).value;
    var head := LineItem(store.summary[0].0, Times(ToNumber(OptionalProp(item, "price")), Int(100)), 1, OptionalProp(item, "quantity"));
    assert BuildLineItems(store).value == [head] + rest;
    assert ([head] + rest)[1..] == rest;
  }

  lemma {:induction false} PriceSumCons(items: seq<JsValue>)
    requires |items| > 0
    ensures PriceSum(items) == IntPrice(items[0]) + PriceSum(items[1..])
    decreases |items|
  {
    if |items| > 1 {
      var n := |items| - 1;
      PriceSumCons(items[..n]);
      assert items[..n][1..] == items[1..][..n - 1];
      assert items[..n][0] == items[0];
    }
  }
}

=== FILE: client_database.dfy ===
/**
 * The browser-side data module: a per-page cache of whole tables, reads
 * that fetch a table once and then answer from the cache, and writes
 * through the admin endpoints that invalidate the cached copy. The HTTP
 * exchange is a parameter: what the request would have answered.
 */
module ClientDatabase {
  import opened Outcomes
  import opened Strings
  import opened JsValues
  import opened KvTables

  /** `dataCache`: table name to the parsed JSON last loaded for it. */
  type Cache = map<string, JsValue>

  /** How a `fetch` ended: the request itself failed, or a status with a body that parses (Ok) or not (Err). */
  datatype Reply = NetworkError(message: string) | Answered(status: int, body: Result<JsValue, string>)

  predicate IsOk(status: int) {
    200 <= status < 300
  }

  /** The cached entry counts only when truthy; a falsy one is loaded again. */
  predicate IsCached(cache: Cache, tableName: string) {
    tableName in cache && Truthy(cache[tableName])
  }

  /**
   * What `getTable` ends in: the value (or the thrown message), the cache
   * afterwards, whether it went to the network, and whether it logged the
   * user out (`handle401`).
   */
  datatype Lookup = Lookup(result: Result<JsValue, string>, cache: Cache, fetched: bool, loggedOut: bool)

  /**
   * No key was asked for: the argument was left out, or passed as `null`
   * or `undefined` (the default `= null` replaces `undefined`).
   */
  predicate NoKey(partitionKeyValue: Option<JsValue>) {
    partitionKeyValue.None? || partitionKeyValue.value.Null? || partitionKeyValue.value.Undefined?
  }

  /** Pick the requested item out of a loaded table. */
  function Select(tableName: string, data: JsValue, partitionKeyValue: Option<JsValue>): (r: Result<JsValue, string>)
    ensures NoKey(partitionKeyValue) ==> r == Ok(data)
    ensures !NoKey(partitionKeyValue) && !data.Arr? ==> r == Ok(Or(data, Null))
    ensures !NoKey(partitionKeyValue) && data.Arr? && r.Ok? && r.value != Null ==>
      var pk := PartitionKey(tableName);
      var target := ToJsString(partitionKeyValue.value);
      exists i :: 0 <= i < |data.items| && data.items[i] == r.value &&
        KeyOf(data.items[i], pk) == Some(target) &&
        forall j :: 0 <= j < i ==> Passes(data.items, pk, target, j)
    ensures !NoKey(partitionKeyValue) && data.Arr? ==>
      (r.Err? <==> FindIndex(data.items, PartitionKey(tableName), ToJsString(partitionKeyValue.value)).Threw?)
    ensures !NoKey(partitionKeyValue) && data.Arr? ==>
      var pk := PartitionKey(tableName);
      var target := ToJsString(partitionKeyValue.value);
      (forall i :: FirstMatchAt(data.items, pk, target, i) ==> r == Ok(Or(data.items[i], Null))) &&
      ((forall j :: 0 <= j < |data.items| ==> Passes(data.items, pk, target, j)) ==> r == Ok(Null)) &&
      (r.Err? <==> exists j :: ThrowsAt(data.items, pk, target, j))
  {
    if NoKey(partitionKeyValue) then Ok(data)
    else if !data.Arr? then Ok(Or(data, Null))
    else
      FindIndexCases(data.items, PartitionKey(tableName), ToJsString(partitionKeyValue.value));
      FindIndexThrows(data.items, PartitionKey(tableName), ToJsString(partitionKeyValue.value));
      match FindIndex(data.items, PartitionKey(tableName), ToJsString(partitionKeyValue.value))
      case Found(i) => Ok(Or(data.items[i], Null))
      case NotFound => Ok(Null)
      case Threw => Err("Cannot read properties of null")
  }

  /**
   * `getTable(tableName, partitionKeyValue)`. `partitionKeyValue` is None
   * for the default `null`; `admin` is whether the user is signed in (the
   * admin endpoint is used instead of the static file); `reply` is what the
   * fetch would answer, consulted only when the table is not cached.
   */
  function GetTable(cache: Cache, tableName: string, partitionKeyValue: Option<JsValue>, admin: bool, reply: Reply): (o: Lookup)
    ensures IsCached(cache, tableName) ==>
      !o.fetched && !o.loggedOut && o.cache == cache && o.result == Select(tableName, cache[tableName], partitionKeyValue)
    ensures !IsCached(cache, tableName) ==> o.fetched
    ensures o.loggedOut <==> o.fetched && admin && reply.Answered? && reply.status == 401
    ensures o.loggedOut ==> o.result == Ok(Null) && o.cache == cache
    ensures forall t :: t != tableName ==> (t in o.cache <==> t in cache) && (t in cache ==> o.cache[t] == cache[t])
    ensures o.fetched && reply.Answered? && IsOk(reply.status) && reply.body.Ok? && !o.loggedOut ==>
      o.cache == cache[tableName := reply.body.value] && o.result == Select(tableName, reply.body.value, partitionKeyValue)
    ensures o.cache != cache ==> o.fetched && reply.Answered? && IsOk(reply.status) && reply.body.Ok?
  {
    if IsCached(cache, tableName) then
      Lookup(Select(tableName, cache[tableName], partitionKeyValue), cache, false, false)
    else
      match reply
      case NetworkError(m) => Lookup(Err(m), cache, true, false)
      case Answered(status, body) =>
        if status == 401 && admin then Lookup(Ok(Null), cache, true, true)
        else if !IsOk(status) then
          Lookup(Err("Failed to load " + tableName + ": " + IntToString(status)), cache, true, false)
        else
          match body
          case Err(m) => Lookup(Err(m), cache, true, false)
          case Ok(data) =>
            var cache' := cache[tableName := data];
            Lookup(Select(tableName, data, partitionKeyValue), cache', true, false)
  }

  /** A table loaded with a truthy value is answered from the cache on every later read, with no second fetch. */
  lemma GetTableLoadsOnce(cache: Cache, tableName: string, v1: Option<JsValue>, v2: Option<JsValue>,
                          admin: bool, reply1: Reply, reply2: Reply)
    requires !IsCached(cache, tableName)
    requires reply1.Answered? && IsOk(reply1.status) && !(reply1.status == 401 && admin)
    requires reply1.body.Ok? && Truthy(reply1.body.value)
    ensures var first := GetTable(cache, tableName, v1, admin, reply1);
      var second := GetTable(first.cache, tableName, v2, admin, reply2);
      !second.fetched && second.cache == first.cache &&
      second.result == Select(tableName, reply1.body.value, v2)
  {
  }

  /**
   * `clearCache(tableName)`: a truthy name removes that one entry (the key
   * is the name's string form); a falsy one, the default null included,
   * empties the cache.
   */
  function ClearCache(cache: Cache, tableName: JsValue): (r: Cache)
    ensures Truthy(tableName) ==>
      (forall t :: t in r <==> t in cache && t != ToJsString(tableName)) &&
      (forall t :: t in r ==> r[t] == cache[t])
    ensures !Truthy(tableName) ==> r == map[]
  {
    if Truthy(tableName) then cache - {ToJsString(tableName)} else map[]
  }

  /** What `putItem` / `removeItem` return, the cache afterwards, and whether `handle401` ran. */
  datatype WriteResult = WriteResult(reply: JsValue, cache: Cache, loggedOut: bool)

  function Failure(message: string): JsValue {
    Obj([("success", Bool(false)), ("error", Str(message))])
  }

  /**
   * The shared body of `putItem` and `removeItem`, given the reply of the
   * POST. Failures become `{success: false, error}`; on an ok status the
   * table's cache entry is dropped before the body is parsed.
   */
  function Write(cache: Cache, tableName: string, reply: Reply): (o: WriteResult)
    ensures o.loggedOut <==> reply.Answered? && reply.status == 401
    ensures o.loggedOut ==> o.reply == Failure("Unauthorized")
    ensures reply.Answered? && !IsOk(reply.status) && reply.status != 401 ==>
      o.reply == Failure("HTTP " + IntToString(reply.status))
    ensures reply.NetworkError? ==> o.reply == Failure(reply.message)
    ensures !(reply.Answered? && IsOk(reply.status)) ==> o.cache == cache
    ensures reply.Answered? && IsOk(reply.status) && tableName != "" ==>
      tableName !in o.cache &&
      (forall t :: t != tableName ==> (t in o.cache <==> t in cache)) &&
      (forall t :: t in o.cache ==> o.cache[t] == cache[t])
    ensures reply.Answered? && IsOk(reply.status) && reply.body.Ok? ==> o.reply == reply.body.value
  {
    match reply
    case NetworkError(m) => WriteResult(Failure(m), cache, false)
    case Answered(status, body) =>
      if status == 401 then WriteResult(Failure("Unauthorized"), cache, true)
      else if !IsOk(status) then WriteResult(Failure("HTTP " + IntToString(status)), cache, false)
      else
        var cache' := ClearCache(cache, Str(tableName));
        match body
        case Ok(v) => WriteResult(v, cache', false)
        case Err(m) => WriteResult(Failure(m), cache', false)
  }

  /** After a successful write, the next read of that table goes back to the network. */
  lemma WriteThenReadRefetches(cache: Cache, tableName: string, reply: Reply, v: Option<JsValue>, admin: bool, next: Reply)
    requires reply.Answered? && IsOk(reply.status) && tableName != ""
    ensures GetTable(Write(cache, tableName, reply).cache, tableName, v, admin, next).fetched
  {
  }
}

=== FILE: customize.dfy ===
/**
 * The admin customize page: the `q:p, q:p` text fields for prices and
 * customizations, the image list a saved section ends up with, and the
 * guards of the two add forms. Uploads, deletions and the table writes
 * they lead to are parameters or the record handed to `putItem`.
 */
module Customize {
  import opened Outcomes
  import opened Strings
  import opened JsValues
  import opened Dicts

  // ---------------------------------------------------------------- `q:p, q:p` fields

  /**
   * One comma-separated piece: split on `:`, the first two fields trimmed.
   * The pair is kept only when both are non-empty; a piece without `:` has
   * no second field.
   */
  function PairOf(piece: string): (r: Option<(string, string)>)
    ensures r.Some? ==> r.value.0 != "" && r.value.1 != "" && ':' !in r.value.0 && ':' !in r.value.1
  {
    var fields := Split(piece, ':');
    if |fields| < 2 then None
    else
      var q, p := Trim(fields[0]), Trim(fields[1]);
      assert ':' !in q && ':' !in p by {
        TrimIsSlice(fields[0]);
        TrimIsSlice(fields[1]);
      }
      if q == "" || p == "" then None else Some((q, p))
  }

  lemma TrimIsSlice(s: string)
    ensures forall ch :: ch in Trim(s) ==> ch in s
  {
    var t := Trim(s);
    var a, b :| 0 <= a <= b <= |s| && t == s[a..b];
    assert forall k :: 0 <= k < |t| ==> t[k] == s[a + k];
  }

  /** A piece read as a `(key, value)` pair, or None when it is skipped. */
  type Pair = Option<(string, string)>

  /** The pieces of a field, each read as a pair or skipped. */
  function PairsOf(text: string): (r: seq<Pair>)
    ensures |r| == |Split(text, ',')|
    ensures forall i :: 0 <= i < |r| ==> r[i] == PairOf(Split(text, ',')[i])
  {
    var pieces := Split(text, ',');
    seq(|pieces|, i requires 0 <= i < |pieces| => PairOf(pieces[i]))
  }

  /** A piece read as a pair with key `k`. */
  predicate Yields(pair: Pair, k: string) {
    pair.Some? && pair.value.0 == k
  }

  /** Piece `i` is the last one that yields key `k`. */
  predicate LastFor(pieces: seq<Pair>, k: string, i: int) {
    0 <= i < |pieces| && Yields(pieces[i], k) && forall j :: i < j < |pieces| ==> !Yields(pieces[j], k)
  }

  /** One step of the `forEach`: a kept pair is assigned, overwriting any earlier value for its key. */
  function Keep<V>(acc: Dict<V>, pair: Pair, value: string -> V): Dict<V> {
    match pair
    case None => acc
    case Some((q, p)) => Set(acc, q, value(p))
  }

  /**
   * The `forEach` over the pieces. A key is present exactly when some piece
   * yields it, and its value comes from the last such piece.
   */
  function Collect<V>(pieces: seq<Pair>, value: string -> V): (r: Dict<V>)
    ensures UniqueKeys(r)
    ensures forall k :: HasKey(r, k) <==> exists i :: 0 <= i < |pieces| && Yields(pieces[i], k)
    ensures forall k, i :: LastFor(pieces, k, i) ==> Get(r, k) == Some(value(pieces[i].value.1))
    decreases |pieces|
  {
    if |pieces| == 0 then []
    else
      var init := pieces[..|pieces| - 1];
      var acc := Collect(init, value);
      var r := Keep(acc, pieces[|pieces| - 1], value);
      CollectStep(init, pieces, value, acc, r);
      r
  }

  lemma CollectStep<V>(init: seq<Pair>, pieces: seq<Pair>, value: string -> V, acc: Dict<V>, r: Dict<V>)
    requires |pieces| > 0 && init == pieces[..|pieces| - 1]
    requires UniqueKeys(acc)
    requires forall k :: HasKey(acc, k) <==> exists i :: 0 <= i < |init| && Yields(init[i], k)
    requires forall k, i :: LastFor(init, k, i) ==> Get(acc, k) == Some(value(init[i].value.1))
    requires r == Keep(acc, pieces[|pieces| - 1], value)
    ensures UniqueKeys(r)
    ensures forall k :: HasKey(r, k) <==> exists i :: 0 <= i < |pieces| && Yields(pieces[i], k)
    ensures forall k, i :: LastFor(pieces, k, i) ==> Get(r, k) == Some(value(pieces[i].value.1))
  {
    forall k ensures HasKey(r, k) <==> exists i :: 0 <= i < |pieces| && Yields(pieces[i], k) {
      StepHasKey(init, pieces, value, acc, r, k);
    }
    forall k, i | LastFor(pieces, k, i) ensures Get(r, k) == Some(value(pieces[i].value.1)) {
      StepLast(init, pieces, value, acc, r, k, i);
    }
  }

  lemma StepHasKey<V>(init: seq<Pair>, pieces: seq<Pair>, value: string -> V, acc: Dict<V>, r: Dict<V>, k: string)
    requires |pieces| > 0 && init == pieces[..|pieces| - 1]
    requires HasKey(acc, k) <==> exists i :: 0 <= i < |init| && Yields(init[i], k)
    requires r == Keep(acc, pieces[|pieces| - 1], value)
    ensures HasKey(r, k) <==> exists i :: 0 <= i < |pieces| && Yields(pieces[i], k)
  {
    var n := |pieces| - 1;
    if Yields(pieces[n], k) {
      assert Get(r, k).Some?;
    } else {
      assert Get(r, k) == Get(acc, k);
      if exists i :: 0 <= i < |pieces| && Yields(pieces[i], k) {
        var i :| 0 <= i < |pieces| && Yields(pieces[i], k);
        assert i < n && init[i] == pieces[i];
      }
      if exists i :: 0 <= i < |init| && Yields(init[i], k) {
        var i :| 0 <= i < |init| && Yields(init[i], k);
        assert pieces[i] == init[i];
      }
    }
  }

  lemma StepLast<V>(init: seq<Pair>, pieces: seq<Pair>, value: string -> V, acc: Dict<V>, r: Dict<V>, k: string, i: int)
    requires |pieces| > 0 && init == pieces[..|pieces| - 1]
    requires LastFor(init, k, i) ==> Get(acc, k) == Some(value(init[i].value.1))
    requires r == Keep(acc, pieces[|pieces| - 1], value)
    requires LastFor(pieces, k, i)
    ensures Get(r, k) == Some(value(pieces[i].value.1))
  {
    var n := |pieces| - 1;
    if i < n {
      assert !Yields(pieces[n], k);
      assert Get(r, k) == Get(acc, k);
      assert init[i] == pieces[i];
      assert LastFor(init, k, i) by {
        forall j | i < j < |init| ensures !Yields(init[j], k) {
          assert init[j] == pieces[j];
        }
      }
    }
  }

  /**
   * `prices[q] = parseInt(p)` for each kept pair of the comma-separated
   * text: a quantity is present exactly when some piece yields it, and its
   * price is the integer read from the last such piece.
   */
  function ParsePrices(text: string): (r: Dict<Number>)
    ensures UniqueKeys(r)
    ensures forall k :: HasKey(r, k) <==> exists i :: 0 <= i < |PairsOf(text)| && Yields(PairsOf(text)[i], k)
    ensures forall k, i :: LastFor(PairsOf(text), k, i) ==> Get(r, k) == Some(ParseInt(PairsOf(text)[i].value.1))
  {
    Collect(PairsOf(text), p => ParseInt(p))
  }

  /**
   * `customizations[c] = p` for each kept pair of the comma-separated text:
   * a name is present exactly when some piece yields it, and its surcharge
   * is the trimmed text of the last such piece.
   */
  function ParseCustomizations(text: string): (r: Dict<string>)
    ensures UniqueKeys(r)
    ensures forall k :: HasKey(r, k) <==> exists i :: 0 <= i < |PairsOf(text)| && Yields(PairsOf(text)[i], k)
    ensures forall k, i :: LastFor(PairsOf(text), k, i) ==> Get(r, k) == Some(PairsOf(text)[i].value.1)
  {
    Collect(PairsOf(text), p => p)
  }

  /** Empty text (the field left blank or missing) parses to an empty object. */
  lemma EmptyTextParsesEmpty()
    ensures ParsePrices("") == [] && ParseCustomizations("") == []
  {
    assert Split("", ',') == [""];
    assert Split("", ':') == [""];
  }

  // ---------------------------------------------------------------- the text an admin types

  /** Text that stands for itself in a field: non-empty, untrimmed by `trim`, free of `,` and `:`. */
  predicate PlainText(s: string) {
    s != "" && Trim(s) == s && ',' !in s && ':' !in s
  }

  /** `k:v, k:v, …` for an object. */
  function FormatPairs(d: Dict<string>): string
    requires |d| > 0
  {
    Join(seq(|d|, i requires 0 <= i < |d| => d[i].0 + ":" + d[i].1), ',')
  }

  lemma PairOfFormatted(k: string, v: string)
    requires PlainText(k) && PlainText(v)
    ensures PairOf(k + ":" + v) == Some((k, v))
  {
    assert k + ":" + v == k + [':'] + v;
    SplitAfterFirst(k, ':', v);
    SplitWithoutSeparator(v, ':');
  }

  /**
   * Parsing what the fields would hold for an object gives the object back,
   * when its keys are distinct and every key and value is plain text.
   */
  lemma ParseFormatted(d: Dict<string>)
    requires |d| > 0 && UniqueKeys(d)
    requires forall i :: 0 <= i < |d| ==> PlainText(d[i].0) && PlainText(d[i].1)
    ensures ParseCustomizations(FormatPairs(d)) == d
  {
    var pieces := seq(|d|, i requires 0 <= i < |d| => d[i].0 + ":" + d[i].1);
    forall k | 0 <= k < |pieces| ensures ',' !in pieces[k] {
      assert pieces[k] == d[k].0 + ":" + d[k].1;
    }
    SplitJoin(pieces, ',');
    var pairs := PairsOf(FormatPairs(d));
    forall k | 0 <= k < |d| ensures pairs[k] == Some(d[k]) {
      PairOfFormatted(d[k].0, d[k].1);
    }
    CollectPairs(d, pairs);
  }

  lemma {:induction false} CollectPairs(d: Dict<string>, pairs: seq<Pair>)
    requires UniqueKeys(d) && |pairs| == |d|
    requires forall i :: 0 <= i < |d| ==> pairs[i] == Some(d[i])
    ensures Collect(pairs, p => p) == d
    decreases |d|
  {
    if |d| > 0 {
      var n := |d| - 1;
      var init := d[..n];
      assert pairs[..|pairs| - 1] == pairs[..n];
      CollectPairs(init, pairs[..n]);
      assert !HasKey(init, d[n].0) by {
        forall j | 0 <= j < n ensures init[j].0 != d[n].0 {
          assert init[j] == d[j];
        }
      }
      assert Keep(init, pairs[n], p => p) == Set(init, d[n].0, d[n].1);
      assert init + [(d[n].0, d[n].1)] == d;
    }
  }

  // ---------------------------------------------------------------- section images

  /**
   * The image list a saved section is written with: the existing URLs
   * without every occurrence of the one removed (when one was), followed
   * by the newly uploaded URLs, which an upload that did not succeed leaves
   * empty.
   */
  function SectionImages(existing: seq<string>, removed: Option<string>, uploaded: Option<seq<string>>): (r: seq<string>)
    ensures removed.None? || removed.value == "" ==> r == existing + (if uploaded.Some? then uploaded.value else [])
    ensures removed.Some? && removed.value != "" ==> r == Without(existing, removed.value) + (if uploaded.Some? then uploaded.value else [])
  {
    var kept := if removed.Some? && removed.value != "" then Without(existing, removed.value) else existing;
    kept + (if uploaded.Some? then uploaded.value else [])
  }

  /** `xs.filter(url => url !== x)`. */
  function Without(xs: seq<string>, x: string): (r: seq<string>)
    ensures x !in r
    ensures forall y :: y != x ==> multiset(r)[y] == multiset(xs)[y]
    ensures x !in xs ==> r == xs
    ensures |r| <= |xs|
  {
    if |xs| == 0 then []
    else
      assert xs == [xs[0]] + xs[1..];
      (if xs[0] == x then [] else [xs[0]]) + Without(xs[1..], x)
  }

  /** The removed URL survives only if it was uploaded again; every other URL keeps its count. */
  lemma SectionImagesCounts(existing: seq<string>, removed: string, uploaded: seq<string>, url: string)
    requires removed != ""
    ensures var r := SectionImages(existing, Some(removed), Some(uploaded));
      multiset(r)[url] == (if url == removed then 0 else multiset(existing)[url]) + multiset(uploaded)[url]
  {
    var kept := Without(existing, removed);
    assert multiset(kept + uploaded) == multiset(kept) + multiset(uploaded);
    if url == removed {
      assert multiset(kept)[url] == 0;
    }
  }

  /**
   * The section save as written: the existing images are read from the
   * row's `data-image-urls` attribute, which the section editor never
   * renders (it puts the URL on the `.edit-image-item` inside the row), so
   * the list always starts empty and the saved section holds the uploads
   * alone.
   */
  function SectionSaveAsWritten(removed: Option<string>, uploaded: Option<seq<string>>): (r: seq<string>)
    ensures r == (if uploaded.Some? then uploaded.value else [])
  {
    SectionImages([], removed, uploaded)
  }

  /**
   * Saving a section whose image was neither removed nor uploaded again
   * loses it as written, where the evidently intended save keeps it.
   */
  lemma SectionSaveDropsImages(existing: seq<string>, removed: Option<string>, uploaded: Option<seq<string>>, url: string)
    requires url in existing && (removed.None? || removed.value != url)
    requires uploaded.None? || url !in uploaded.value
    ensures url !in SectionSaveAsWritten(removed, uploaded)
    ensures url in SectionImages(existing, removed, uploaded)
  {
    if removed.Some? && removed.value != "" {
      assert multiset(existing)[url] > 0;
      assert multiset(Without(existing, removed.value))[url] > 0;
    }
  }

  /** Filtering keeps the order: the survivors appear as they did, only the removed URL is skipped. */
  lemma {:induction false} WithoutKeepsOrder(xs: seq<string>, x: string, i: int)
    requires 0 <= i < |xs| && xs[i] != x
    ensures Without(xs[..i + 1], x) == Without(xs[..i], x) + [xs[i]]
    decreases i
  {
    WithoutConcat(xs[..i], [xs[i]], x);
    assert xs[..i] + [xs[i]] == xs[..i + 1];
    assert Without([xs[i]], x) == [xs[i]] by {
      assert [xs[i]][1..] == [];
    }
  }

  lemma {:induction false} WithoutConcat(a: seq<string>, b: seq<string>, x: string)
    ensures Without(a + b, x) == Without(a, x) + Without(b, x)
    decreases |a|
  {
    if |a| > 0 {
      assert (a + b)[0] == a[0] && (a + b)[1..] == a[1..] + b;
      WithoutConcat(a[1..], b, x);
    } else {
      assert a + b == b;
    }
  }

  // ---------------------------------------------------------------- the product edit

  /** `xs.filter(url => !removed.includes(url))`. */
  function WithoutAny(xs: seq<string>, removed: seq<string>): (r: seq<string>)
    ensures forall u :: u in r ==> u !in removed
    ensures forall u :: u !in removed ==> multiset(r)[u] == multiset(xs)[u]
    ensures |r| <= |xs|
  {
    if |xs| == 0 then []
    else
      assert xs == [xs[0]] + xs[1..];
      (if xs[0] in removed then [] else [xs[0]]) + WithoutAny(xs[1..], removed)
  }

  /** Marking a single URL for removal filters as the section edit does. */
  lemma {:induction false} WithoutSingle(xs: seq<string>, x: string)
    ensures WithoutAny(xs, [x]) == Without(xs, x)
    decreases |xs|
  {
    if |xs| > 0 {
      WithoutSingle(xs[1..], x);
    }
  }

  /**
   * The image list an edited product is saved with: the product's URLs
   * without those marked for removal, followed by the newly uploaded URLs.
   */
  function EditedImages(existing: seq<string>, toRemove: seq<string>, uploaded: Option<seq<string>>): (r: seq<string>)
    ensures forall u :: u in r ==> (u in existing && u !in toRemove) || (uploaded.Some? && u in uploaded.value)
    ensures forall u :: u in existing && u !in toRemove ==> u in r
    ensures uploaded.Some? ==> |r| >= |uploaded.value| && r[|r| - |uploaded.value|..] == uploaded.value
  {
    var kept := WithoutAny(existing, toRemove);
    var added := if uploaded.Some? then uploaded.value else [];
    assert forall u :: u in existing && u !in toRemove ==> multiset(kept)[u] > 0;
    kept + added
  }

  /** A URL marked for removal survives only if it was uploaded again; every other URL keeps its count. */
  lemma EditedImagesCounts(existing: seq<string>, toRemove: seq<string>, uploaded: seq<string>, url: string)
    ensures var r := EditedImages(existing, toRemove, Some(uploaded));
      multiset(r)[url] == (if url in toRemove then 0 else multiset(existing)[url]) + multiset(uploaded)[url]
  {
    var kept := WithoutAny(existing, toRemove);
    assert multiset(kept + uploaded) == multiset(kept) + multiset(uploaded);
    if url in toRemove {
      assert url !in kept;
      assert multiset(kept)[url] == 0;
    }
  }

  /** A list of URLs as the array of strings a record holds. */
  function UrlArray(urls: seq<string>): (v: JsValue)
    ensures v.Arr? && |v.items| == |urls|
    ensures forall i :: 0 <= i < |urls| ==> v.items[i] == Str(urls[i])
  {
    Arr(seq(|urls|, i requires 0 <= i < |urls| => Str(urls[i])))
  }

  /** The object a product form saves, with its fields in the order both forms write them. */
  function ProductRecord(itemName: string, description: string, prices: Dict<Number>, customizations: Dict<string>,
                         images: seq<string>): JsValue {
    Obj([("itemName", Str(itemName)), ("description", Str(description)),
         ("prices", Obj(MapValues(prices, (n: Number) => Num(n)))),
         ("customizations", Obj(MapValues(customizations, (s: string) => Str(s)))),
         ("imageURLs", UrlArray(images))])
  }

  /** Reading the five fields of a product record back. */
  lemma ProductRecordFields(itemName: string, description: string, prices: Dict<Number>, customizations: Dict<string>,
                            images: seq<string>)
    ensures var r := ProductRecord(itemName, description, prices, customizations, images);
      Prop(r, "itemName") == Some(Str(itemName)) && Prop(r, "description") == Some(Str(description)) &&
      Prop(r, "prices") == Some(Obj(MapValues(prices, (n: Number) => Num(n)))) &&
      Prop(r, "customizations") == Some(Obj(MapValues(customizations, (s: string) => Str(s)))) &&
      Prop(r, "imageURLs") == Some(UrlArray(images))
  {
    var fields := ProductRecord(itemName, description, prices, customizations, images).fields;
    assert fields[4..] == [fields[4]] + [];
    GetCons(fields[4], [], "imageURLs");
    assert fields == [fields[0]] + ([fields[1]] + ([fields[2]] + ([fields[3]] + fields[4..])));
    GetCons(fields[3], fields[4..], "customizations");
    GetCons(fields[3], fields[4..], "imageURLs");
    var r2 := [fields[3]] + fields[4..];
    GetCons(fields[2], r2, "customizations");
    GetCons(fields[2], r2, "prices");
    GetCons(fields[2], r2, "imageURLs");
    var r1 := [fields[2]] + r2;
    GetCons(fields[1], r1, "customizations");
    GetCons(fields[1], r1, "prices");
    GetCons(fields[1], r1, "description");
    GetCons(fields[1], r1, "imageURLs");
    var rest := [fields[1]] + r1;
    GetCons(fields[0], rest, "customizations");
    GetCons(fields[0], rest, "prices");
    GetCons(fields[0], rest, "description");
    GetCons(fields[0], rest, "itemName");
    GetCons(fields[0], rest, "imageURLs");
  }

  /**
   * Saving an edited product row as the handler evidently means it: the
   * name and description as typed, both text fields parsed (a blank field
   * gives an empty object, as the page's `if` does), and the images as
   * `EditedImages` leaves them, starting from `existing`, the URLs of the
   * product the row was rendered from.
   */
  function EditProduct(itemName: string, description: string, prices: string, customizations: string,
                       existing: seq<string>, toRemove: seq<string>, uploaded: Option<seq<string>>): (r: JsValue)
    ensures Prop(r, "itemName") == Some(Str(itemName)) && Prop(r, "description") == Some(Str(description))
    ensures Prop(r, "prices") == Some(Obj(MapValues(ParsePrices(prices), (n: Number) => Num(n))))
    ensures Prop(r, "customizations") == Some(Obj(MapValues(ParseCustomizations(customizations), (s: string) => Str(s))))
    ensures prices == "" ==> Prop(r, "prices") == Some(Obj([]))
    ensures customizations == "" ==> Prop(r, "customizations") == Some(Obj([]))
    ensures Prop(r, "imageURLs") == Some(UrlArray(EditedImages(existing, toRemove, uploaded)))
  {
    EmptyTextParsesEmpty();
    ProductRecordFields(itemName, description, ParsePrices(prices), ParseCustomizations(customizations),
                        EditedImages(existing, toRemove, uploaded));
    ProductRecord(itemName, description, ParsePrices(prices), ParseCustomizations(customizations),
                  EditedImages(existing, toRemove, uploaded))
  }

  /** What a click on a save button leads to: the record handed to `putItem`, or the error thrown first. */
  datatype SaveClick = Saved(record: JsValue) | Threw(error: string)

  const ReferenceError := "ReferenceError"

  /**
   * The product save handler as written: after parsing both text fields it
   * reads `product.imageURLs`, but no `product` is in scope there (the name
   * is only the parameter of the render loop's callback), so the handler
   * throws before it deletes, uploads or saves anything.
   */
  function EditSaveAsWritten(itemName: string, description: string, prices: string, customizations: string,
                             toRemove: seq<string>, uploaded: Option<seq<string>>): (c: SaveClick)
    ensures c.Threw? && c.error == ReferenceError
  {
    Threw(ReferenceError)
  }

  /**
   * Whatever was typed, marked or uploaded, the save as written keeps
   * nothing, while the evidently intended save writes the typed name and
   * the product's surviving images.
   */
  lemma EditSaveLosesEdits(itemName: string, description: string, prices: string, customizations: string,
                           existing: seq<string>, toRemove: seq<string>, uploaded: Option<seq<string>>)
    ensures EditSaveAsWritten(itemName, description, prices, customizations, toRemove, uploaded) == Threw(ReferenceError)
    ensures var r := EditProduct(itemName, description, prices, customizations, existing, toRemove, uploaded);
      Prop(r, "itemName") == Some(Str(itemName)) &&
      forall u :: u in existing && u !in toRemove ==> Str(u) in Prop(r, "imageURLs").value.items
  {
    var r := EditProduct(itemName, description, prices, customizations, existing, toRemove, uploaded);
    var imgs := EditedImages(existing, toRemove, uploaded);
    forall u | u in existing && u !in toRemove
      ensures Str(u) in Prop(r, "imageURLs").value.items
    {
      var i :| 0 <= i < |imgs| && imgs[i] == u;
      assert UrlArray(imgs).items[i] == Str(u);
    }
  }

  // ---------------------------------------------------------------- the add forms

  /** The record the add-product form saves, or None when the name is empty and nothing is saved. */
  function AddProduct(name: string, description: string, csvPrices: string, csvCustomizations: string,
                      uploaded: Option<seq<string>>): (r: Option<JsValue>)
    ensures r.None? <==> name == ""
    ensures r.Some? ==> Prop(r.value, "itemName") == Some(Str(name)) && Prop(r.value, "description") == Some(Str(description))
    ensures r.Some? ==> Prop(r.value, "prices") == Some(Obj(MapValues(ParsePrices(csvPrices), (n: Number) => Num(n))))
    ensures r.Some? ==>
      Prop(r.value, "customizations") == Some(Obj(MapValues(ParseCustomizations(csvCustomizations), (s: string) => Str(s))))
    ensures r.Some? ==> Prop(r.value, "imageURLs") == Some(UrlArray(if uploaded.Some? then uploaded.value else []))
  {
    if name == "" then None
    else
      var images := if uploaded.Some? then uploaded.value else [];
      ProductRecordFields(name, description, ParsePrices(csvPrices), ParseCustomizations(csvCustomizations), images);
      Some(ProductRecord(name, description, ParsePrices(csvPrices), ParseCustomizations(csvCustomizations), images))
  }

  /** Customizations typed as `k:v, k:v` are saved as the object they spell, in the order typed. */
  lemma TypedCustomizationsSaved(name: string, description: string, csvPrices: string, d: Dict<string>,
                                 uploaded: Option<seq<string>>)
    requires name != "" && |d| > 0 && UniqueKeys(d)
    requires forall i :: 0 <= i < |d| ==> PlainText(d[i].0) && PlainText(d[i].1)
    ensures Prop(AddProduct(name, description, csvPrices, FormatPairs(d), uploaded).value, "customizations") ==
      Some(Obj(MapValues(d, (s: string) => Str(s))))
  {
    ParseFormatted(d);
    var images := if uploaded.Some? then uploaded.value else [];
    ProductRecordFields(name, description, ParsePrices(csvPrices), ParseCustomizations(FormatPairs(d)), images);
  }

  /** The object a section form saves. */
  function SectionRecord(sectionIndex: string, headerText: string, bodyText: string, images: seq<string>): JsValue {
    Obj([("sectionIndex", Str(sectionIndex)), ("headerText", Str(headerText)), ("bodyText", Str(bodyText)),
         ("imageURLs", UrlArray(images))])
  }

  /** Reading the four fields of a section record back. */
  lemma SectionRecordFields(sectionIndex: string, headerText: string, bodyText: string, images: seq<string>)
    ensures var r := SectionRecord(sectionIndex, headerText, bodyText, images);
      Prop(r, "sectionIndex") == Some(Str(sectionIndex)) && Prop(r, "headerText") == Some(Str(headerText)) &&
      Prop(r, "bodyText") == Some(Str(bodyText)) && Prop(r, "imageURLs") == Some(UrlArray(images))
  {
    var fields := SectionRecord(sectionIndex, headerText, bodyText, images).fields;
    assert UniqueKeys(fields);
    GetAtUniqueIndex(fields, 0);
    GetAtUniqueIndex(fields, 1);
    GetAtUniqueIndex(fields, 2);
    GetAtUniqueIndex(fields, 3);
  }

  /** The table and record the add-section form saves, or None when the section index is empty. */
  function AddSection(pageName: string, sectionIndex: string, headerText: string, bodyText: string,
                      uploaded: Option<seq<string>>): (r: Option<(string, JsValue)>)
    ensures r.None? <==> sectionIndex == ""
    ensures r.Some? ==> r.value.0 == pageName && Prop(r.value.1, "sectionIndex") == Some(Str(sectionIndex))
    ensures r.Some? ==>
      Prop(r.value.1, "headerText") == Some(Str(headerText)) && Prop(r.value.1, "bodyText") == Some(Str(bodyText))
    ensures r.Some? ==> Prop(r.value.1, "imageURLs") == Some(UrlArray(if uploaded.Some? then uploaded.value else []))
  {
    if sectionIndex == "" then None
    else
      var images := if uploaded.Some? then uploaded.value else [];
      SectionRecordFields(sectionIndex, headerText, bodyText, images);
      Some((pageName, SectionRecord(sectionIndex, headerText, bodyText, images)))
  }
}

=== FILE: dicts.dfy ===
/**
 * A plain JavaScript object used as a dictionary: string keys in insertion
 * order. Assigning to an existing key keeps its position, a new key goes at
 * the end, and `delete` removes the key; these are the three operations below.
 */
module Dicts {
  import opened Outcomes
  import Seqs

  type Dict<V> = seq<(string, V)>

  /** `Object.keys(d)`. */
  function Keys<V>(d: Dict<V>): (ks: seq<string>)
    ensures |ks| == |d|
    ensures forall i :: 0 <= i < |d| ==> ks[i] == d[i].0
  {
    seq(|d|, i requires 0 <= i < |d| => d[i].0)
  }

  predicate HasKey<V>(d: Dict<V>, k: string) {
    exists i :: 0 <= i < |d| && d[i].0 == k
  }

  /** No key occurs twice: true of every object built by assignment. */
  predicate UniqueKeys<V>(d: Dict<V>) {
    forall i, j :: 0 <= i < j < |d| ==> d[i].0 != d[j].0
  }

  /** The position of `k`, or -1 when it is absent. */
  function IndexOf<V>(d: Dict<V>, k: string): (i: int)
    ensures -1 <= i < |d|
    ensures i >= 0 ==> d[i].0 == k && forall j :: 0 <= j < i ==> d[j].0 != k
    ensures i < 0 ==> !HasKey(d, k)
  {
    if |d| == 0 then -1
    else if d[0].0 == k then 0
    else
      var j := IndexOf(d[1..], k);
      if j < 0 then -1 else j + 1
  }

  /** A key is listed by `Keys` exactly when some entry carries it. */
  lemma KeysHasKey<V>(d: Dict<V>, k: string)
    ensures k in Keys(d) <==> HasKey(d, k)
  {
    if HasKey(d, k) {
      var i :| 0 <= i < |d| && d[i].0 == k;
      assert Keys(d)[i] == k;
    }
  }

  /** `d[k]`, with `None` for `undefined`. */
  function Get<V>(d: Dict<V>, k: string): (r: Option<V>)
    ensures r.Some? <==> HasKey(d, k)
  {
    var i := IndexOf(d, k);
    if i < 0 then None else Some(d[i].1)
  }

  /** With unique keys, looking up the key stored at a position finds that position's value. */
  lemma {:induction false} GetAtUniqueIndex<V>(d: Dict<V>, i: int)
    requires UniqueKeys(d) && 0 <= i < |d|
    ensures IndexOf(d, d[i].0) == i
    ensures Get(d, d[i].0) == Some(d[i].1)
  {
    if i > 0 {
      assert d[0].0 != d[i].0;
      assert d[1..][i - 1] == d[i];
      GetAtUniqueIndex(d[1..], i - 1);
    }
  }

  /** `d[k] = v`: an existing key keeps its position, a new key is appended. */
  function Set<V>(d: Dict<V>, k: string, v: V): (r: Dict<V>)
    ensures Get(r, k) == Some(v)
    ensures forall k' :: k' != k ==> Get(r, k') == Get(d, k')
    ensures HasKey(d, k) ==> |r| == |d| && Keys(r) == Keys(d) && r == d[IndexOf(d, k) := (k, v)]
    ensures !HasKey(d, k) ==> r == d + [(k, v)]
    ensures UniqueKeys(d) ==> UniqueKeys(r)
  {
    var i := IndexOf(d, k);
    if i >= 0 then
      var r := d[i := (k, v)];
      assert IndexOf(r, k) == i by { IndexOfAfterUpdate(d, i, k, v); }
      forall k' | k' != k ensures Get(r, k') == Get(d, k') {
        IndexOfOtherAfterUpdate(d, i, k, v, k');
      }
      r
    else
      var r := d + [(k, v)];
      assert IndexOf(r, k) == |d| by { IndexOfAppended(d, k, v, k); }
      forall k' | k' != k ensures Get(r, k') == Get(d, k') {
        IndexOfAppended(d, k, v, k');
      }
      r
  }

  lemma IndexOfAfterUpdate<V>(d: Dict<V>, i: int, k: string, v: V)
    requires 0 <= i < |d| && IndexOf(d, k) == i
    ensures IndexOf(d[i := (k, v)], k) == i
  {
    var r := d[i := (k, v)];
    if i > 0 {
      assert r[1..] == d[1..][i - 1 := (k, v)];
      IndexOfAfterUpdate(d[1..], i - 1, k, v);
    }
  }

  lemma IndexOfOtherAfterUpdate<V>(d: Dict<V>, i: int, k: string, v: V, k': string)
    requires 0 <= i < |d| && d[i].0 == k && k' != k
    ensures IndexOf(d[i := (k, v)], k') == IndexOf(d, k')
    ensures IndexOf(d, k') >= 0 ==> d[i := (k, v)][IndexOf(d, k')] == d[IndexOf(d, k')]
  {
    if i > 0 && d[0].0 != k' {
      assert d[i := (k, v)][1..] == d[1..][i - 1 := (k, v)];
      IndexOfOtherAfterUpdate(d[1..], i - 1, k, v, k');
    } else if i == 0 {
      assert d[i := (k, v)][1..] == d[1..];
    }
  }

  lemma IndexOfAppended<V>(d: Dict<V>, k: string, v: V, k': string)
    requires !HasKey(d, k)
    ensures k' == k ==> IndexOf(d + [(k, v)], k') == |d|
    ensures k' != k ==> IndexOf(d + [(k, v)], k') == IndexOf(d, k')
  {
    if |d| > 0 {
      assert (d + [(k, v)])[1..] == d[1..] + [(k, v)];
      assert !HasKey(d[1..], k) by {
        assert forall j :: 0 <= j < |d[1..]| ==> d[1..][j] == d[j + 1];
      }
      IndexOfAppended(d[1..], k, v, k');
    }
  }

  /** Looking up in an object literal: the first entry answers for its own key, the rest for any other. */
  lemma GetCons<V>(x: (string, V), d: Dict<V>, k: string)
    ensures Get([x] + d, k) == if x.0 == k then Some(x.1) else Get(d, k)
  {
    assert ([x] + d)[1..] == d;
  }

  lemma HasKeyCons<V>(x: (string, V), d: Dict<V>, k: string)
    ensures HasKey([x] + d, k) <==> x.0 == k || HasKey(d, k)
  {
    var r := [x] + d;
    if x.0 == k {
      assert r[0].0 == k;
    }
    if HasKey(r, k) && x.0 != k {
      var j :| 0 <= j < |r| && r[j].0 == k;
      assert d[j - 1].0 == k;
    }
    if HasKey(d, k) {
      var j :| 0 <= j < |d| && d[j].0 == k;
      assert r[j + 1].0 == k;
    }
  }

  lemma ConsKeepsUnique<V>(d: Dict<V>, rest: Dict<V>)
    requires |d| > 0
    requires forall k' :: HasKey(rest, k') ==> HasKey(d[1..], k')
    requires UniqueKeys(d) ==> UniqueKeys(rest)
    ensures UniqueKeys(d) ==> UniqueKeys([d[0]] + rest)
  {
    if UniqueKeys(d) {
      forall j | 0 <= j < |d[1..]| ensures d[1..][j].0 != d[0].0 {
        assert d[1..][j] == d[j + 1];
      }
      assert !HasKey(d[1..], d[0].0);
      assert !HasKey(rest, d[0].0);
      var r := [d[0]] + rest;
      forall i, j | 0 <= i < j < |r| ensures r[i].0 != r[j].0 {
        assert r[j] == rest[j - 1];
        if i > 0 {
          assert r[i] == rest[i - 1];
        }
      }
    }
  }

  /** `delete d[k]`: every entry with key `k` goes, the others keep their order. */
  function Remove<V>(d: Dict<V>, k: string): (r: Dict<V>)
    ensures forall k' :: HasKey(r, k') <==> HasKey(d, k') && k' != k
    ensures UniqueKeys(d) ==> UniqueKeys(r)
    ensures !HasKey(d, k) ==> r == d
  {
    if |d| == 0 then []
    else
      var rest := Remove(d[1..], k);
      assert d == [d[0]] + d[1..];
      forall k' ensures HasKey(d, k') <==> d[0].0 == k' || HasKey(d[1..], k') {
        HasKeyCons(d[0], d[1..], k');
      }
      if d[0].0 == k then rest
      else
        forall k' ensures HasKey([d[0]] + rest, k') <==> d[0].0 == k' || HasKey(rest, k') {
          HasKeyCons(d[0], rest, k');
        }
        ConsKeepsUnique(d, rest);
        [d[0]] + rest
  }

  /** The keys of an entry followed by a dictionary: the entry's key first. */
  lemma KeysCons<V>(x: (string, V), d: Dict<V>)
    ensures Keys([x] + d) == [x.0] + Keys(d)
  {
  }

  /** The keys left after `delete d[k]` are the old keys other than `k`, in their old order. */
  lemma {:induction false} KeysOfRemove<V>(d: Dict<V>, k: string)
    ensures Keys(Remove(d, k)) == Seqs.Filter(Keys(d), k' => k' != k)
  {
    if |d| > 0 {
      var rest := Remove(d[1..], k);
      KeysOfRemove(d[1..], k);
      assert d == [d[0]] + d[1..];
      KeysCons(d[0], d[1..]);
      Seqs.FilterCons(d[0].0, Keys(d[1..]), k' => k' != k);
      assert Remove(d, k) == if d[0].0 == k then rest else [d[0]] + rest;
      if d[0].0 != k {
        KeysCons(d[0], rest);
      }
    }
  }

  /** Removing `k` leaves the value of every other key as it was. */
  lemma {:induction false} RemoveKeepsOthers<V>(d: Dict<V>, k: string, k': string)
    requires k' != k
    ensures Get(Remove(d, k), k') == Get(d, k')
    ensures IndexOf(Remove(d, k), k') >= 0 ==> IndexOf(d, k') >= 0
  {
    if |d| > 0 {
      RemoveKeepsOthers(d[1..], k, k');
      var rest := Remove(d[1..], k);
      if d[0].0 != k {
        assert ([d[0]] + rest)[1..] == rest;
      }
    }
  }

  /** `Object.values(d)`. */
  function Values<V>(d: Dict<V>): (vs: seq<V>)
    ensures |vs| == |d|
    ensures forall i :: 0 <= i < |d| ==> vs[i] == d[i].1
  {
    seq(|d|, i requires 0 <= i < |d| => d[i].1)
  }

  lemma ValuesTail<V>(d: Dict<V>)
    requires |d| > 0
    ensures Values(d)[1..] == Values(d[1..])
  {
  }

  /** `d[k] = v` replaces the value at the key's position, or appends one. */
  lemma ValuesAfterSet<V>(d: Dict<V>, k: string, v: V)
    ensures HasKey(d, k) ==>
      0 <= IndexOf(d, k) && Values(Set(d, k, v)) == Values(d)[IndexOf(d, k) := v] &&
      Get(d, k) == Some(Values(d)[IndexOf(d, k)])
    ensures !HasKey(d, k) ==> Values(Set(d, k, v)) == Values(d) + [v]
  {
  }

  /** The same keys in the same order, each value transformed by `f`. */
  function MapValues<V, W>(d: Dict<V>, f: V -> W): (r: Dict<W>)
    ensures |r| == |d| && forall i :: 0 <= i < |d| ==> r[i] == (d[i].0, f(d[i].1))
  {
    seq(|d|, i requires 0 <= i < |d| => (d[i].0, f(d[i].1)))
  }

  /** Looking a key up after `MapValues` finds the transformed value, or nothing when the key is absent. */
  lemma {:induction false} GetMapValues<V, W>(d: Dict<V>, f: V -> W, k: string)
    ensures IndexOf(MapValues(d, f), k) == IndexOf(d, k)
    ensures Get(MapValues(d, f), k) == (if HasKey(d, k) then Some(f(Get(d, k).value)) else None)
  {
    if |d| > 0 && d[0].0 != k {
      GetMapValues(d[1..], f, k);
      assert MapValues(d, f)[1..] == MapValues(d[1..], f);
    }
  }
}

=== FILE: html_escape.dfy ===
/**
 * `escapeHtml`, written out twice in the source with the same body (the
 * verify-checkout handler and the admin mail page): a falsy value becomes
 * the empty string, anything else is converted with `String` and passed
 * through five global replacements, `&` first. The mail page's
 * `formatBody` then turns each newline into `<br>`.
 */
module HtmlEscape {
  import opened Strings
  import opened JsValues

  /** `s.replace(/c/g, rep)`: every occurrence of `c` becomes `rep`. */
  function ReplaceChar(s: string, c: char, rep: string): (r: string)
    ensures c !in rep ==> c !in r
    ensures c !in s ==> r == s
  {
    if |s| == 0 then "" else (if s[0] == c then rep else [s[0]]) + ReplaceChar(s[1..], c, rep)
  }

  /** Replacing in a concatenation replaces in each half. */
  lemma {:induction false} ReplaceCharConcat(a: string, b: string, c: char, rep: string)
    ensures ReplaceChar(a + b, c, rep) == ReplaceChar(a, c, rep) + ReplaceChar(b, c, rep)
    decreases |a|
  {
    if |a| > 0 {
      assert (a + b)[1..] == a[1..] + b;
      ReplaceCharConcat(a[1..], b, c, rep);
    } else {
      assert a + b == b;
    }
  }

  /** The five replacements, in the order the source applies them. */
  function Chain(s: string): string {
    ReplaceChar(ReplaceChar(ReplaceChar(ReplaceChar(ReplaceChar(s, '&', "&amp;"), '<', "&lt;"), '>', "&gt;"), '"', "&quot;"), '\'', "&#039;")
  }

  /** The entity a single character stands for in the escaped text. */
  function EscapeChar(c: char): (r: string)
    ensures '<' !in r && '>' !in r && '"' !in r && '\'' !in r
    ensures |r| > 0 && (r[0] == '&' <==> c in "&<>\"'")
    ensures c !in "&<>\"'" ==> r == [c]
  {
    match c
    case '&' => "&amp;"
    case '<' => "&lt;"
    case '>' => "&gt;"
    case '"' => "&quot;"
    case '\'' => "&#039;"
    case _ => [c]
  }

  /** Reference definition: each character escaped on its own. */
  function EscapeChars(s: string): (r: string)
    ensures '<' !in r && '>' !in r && '"' !in r && '\'' !in r
  {
    if |s| == 0 then "" else EscapeChar(s[0]) + EscapeChars(s[1..])
  }

  lemma ChainConcat(a: string, b: string)
    ensures Chain(a + b) == Chain(a) + Chain(b)
  {
    var s1a, s1b := ReplaceChar(a, '&', "&amp;"), ReplaceChar(b, '&', "&amp;");
    ReplaceCharConcat(a, b, '&', "&amp;");
    var s2a, s2b := ReplaceChar(s1a, '<', "&lt;"), ReplaceChar(s1b, '<', "&lt;");
    ReplaceCharConcat(s1a, s1b, '<', "&lt;");
    var s3a, s3b := ReplaceChar(s2a, '>', "&gt;"), ReplaceChar(s2b, '>', "&gt;");
    ReplaceCharConcat(s2a, s2b, '>', "&gt;");
    var s4a, s4b := ReplaceChar(s3a, '"', "&quot;"), ReplaceChar(s3b, '"', "&quot;");
    ReplaceCharConcat(s3a, s3b, '"', "&quot;");
    ReplaceCharConcat(s4a, s4b, '\'', "&#039;");
  }

  /** On one character, the chain produces that character's entity. */
  lemma ChainOfChar(c: char)
    ensures Chain([c]) == EscapeChar(c)
  {
    var one := [c];
    assert one[1..] == "";
    assert ReplaceChar(one, '&', "&amp;") == if c == '&' then "&amp;" else one;
  }

  /**
   * Escaping `&` before the others means the entities inserted later are
   * never escaped again: the chain is the character-by-character escape.
   */
  lemma {:induction false} ChainIsCharwise(s: string)
    ensures Chain(s) == EscapeChars(s)
    decreases |s|
  {
    if |s| > 0 {
      assert s == [s[0]] + s[1..];
      ChainConcat([s[0]], s[1..]);
      ChainOfChar(s[0]);
      ChainIsCharwise(s[1..]);
    }
  }

  /** `escapeHtml(str)`. */
  function EscapeHtml(v: JsValue): (r: string)
    ensures !Truthy(v) ==> r == ""
    ensures Truthy(v) ==> r == EscapeChars(ToJsString(v))
    ensures '<' !in r && '>' !in r && '"' !in r && '\'' !in r
  {
    if !Truthy(v) then ""
    else
      ChainIsCharwise(ToJsString(v));
      Chain(ToJsString(v))
  }

  // ---------------------------------------------------------------- reading the entities back

  /** Turns the five entities back into their characters, left to right. */
  function Unescape(t: string): string
    decreases |t|
  {
    if |t| == 0 then ""
    else if t[0] != '&' then [t[0]] + Unescape(t[1..])
    else if StartsWith(t, "&amp;") then "&" + Unescape(t[5..])
    else if StartsWith(t, "&lt;") then "<" + Unescape(t[4..])
    else if StartsWith(t, "&gt;") then ">" + Unescape(t[4..])
    else if StartsWith(t, "&quot;") then "\"" + Unescape(t[6..])
    else if StartsWith(t, "&#039;") then "'" + Unescape(t[6..])
    else [t[0]] + Unescape(t[1..])
  }

  lemma UnescapeStep(c: char, rest: string)
    ensures Unescape(EscapeChar(c) + rest) == [c] + Unescape(rest)
  {
    var e := EscapeChar(c);
    var t := e + rest;
    assert t[..|e|] == e && t[|e|..] == rest;
    match c
    case '&' =>
    case '<' => assert !StartsWith(t, "&amp;") by { assert t[1] == 'l'; }
    case '>' => assert !StartsWith(t, "&amp;") && !StartsWith(t, "&lt;") by { assert t[1] == 'g'; }
    case '"' =>
      assert !StartsWith(t, "&amp;") && !StartsWith(t, "&lt;") && !StartsWith(t, "&gt;") by { assert t[1] == 'q'; }
    case '\'' =>
      assert !StartsWith(t, "&amp;") && !StartsWith(t, "&lt;") && !StartsWith(t, "&gt;") && !StartsWith(t, "&quot;")
        by { assert t[1] == '#'; }
    case _ =>
      assert t[0] == c && t[1..] == rest;
  }

  /** Escaping loses nothing: the entities read back to the original text. */
  lemma {:induction false} UnescapeEscape(s: string)
    ensures Unescape(EscapeChars(s)) == s
    decreases |s|
  {
    if |s| > 0 {
      UnescapeStep(s[0], EscapeChars(s[1..]));
      UnescapeEscape(s[1..]);
      assert [s[0]] + s[1..] == s;
    }
  }

  // ---------------------------------------------------------------- message bodies

  /** Reference definition of a formatted body: escape each character, newlines become `<br>`. */
  function BodyChars(s: string): (r: string)
    ensures '\n' !in r && '"' !in r && '\'' !in r
  {
    if |s| == 0 then "" else (if s[0] == '\n' then "<br>" else EscapeChar(s[0])) + BodyChars(s[1..])
  }

  lemma {:induction false} BreaksAfterEscape(s: string)
    ensures ReplaceChar(EscapeChars(s), '\n', "<br>") == BodyChars(s)
    decreases |s|
  {
    if |s| > 0 {
      ReplaceCharConcat(EscapeChar(s[0]), EscapeChars(s[1..]), '\n', "<br>");
      BreaksAfterEscape(s[1..]);
      var e := EscapeChar(s[0]);
      if s[0] == '\n' {
        assert e == "\n" && e[1..] == "";
      } else if s[0] !in "&<>\"'" {
        assert e == [s[0]] && e[1..] == "";
      }
    }
  }

  /** `formatBody(value)`: the escaped text with every newline turned into `<br>`. */
  function FormatBody(v: JsValue): (r: string)
    ensures '\n' !in r
    ensures !Truthy(v) ==> r == ""
    ensures Truthy(v) ==> r == BodyChars(ToJsString(v))
  {
    if Truthy(v) then
      BreaksAfterEscape(ToJsString(v));
      ReplaceChar(EscapeHtml(v), '\n', "<br>")
    else ReplaceChar(EscapeHtml(v), '\n', "<br>")
  }
}

=== FILE: http.dfy ===
/** The JSON responses the request handlers return. */
module Http {
  import opened JsValues

  datatype Response = Response(status: int, body: JsValue)

  /** `Response.json({ error: message }, { status })`. */
  function ErrorResponse(status: int, message: string): Response {
    Response(status, Obj([("error", Str(message))]))
  }

  /** The answer of a handler whose `try` block threw. */
  const InternalError: Response := ErrorResponse(500, "Internal error")

  /** The message of the TypeError that destructuring fields out of a null or undefined request body throws. */
  const NullBodyError := "Cannot destructure a null or undefined request body"

  /** `Response.json({ success: true })`. */
  const SuccessResponse: Response := Response(200, Obj([("success", Bool(true))]))

  /** Any response with a non-2xx status. */
  predicate IsError(r: Response) {
    !(200 <= r.status < 300)
  }
}

=== FILE: image_keys.dfy ===
/**
 * The S3 object keys an admin may write or delete, and the two handlers
 * that check them: presigning uploads and deleting objects. A key is safe
 * when it is a non-empty string, not absolute, free of `..` and `\`, and
 * either the site icon or inside the `images/` or `header/` folder.
 */
module ImageKeys {
  import opened Outcomes
  import opened JsValues
  import opened Strings
  import opened Http

  const AllowedPrefixes: seq<string> := ["images/", "header/"]

  /** The one key allowed outside the two folders. */
  const IconKey := "sweethopebakeryy.ico"

  /** `prefixes.some(p => s.startsWith(p))`. */
  function StartsWithAny(s: string, prefixes: seq<string>): (b: bool)
    ensures b <==> exists i :: 0 <= i < |prefixes| && StartsWith(s, prefixes[i])
  {
    if |prefixes| == 0 then false
    else if StartsWith(s, prefixes[0]) then true
    else
      assert forall i :: 1 <= i < |prefixes| ==> prefixes[i] == prefixes[1..][i - 1];
      StartsWithAny(s, prefixes[1..])
  }

  /** `isSafeKey(key)`. */
  function IsSafeKey(key: JsValue): (ok: bool)
    ensures ok <==>
      key.Str? && |key.s| > 0 && !StartsWith(key.s, "/") && !Contains(key.s, "..") && !Contains(key.s, "\\") &&
      (key.s == IconKey || StartsWith(key.s, "images/") || StartsWith(key.s, "header/"))
  {
    if !key.Str? || |key.s| == 0 then false
    else if StartsWith(key.s, "/") || Includes(key.s, "..") || Includes(key.s, "\\") then false
    else if key.s == IconKey then true
    else
      assert StartsWithAny(key.s, AllowedPrefixes) <==> StartsWith(key.s, "images/") || StartsWith(key.s, "header/") by {
        assert AllowedPrefixes[0] == "images/" && AllowedPrefixes[1] == "header/";
      }
      StartsWithAny(key.s, AllowedPrefixes)
  }

  /**
   * The same test stated character by character: a safe key is a string whose
   * first character is not `/`, with no two adjacent dots and no backslash,
   * that is the icon or begins with one of the two folder names.
   */
  predicate SafeByCharacters(s: string) {
    && |s| > 0 && s[0] != '/'
    && (forall i :: 0 <= i < |s| - 1 ==> !(s[i] == '.' && s[i + 1] == '.'))
    && (forall i :: 0 <= i < |s| ==> s[i] != '\\')
    && (s == IconKey || (|s| >= 7 && s[..7] == "images/") || (|s| >= 7 && s[..7] == "header/"))
  }

  lemma SafeKeyByCharacters(key: JsValue)
    ensures IsSafeKey(key) <==> key.Str? && SafeByCharacters(key.s)
  {
    if key.Str? {
      var s := key.s;
      assert ".." == ['.', '.'] && "\\" == ['\\'];
      ContainsTwoChars(s, '.', '.');
      ContainsOneChar(s, '\\');
      assert |s| > 0 ==> (StartsWith(s, "/") <==> s[0] == '/') by {
        if |s| > 0 {
          assert s[..1] == [s[0]];
        }
      }
    }
  }

  /** A key that climbs out of its folder is refused although it starts with `images/`. */
  lemma SafeKeyRefusesTraversal()
    ensures !IsSafeKey(Str("images/../data/products.json"))
  {
    var traversal := "images/../data/products.json";
    assert traversal[7] == '.' && traversal[8] == '.';
    SafeKeyByCharacters(Str(traversal));
  }

  /** An absolute key is refused although it names the images folder. */
  lemma SafeKeyRefusesAbsolute()
    ensures !IsSafeKey(Str("/images/cake.png"))
  {
    var key := "/images/cake.png";
    assert key[0] == '/';
    SafeKeyByCharacters(Str(key));
  }

  /** A key with a backslash is refused. */
  lemma SafeKeyRefusesBackslash()
    ensures !IsSafeKey(Str("images\\cake.png"))
  {
    var key := "images\\cake.png";
    assert key[6] == '\\';
    SafeKeyByCharacters(Str(key));
  }

  /** Keys outside the two folders other than the icon, the empty string and non-strings are refused. */
  lemma SafeKeyRefusesOthers()
    ensures !IsSafeKey(Str("favicon.ico")) && !IsSafeKey(Str(""))
    ensures !IsSafeKey(Num(Int(7))) && !IsSafeKey(Null)
  {
    var key := "favicon.ico";
    assert key != IconKey && key[..7] != "images/" && key[..7] != "header/" by {
      assert key[0] == 'f';
    }
    SafeKeyByCharacters(Str(key));
  }

  // ---------------------------------------------------------------- upload-images

  const AllowedExtensions: set<string> := {"avif", "jpg", "jpeg", "png", "webp", "gif", "ico"}

  /**
   * `String(filename).split('.').pop().toLowerCase()`: the lower-cased text
   * after the last dot, or the whole name lower-cased when it has no dot.
   */
  function ExtensionOf(filename: string): (ext: string)
    ensures '.' !in ext
    ensures '.' !in filename ==> ext == ToLowerAscii(filename)
    ensures exists i ::
      0 <= i <= |filename| && (i == 0 || filename[i - 1] == '.') && '.' !in filename[i..] && ext == ToLowerAscii(filename[i..])
  {
    var last := LastPart(filename, '.');
    var ext := ToLowerAscii(last);
    assert forall i :: 0 <= i < |ext| ==> ext[i] != '.' by {
      forall i | 0 <= i < |ext| ensures ext[i] != '.' {
        assert last[i] != '.';
      }
    }
    ext
  }

  /** A filename the handler lets through: a safe key with an image extension. */
  predicate IsValidUpload(filename: JsValue) {
    IsSafeKey(filename) && ExtensionOf(ToJsString(filename)) in AllowedExtensions
  }

  /** `'image/' + (contentType || 'avif')`, where `jpg` is sent as `jpeg`. */
  function ContentType(filename: string): string {
    var ext := ExtensionOf(filename);
    var contentType := if ext == "jpg" then "jpeg" else ext;
    "image/" + (if contentType == "" then "avif" else contentType)
  }

  /** The content types an accepted upload can carry. */
  const ImageContentTypes: set<string> :=
    {"image/avif", "image/jpeg", "image/png", "image/webp", "image/gif", "image/ico"}

  /** Every accepted extension maps to one of the six image types, and `jpg` and `jpeg` to the same one. */
  lemma ContentTypeOfAcceptedUpload(filename: string)
    requires ExtensionOf(filename) in AllowedExtensions
    ensures ContentType(filename) in ImageContentTypes
    ensures ExtensionOf(filename) in {"jpg", "jpeg"} ==> ContentType(filename) == "image/jpeg"
    ensures ExtensionOf(filename) !in {"jpg", "jpeg"} ==> ContentType(filename) == "image/" + ExtensionOf(filename)
  {
    var ext := ExtensionOf(filename);
    if ext == "jpg" {
      assert ContentType(filename) == "image/jpeg";
    } else {
      assert ContentType(filename) == "image/" + ext;
      if ext == "avif" {
        assert "image/" + ext == "image/avif";
      } else if ext == "jpeg" {
        assert "image/" + ext == "image/jpeg";
      } else if ext == "png" {
        assert "image/" + ext == "image/png";
      } else if ext == "webp" {
        assert "image/" + ext == "image/webp";
      } else if ext == "gif" {
        assert "image/" + ext == "image/gif";
      } else {
        assert "image/" + ext == "image/ico";
      }
    }
  }

  const PublicBase := "https://sweethopebakeryy.s3.us-east-1.amazonaws.com/"

  /** One element of the response's `uploads`, with the content type the URL was signed for. */
  datatype Upload = Upload(filename: string, contentType: string, presignedUrl: string, publicUrl: string)

  function UploadJson(u: Upload): JsValue {
    Obj([("filename", Str(u.filename)), ("presignedUrl", Str(u.presignedUrl)), ("publicUrl", Str(u.publicUrl))])
  }

  /** The request's `field` is a non-empty array, as both image handlers demand before looking inside. */
  predicate NonEmptyList(body: Option<JsValue>, field: string) {
    body.Some? && Prop(body.value, field).Some? && Prop(body.value, field).value.Arr? &&
    |Prop(body.value, field).value.items| > 0
  }

  /**
   * POST /api/upload-images. `credentials` says whether both AWS keys are
   * configured, `body` is the parsed request (None when it is not JSON), and
   * `presign(key, contentType)` stands for the five-minute signed PUT URL.
   * The result is the list of uploads, or the error response sent instead.
   */
  function UploadImages(denied: Option<Response>, credentials: bool, body: Option<JsValue>,
                        presign: (string, string) -> string): (r: Result<seq<Upload>, Response>)
    ensures denied.Some? ==> r == Err(denied.value)
    ensures denied.None? && !credentials ==> r == Err(ErrorResponse(500, "AWS credentials not configured"))
    ensures denied.None? && credentials && (body.None? || body.value.Null? || body.value.Undefined?) ==>
      r == Err(InternalError)
    ensures denied.None? && credentials && (body.None? || Prop(body.value, "filenames").None?) ==> r == Err(InternalError)
    ensures denied.None? && credentials && body.Some? && Prop(body.value, "filenames").Some? &&
            !NonEmptyList(body, "filenames") ==>
      r == Err(ErrorResponse(400, "No filenames provided"))
    ensures denied.None? && credentials && NonEmptyList(body, "filenames") &&
            (exists i :: 0 <= i < |Prop(body.value, "filenames").value.items| &&
               !IsValidUpload(Prop(body.value, "filenames").value.items[i])) ==>
      r == Err(ErrorResponse(400, "Invalid filename"))
    ensures r.Ok? <==>
      denied.None? && credentials && body.Some? && Prop(body.value, "filenames").Some? &&
      var filenames := Prop(body.value, "filenames").value;
      filenames.Arr? && |filenames.items| > 0 && forall i :: 0 <= i < |filenames.items| ==> IsValidUpload(filenames.items[i])
    ensures r.Ok? ==>
      var filenames := Prop(body.value, "filenames").value.items;
      && |r.value| == |filenames|
      && forall i :: 0 <= i < |r.value| ==>
        && filenames[i] == Str(r.value[i].filename)
        && r.value[i].publicUrl == PublicBase + r.value[i].filename
        && r.value[i].contentType == ContentType(r.value[i].filename)
        && r.value[i].presignedUrl == presign(r.value[i].filename, r.value[i].contentType)
  {
    if denied.Some? then Err(denied.value)
    else if !credentials then Err(ErrorResponse(500, "AWS credentials not configured"))
    else if body.None? || Prop(body.value, "filenames").None? then Err(InternalError)
    else
      var filenames := Prop(body.value, "filenames").value;
      if !filenames.Arr? || |filenames.items| == 0 then Err(ErrorResponse(400, "No filenames provided"))
      else if !AllValidUploads(filenames.items) then Err(ErrorResponse(400, "Invalid filename"))
      else
        var items := filenames.items;
        Ok(seq(|items|, i requires 0 <= i < |items| && items[i].Str? =>
          var contentType := ContentType(items[i].s);
          Upload(items[i].s, contentType, presign(items[i].s, contentType), PublicBase + items[i].s)))
  }

  /** The loop over `filenames` that returns at the first invalid one. */
  function AllValidUploads(items: seq<JsValue>): (ok: bool)
    ensures ok <==> forall i :: 0 <= i < |items| ==> IsValidUpload(items[i])
    ensures ok ==> forall i :: 0 <= i < |items| ==> items[i].Str?
  {
    forall i :: 0 <= i < |items| ==> IsValidUpload(items[i])
  }

  /** The response: `{ uploads }` on success, the error otherwise. */
  function UploadResponse(r: Result<seq<Upload>, Response>): Response {
    match r
    case Ok(uploads) => Response(200, Obj([("uploads", Arr(seq(|uploads|, i requires 0 <= i < |uploads| => UploadJson(uploads[i]))))]))
    case Err(response) => response
  }

  /**
   * Everything the handler presigns is a safe key in one of the two folders
   * or the icon, with an image extension and an image content type; and a
   * request naming any other file is refused as a whole.
   */
  lemma UploadsStayInImageFolders(denied: Option<Response>, credentials: bool, body: Option<JsValue>,
                                  presign: (string, string) -> string)
    ensures var r := UploadImages(denied, credentials, body, presign);
      r.Ok? ==> forall i :: 0 <= i < |r.value| ==>
        var name := r.value[i].filename;
        && !Contains(name, "..")
        && (name == IconKey || StartsWith(name, "images/") || StartsWith(name, "header/"))
        && ExtensionOf(name) in AllowedExtensions
        && r.value[i].contentType in ImageContentTypes
    ensures (denied.None? && credentials && body.Some? && Prop(body.value, "filenames").Some? &&
             Prop(body.value, "filenames").value.Arr? && |Prop(body.value, "filenames").value.items| > 0 &&
             exists i :: 0 <= i < |Prop(body.value, "filenames").value.items| &&
               !IsValidUpload(Prop(body.value, "filenames").value.items[i])) ==>
      UploadImages(denied, credentials, body, presign) == Err(ErrorResponse(400, "Invalid filename"))
  {
    var r := UploadImages(denied, credentials, body, presign);
    if r.Ok? {
      var items := Prop(body.value, "filenames").value.items;
      forall i | 0 <= i < |r.value|
        ensures var name := r.value[i].filename;
          && !Contains(name, "..")
          && (name == IconKey || StartsWith(name, "images/") || StartsWith(name, "header/"))
          && ExtensionOf(name) in AllowedExtensions
          && r.value[i].contentType in ImageContentTypes
      {
        assert IsValidUpload(items[i]);
        ContentTypeOfAcceptedUpload(r.value[i].filename);
      }
    }
  }

  // ---------------------------------------------------------------- delete-images

  /** A handler's response, and the keys it asked S3 to delete, if it got that far. */
  datatype DeleteOutcome = DeleteOutcome(response: Response, requested: Option<seq<string>>)

  /**
   * POST /api/delete-images. `deleteThrew` says whether the S3 call failed;
   * the keys are sent in one batch, in the order given.
   */
  function DeleteImages(denied: Option<Response>, credentials: bool, body: Option<JsValue>, deleteThrew: bool): (o: DeleteOutcome)
    ensures denied.Some? ==> o == DeleteOutcome(denied.value, None)
    ensures denied.None? && !credentials ==> o == DeleteOutcome(ErrorResponse(500, "AWS credentials not configured"), None)
    ensures denied.None? && credentials && (body.None? || Prop(body.value, "s3Keys").None?) ==>
      o == DeleteOutcome(InternalError, None)
    ensures denied.None? && credentials && body.Some? && Prop(body.value, "s3Keys").Some? &&
            !NonEmptyList(body, "s3Keys") ==>
      o == DeleteOutcome(ErrorResponse(400, "No keys provided"), None)
    ensures denied.None? && credentials && NonEmptyList(body, "s3Keys") &&
            (exists i :: 0 <= i < |Prop(body.value, "s3Keys").value.items| &&
               !IsSafeKey(Prop(body.value, "s3Keys").value.items[i])) ==>
      o == DeleteOutcome(ErrorResponse(400, "Invalid key"), None)
    ensures denied.None? ==> (o.response == SuccessResponse <==> o.requested.Some? && !deleteThrew)
    ensures o.requested.Some? <==>
      denied.None? && credentials && body.Some? && Prop(body.value, "s3Keys").Some? &&
      var keys := Prop(body.value, "s3Keys").value;
      keys.Arr? && |keys.items| > 0 && forall i :: 0 <= i < |keys.items| ==> IsSafeKey(keys.items[i])
    ensures o.requested.Some? ==>
      var keys := Prop(body.value, "s3Keys").value.items;
      |o.requested.value| == |keys| && forall i :: 0 <= i < |keys| ==> keys[i] == Str(o.requested.value[i])
  {
    if denied.Some? then DeleteOutcome(denied.value, None)
    else if !credentials then DeleteOutcome(ErrorResponse(500, "AWS credentials not configured"), None)
    else if body.None? || Prop(body.value, "s3Keys").None? then DeleteOutcome(InternalError, None)
    else
      var keys := Prop(body.value, "s3Keys").value;
      if !keys.Arr? || |keys.items| == 0 then DeleteOutcome(ErrorResponse(400, "No keys provided"), None)
      else if !AllSafeKeys(keys.items) then DeleteOutcome(ErrorResponse(400, "Invalid key"), None)
      else
        var items := keys.items;
        var requested := seq(|items|, i requires 0 <= i < |items| && items[i].Str? => items[i].s);
        DeleteOutcome(if deleteThrew then InternalError else SuccessResponse, Some(requested))
  }

  /** The loop over `s3Keys` that returns at the first unsafe one. */
  function AllSafeKeys(items: seq<JsValue>): (ok: bool)
    ensures ok <==> forall i :: 0 <= i < |items| ==> IsSafeKey(items[i])
    ensures ok ==> forall i :: 0 <= i < |items| ==> items[i].Str?
  {
    forall i :: 0 <= i < |items| ==> IsSafeKey(items[i])
  }

  /** No request to S3 ever names a key outside the two folders and the icon, or one that climbs out with `..`. */
  lemma DeletesStayInImageFolders(denied: Option<Response>, credentials: bool, body: Option<JsValue>, deleteThrew: bool)
    ensures var o := DeleteImages(denied, credentials, body, deleteThrew);
      o.requested.Some? ==> |o.requested.value| > 0 && forall i :: 0 <= i < |o.requested.value| ==>
        var key := o.requested.value[i];
        SafeByCharacters(key) && !Contains(key, "..")
  {
    var o := DeleteImages(denied, credentials, body, deleteThrew);
    if o.requested.Some? {
      var items := Prop(body.value, "s3Keys").value.items;
      forall i | 0 <= i < |o.requested.value|
        ensures SafeByCharacters(o.requested.value[i]) && !Contains(o.requested.value[i], "..")
      {
        assert IsSafeKey(items[i]);
        SafeKeyByCharacters(items[i]);
      }
    }
  }
}

=== FILE: js_values.dfy ===
/**
 * The JavaScript values the handlers pass around: parsed JSON plus
 * `undefined`, and the coercions the source applies to them (`String(v)`,
 * `Number(v)`, truthiness, `parseInt`, and property access `v[name]`).
 * Numbers are integers; NaN is kept as its own value because several code
 * paths produce it and compare against it.
 */
module JsValues {
  import opened Outcomes
  import opened Strings
  import Dicts

  /** A JavaScript number, restricted to the integers, with NaN. */
  datatype Number = NaN | Int(i: int) {
    /** `Number.isFinite`. */
    predicate IsFinite() {
      Int?
    }
  }

  /** `a + b`: NaN absorbs. */
  function Plus(a: Number, b: Number): (r: Number)
    ensures r.Int? <==> a.Int? && b.Int?
    ensures r.Int? ==> r.i == a.i + b.i
  {
    if a.Int? && b.Int? then Int(a.i + b.i) else NaN
  }

  /** `a * b`: NaN absorbs. */
  function Times(a: Number, b: Number): (r: Number)
    ensures r.Int? <==> a.Int? && b.Int?
    ensures r.Int? ==> r.i == a.i * b.i
  {
    if a.Int? && b.Int? then Int(a.i * b.i) else NaN
  }

  /** `String(n)`. */
  function NumberToString(n: Number): string {
    if n.NaN? then "NaN" else IntToString(n.i)
  }

  /** `a === b` on numbers: NaN equals nothing, itself included. */
  predicate SameNumber(a: Number, b: Number) {
    a.Int? && b.Int? && a.i == b.i
  }

  datatype JsValue =
    | Undefined
    | Null
    | Bool(b: bool)
    | Num(n: Number)
    | Str(s: string)
    | Arr(items: seq<JsValue>)
    | Obj(fields: Dicts.Dict<JsValue>)

  /** `!!v`. */
  predicate Truthy(v: JsValue) {
    match v
    case Undefined => false
    case Null => false
    case Bool(b) => b
    case Num(n) => n.Int? && n.i != 0
    case Str(s) => s != ""
    case Arr(_) => true
    case Obj(_) => true
  }

  /** `v || fallback`. */
  function Or(v: JsValue, fallback: JsValue): (r: JsValue)
    ensures Truthy(v) ==> r == v
    ensures !Truthy(v) ==> r == fallback
  {
    if Truthy(v) then v else fallback
  }

  /** `String(v)`. An array joins its elements' strings with `,`, rendering null and undefined as empty. */
  function ToJsString(v: JsValue): string
    decreases v, 1
  {
    match v
    case Undefined => "undefined"
    case Null => "null"
    case Bool(b) => if b then "true" else "false"
    case Num(n) => NumberToString(n)
    case Str(s) => s
    case Arr(items) => JoinElements(v, 0)
    case Obj(_) => "[object Object]"
  }

  /** The `,`-joined strings of the elements of array `v` from position `from` on. */
  function JoinElements(v: JsValue, from: nat): string
    requires v.Arr?
    decreases v, 0, |v.items| - from
  {
    if from >= |v.items| then ""
    else
      var e := v.items[from];
      var here := if e.Undefined? || e.Null? then "" else ToJsString(e);
      if from + 1 == |v.items| then here else here + "," + JoinElements(v, from + 1)
  }

  /**
   * `v[name]` for a property name that is neither an array index nor
   * `length` nor inherited from `Object.prototype` (the callers only use
   * fixed field names such as `itemName`). Reading a property of null or
   * undefined throws a TypeError, which is `None` here.
   */
  function Prop(v: JsValue, name: string): (r: Option<JsValue>)
    ensures r.None? <==> v.Undefined? || v.Null?
    ensures v.Obj? && !Dicts.HasKey(v.fields, name) ==> r == Some(Undefined)
    ensures !v.Obj? && r.Some? ==> r.value == Undefined
  {
    match v
    case Undefined => None
    case Null => None
    case Obj(fields) =>
      (match Dicts.Get(fields, name)
       case Some(x) => Some(x)
       case None => Some(Undefined))
    case _ => Some(Undefined)
  }

  /** `v?.name`: undefined instead of a TypeError when `v` is null or undefined. */
  function OptionalProp(v: JsValue, name: string): (r: JsValue)
    ensures v.Undefined? || v.Null? ==> r == Undefined
    ensures Prop(v, name).Some? ==> r == Prop(v, name).value
  {
    if v.Undefined? || v.Null? then Undefined else Prop(v, name).value
  }

  /** A canonical array index: decimal digits with no leading zero. */
  predicate IsIndexName(key: string) {
    |key| > 0 && AllDigits(key) && (|key| == 1 || key[0] != '0')
  }

  /**
   * `v[key]` for a computed key: besides the named properties of `Prop`,
   * arrays and strings answer their indices and `length`.
   */
  function Member(v: JsValue, key: string): Option<JsValue> {
    match v
    case Arr(items) =>
      if key == "length" then Some(Num(Int(|items|)))
      else if IsIndexName(key) && DigitsValue(key) < |items| then Some(items[DigitsValue(key)])
      else Some(Undefined)
    case Str(s) =>
      if key == "length" then Some(Num(Int(|s|)))
      else if IsIndexName(key) && DigitsValue(key) < |s| then Some(Str([s[DigitsValue(key)]]))
      else Some(Undefined)
    case _ => Prop(v, key)
  }

  /**
   * A computed key that is neither an index nor `length` reads the same
   * property as `Prop`, and so does any key on an object; an index within
   * an array reads that element.
   */
  lemma MemberAgreesWithProp(v: JsValue, key: string)
    ensures !IsIndexName(key) && key != "length" ==> Member(v, key) == Prop(v, key)
    ensures v.Obj? ==> Member(v, key) == Prop(v, key)
    ensures v.Arr? && IsIndexName(key) && DigitsValue(key) < |v.items| ==> Member(v, key) == Some(v.items[DigitsValue(key)])
    ensures Member(v, key).None? <==> v.Null? || v.Undefined?
  {
  }

  /** `v?.[key]`. */
  function OptionalMember(v: JsValue, key: string): (r: JsValue)
    ensures v.Undefined? || v.Null? ==> r == Undefined
  {
    if v.Undefined? || v.Null? then Undefined else Member(v, key).value
  }

  /** `Object.keys(v)` for a value that is not null or undefined. */
  function ObjectKeys(v: JsValue): (ks: seq<string>)
    ensures v.Obj? ==> ks == Dicts.Keys(v.fields)
    ensures v.Arr? ==> |ks| == |v.items|
    ensures v.Null? || v.Undefined? || v.Bool? || v.Num? ==> ks == []
  {
    match v
    case Obj(fields) => Dicts.Keys(fields)
    case Arr(items) => seq(|items|, i requires 0 <= i < |items| => NatToString(i))
    case Str(s) => seq(|s|, i requires 0 <= i < |s| => NatToString(i))
    case _ => []
  }

  /**
   * `a + b`: when either side is a string, array or object (the latter two
   * converted to their string forms) the result is the concatenation;
   * otherwise the numeric sum.
   */
  function Add(a: JsValue, b: JsValue): (r: JsValue)
    ensures a.Num? && b.Num? ==> r == Num(Plus(a.n, b.n))
    ensures a.Str? && b.Str? ==> r == Str(a.s + b.s)
  {
    if a.Str? || a.Arr? || a.Obj? || b.Str? || b.Arr? || b.Obj? then Str(ToJsString(a) + ToJsString(b))
    else Num(Plus(ToNumber(a), ToNumber(b)))
  }

  // ---------------------------------------------------------------- numbers from text

  /** A sign followed by decimal digits, or digits alone. */
  function SignedDigits(t: string): Number {
    if |t| > 1 && (t[0] == '+' || t[0] == '-') && AllDigits(t[1..]) then
      var m: int := DigitsValue(t[1..]);
      if t[0] == '-' then Int(-m) else Int(m)
    else if |t| > 0 && AllDigits(t) then Int(DigitsValue(t))
    else NaN
  }

  /** The value of `c` as a digit in base `radix`, or -1 when it is not one; letters count from 10 in either case. */
  function DigitIn(c: char, radix: nat): int {
    var v := if '0' <= c <= '9' then c as int - '0' as int
             else if 'a' <= c <= 'z' then c as int - 'a' as int + 10
             else if 'A' <= c <= 'Z' then c as int - 'A' as int + 10
             else -1;
    if v < radix then v else -1
  }

  predicate AllDigitsIn(s: string, radix: nat) {
    forall i :: 0 <= i < |s| ==> DigitIn(s[i], radix) >= 0
  }

  /** The value of a string of base-`radix` digits. */
  function RadixValue(s: string, radix: nat): nat
    requires AllDigitsIn(s, radix)
  {
    if |s| == 0 then 0
    else
      assert AllDigitsIn(s[..|s| - 1], radix) by {
        assert forall i :: 0 <= i < |s| - 1 ==> s[..|s| - 1][i] == s[i];
      }
      radix * RadixValue(s[..|s| - 1], radix) + DigitIn(s[|s| - 1], radix)
  }

  /** The base selected by the letter after a leading `0`: `x` for 16, `o` for 8, `b` for 2, either case; 0 otherwise. */
  function RadixOfPrefix(c: char): nat {
    if c == 'x' || c == 'X' then 16
    else if c == 'o' || c == 'O' then 8
    else if c == 'b' || c == 'B' then 2
    else 0
  }

  /** The position of the first `c` or `d` in `s`, or `|s|` when there is none. */
  function FirstOf(s: string, c: char, d: char): (i: nat)
    ensures i <= |s|
    ensures forall j :: 0 <= j < i ==> s[j] != c && s[j] != d
    ensures i < |s| ==> s[i] == c || s[i] == d
  {
    if |s| == 0 || s[0] == c || s[0] == d then 0
    else
      var k := FirstOf(s[1..], c, d);
      assert forall j :: 1 <= j < k + 1 ==> s[j] == s[1..][j - 1];
      1 + k
  }

  function Pow10(n: nat): (r: nat)
    ensures r > 0
  {
    if n == 0 then 1 else 10 * Pow10(n - 1)
  }

  /**
   * A decimal mantissa: digits with at most one point, and at least one
   * digit. The result is all its digits read as one integer, with the number
   * of digits after the point.
   */
  function Mantissa(m: string): Option<(nat, nat)> {
    var p := FirstOf(m, '.', '.');
    var whole := m[..p];
    var frac := if p < |m| then m[p + 1..] else "";
    if AllDigits(whole) && AllDigits(frac) && |whole| + |frac| > 0 then
      assert AllDigits(whole + frac) by {
        assert forall i :: 0 <= i < |whole + frac| ==> (whole + frac)[i] == if i < |whole| then whole[i] else frac[i - |whole|];
      }
      Some((DigitsValue(whole + frac), |frac|))
    else None
  }

  /**
   * `m × 10^e` as a Number. A value that is not an integer lies outside the
   * numbers this model keeps and reads as NaN.
   */
  function Scaled(m: nat, e: int): Number {
    if e >= 0 then Int(m * Pow10(e))
    else if m % Pow10(-e) == 0 then Int(m / Pow10(-e))
    else NaN
  }

  /** An unsigned decimal literal: a mantissa, then optionally `e` or `E` and a signed exponent. */
  function UnsignedDecimal(t: string): Number {
    var k := FirstOf(t, 'e', 'E');
    var mantissa := Mantissa(t[..k]);
    var exponent := if k < |t| then SignedDigits(t[k + 1..]) else Int(0);
    if mantissa.None? || exponent.NaN? then NaN
    else Scaled(mantissa.value.0, exponent.i - mantissa.value.1)
  }

  /** A decimal literal with an optional sign. */
  function SignedDecimal(t: string): Number {
    var neg := |t| > 0 && t[0] == '-';
    var body := if |t| > 0 && (t[0] == '-' || t[0] == '+') then t[1..] else t;
    var v := UnsignedDecimal(body);
    if v.Int? && neg then Int(-v.i) else v
  }

  /**
   * `Number(s)` for a string: surrounding whitespace is ignored and the
   * empty string is 0; `0x`, `0o` and `0b` (either case, no sign) introduce
   * hexadecimal, octal and binary digits; otherwise the text is an optionally
   * signed decimal literal whose mantissa may have a point and whose exponent
   * follows `e` or `E`. Anything else is NaN, and so are the literals whose
   * value is not an integer, `Infinity` among them.
   */
  function NumberOf(s: string): Number {
    var t := Trim(s);
    if t == "" then Int(0)
    else if |t| > 2 && t[0] == '0' && RadixOfPrefix(t[1]) > 0 && AllDigitsIn(t[2..], RadixOfPrefix(t[1])) then
      Int(RadixValue(t[2..], RadixOfPrefix(t[1])))
    else SignedDecimal(t)
  }

  /** `Number` reads a plain run of digits as its decimal value, and blank text as 0. */
  lemma NumberOfDigits(s: string)
    ensures AllDigits(s) && |s| > 0 ==> NumberOf(s) == Int(DigitsValue(s))
    ensures Trim(s) == "" ==> NumberOf(s) == Int(0)
  {
    if AllDigits(s) && |s| > 0 {
      NumberOfDigitRun(s);
    }
    if Trim(s) == "" {
      NumberOfBlank(s);
    }
  }

  lemma NumberOfDigitRun(s: string)
    requires AllDigits(s) && |s| > 0
    ensures NumberOf(s) == Int(DigitsValue(s))
  {
    DigitsAreTrimmed(s);
    NumberOfDecimal(s);
    UnsignedDigits(s);
  }

  lemma NumberOfBlank(s: string)
    requires Trim(s) == ""
    ensures NumberOf(s) == Int(0)
  {
  }

  /** A run of digits with no exponent is an unsigned decimal read at scale 1. */
  lemma UnsignedDigits(s: string)
    requires AllDigits(s) && |s| > 0
    ensures UnsignedDecimal(s) == Int(DigitsValue(s))
  {
    var k := FirstOf(s, 'e', 'E');
    assert forall j :: 0 <= j < |s| ==> s[j] != 'e' && s[j] != 'E' by {
      assert forall j :: 0 <= j < |s| ==> IsDigit(s[j]);
    }
    assert k == |s|;
    assert s[..k] == s;
    MantissaOfDigits(s);
    assert Scaled(DigitsValue(s), 0) == Int(DigitsValue(s) * Pow10(0));
  }

  /** Untrimmable text that starts with a digit and has no radix letter second is read as an unsigned decimal. */
  lemma NumberOfDecimal(t: string)
    requires Trim(t) == t && |t| > 0 && IsDigit(t[0]) && (|t| > 1 ==> RadixOfPrefix(t[1]) == 0)
    ensures NumberOf(t) == UnsignedDecimal(t)
  {
  }

  /** A run of digits is a mantissa with nothing after a point. */
  lemma MantissaOfDigits(m: string)
    requires AllDigits(m) && |m| > 0
    ensures Mantissa(m) == Some((DigitsValue(m), 0))
  {
    assert FirstOf(m, '.', '.') == |m|;
    assert m[..|m|] == m && m + "" == m;
  }

  /** `Number` reads `m e x` as `m × 10^x`: `"1e5"` is 100000. */
  lemma NumberOfExponent(m: string, x: string)
    requires AllDigits(m) && |m| > 0 && AllDigits(x) && |x| > 0
    ensures NumberOf(m + "e" + x) == Int(DigitsValue(m) * Pow10(DigitsValue(x)))
  {
    var t := m + "e" + x;
    assert t[0] == m[0] && t[|t| - 1] == x[|x| - 1];
    TrimOfWhitespaceFree(t);
    assert |t| > 1 ==> t[1] == 'e' || IsDigit(t[1]);
    NumberOfDecimal(t);
    UnsignedExponent(m, x);
  }

  /** The unsigned literal `m e x` has mantissa `m` and exponent `x`. */
  lemma UnsignedExponent(m: string, x: string)
    requires AllDigits(m) && |m| > 0 && AllDigits(x) && |x| > 0
    ensures UnsignedDecimal(m + "e" + x) == Int(DigitsValue(m) * Pow10(DigitsValue(x)))
  {
    var t := m + "e" + x;
    assert t[..|m|] == m && t[|m| + 1..] == x;
    assert forall j :: 0 <= j < |m| ==> t[j] == m[j];
    assert FirstOf(t, 'e', 'E') == |m| by {
      assert t[|m|] == 'e';
    }
    MantissaOfDigits(m);
    assert SignedDigits(x) == Int(DigitsValue(x));
  }

  /** `Number` reads `0x`, `0o` and `0b` numerals in their base: `"0x10"` is 16. */
  lemma NumberOfRadix(c: char, h: string)
    requires RadixOfPrefix(c) > 0 && |h| > 0 && AllDigitsIn(h, RadixOfPrefix(c))
    ensures NumberOf("0" + [c] + h) == Int(RadixValue(h, RadixOfPrefix(c)))
  {
    var t := "0" + [c] + h;
    assert t[|t| - 1] == h[|h| - 1];
    DigitIsNotWhitespace(h[|h| - 1], RadixOfPrefix(c));
    TrimOfWhitespaceFree(t);
    assert t[0] == '0' && t[1] == c && t[2..] == h;
  }

  lemma DigitIsNotWhitespace(c: char, radix: nat)
    requires DigitIn(c, radix) >= 0
    ensures !IsJsWhitespace(c)
  {
    assert '0' <= c <= '9' || 'a' <= c <= 'z' || 'A' <= c <= 'Z';
  }

  lemma DigitsAreTrimmed(s: string)
    ensures AllDigits(s) && |s| > 0 ==> Trim(s) == s && TrimStart(s) == s
  {
    if AllDigits(s) && |s| > 0 {
      TrimOfWhitespaceFree(s);
    }
  }

  /** `Number(v)` for any value; arrays and objects go through their string form. */
  function ToNumber(v: JsValue): Number {
    match v
    case Undefined => NaN
    case Null => Int(0)
    case Bool(b) => if b then Int(1) else Int(0)
    case Num(n) => n
    case Str(s) => NumberOf(s)
    case _ => NumberOf(ToJsString(v))
  }

  /** The longest prefix of `s` made of decimal digits. */
  function DigitPrefix(s: string): (r: string)
    ensures AllDigits(r) && |r| <= |s| && r == s[..|r|]
    ensures |r| < |s| ==> !IsDigit(s[|r|])
  {
    if |s| > 0 && IsDigit(s[0]) then [s[0]] + DigitPrefix(s[1..]) else ""
  }

  /**
   * `parseInt(s)` in base 10: leading whitespace and one sign are skipped,
   * then the longest run of digits is read; with no digit the result is NaN.
   * The `0x` prefix that makes a radix-less `parseInt` read hexadecimal is not
   * recognised: `"0x10"` reads as 0 here.
   */
  function ParseInt(s: string): (r: Number)
    ensures AllDigits(s) && |s| > 0 ==> r == Int(DigitsValue(s))
  {
    var t := TrimStart(s);
    var neg := |t| > 0 && t[0] == '-';
    var body := if |t| > 0 && (t[0] == '-' || t[0] == '+') then t[1..] else t;
    DigitsAreTrimmed(s);
    DigitPrefixOfDigits(s);
    var ds := DigitPrefix(body);
    if ds == "" then NaN
    else if neg then Int(0 - DigitsValue(ds) as int)
    else Int(DigitsValue(ds))
  }

  lemma {:induction false} DigitPrefixOfDigits(s: string)
    ensures AllDigits(s) ==> DigitPrefix(s) == s
  {
    if |s| > 0 && AllDigits(s) {
      DigitPrefixOfDigits(s[1..]);
      assert [s[0]] + s[1..] == s;
    }
  }
}

=== FILE: jwt.dfy ===
/**
 * HS256 JSON Web Tokens (RFC 7519, signed with HMAC-SHA-256 as in section
 * 3.2 of RFC 7518) as the admin session uses them. The cryptography, JSON
 * text and UTF-8 come from the runtime and are supplied as a `Primitives`
 * value; the model fixes what is signed, how the token is laid out, and the
 * order of the checks when a token comes back.
 */
module Jwt {
  import opened Outcomes
  import opened Strings
  import opened JsValues
  import opened Base64Url
  import Dicts

  /** The runtime functions the token code calls. */
  datatype Primitives = Primitives(
    utf8: string -> seq<Byte>,                  // new TextEncoder().encode
    utf8Decode: seq<Byte> -> string,            // new TextDecoder().decode
    stringify: JsValue -> string,               // JSON.stringify
    parse: string -> Option<JsValue>,           // JSON.parse, None when it throws
    hmac: (seq<Byte>, seq<Byte>) -> seq<Byte>)  // HMAC-SHA-256 of a message under a key

  const Issuer := "sweethopebakeryy"

  /** The default lifetime of a token: 24 hours, in seconds. */
  const DefaultLifetime := 86400

  const Header: JsValue := Obj([("alg", Str("HS256")), ("typ", Str("JWT"))])

  // ---------------------------------------------------------------- signing

  /**
   * `{ ...payload, iss, iat: now, exp: now + expiresIn }`: the caller's claims
   * with the three registered ones set over them, whatever the caller gave.
   */
  function Claims(payload: Dicts.Dict<JsValue>, now: int, expiresIn: int): (c: Dicts.Dict<JsValue>)
    ensures Dicts.Get(c, "iss") == Some(Str(Issuer))
    ensures Dicts.Get(c, "iat") == Some(Num(Int(now)))
    ensures Dicts.Get(c, "exp") == Some(Num(Int(now + expiresIn)))
    ensures forall k :: k != "iss" && k != "iat" && k != "exp" ==> Dicts.Get(c, k) == Dicts.Get(payload, k)
  {
    var withIss := Dicts.Set(payload, "iss", Str(Issuer));
    var withIat := Dicts.Set(withIss, "iat", Num(Int(now)));
    Dicts.Set(withIat, "exp", Num(Int(now + expiresIn)))
  }

  /** `base64urlEncode` of a string: the base64url of its UTF-8 bytes. */
  function EncodeText(p: Primitives, s: string): string {
    Encode(p.utf8(s))
  }

  /** The MAC of `signingInput` under `secret`, both taken as UTF-8. */
  function Mac(p: Primitives, secret: string, signingInput: string): seq<Byte> {
    p.hmac(p.utf8(secret), p.utf8(signingInput))
  }

  /**
   * `signJWT(payload, secret, expiresIn)` at `now`, the current time in
   * whole seconds. The token is exactly three dot-separated parts: the
   * encoded header, the encoded claims, and the encoded MAC of the first two
   * joined by a dot.
   */
  function Sign(p: Primitives, payload: Dicts.Dict<JsValue>, secret: string, now: int, expiresIn: int): (token: string)
    ensures var encodedHeader := EncodeText(p, p.stringify(Header));
      var encodedPayload := EncodeText(p, p.stringify(Obj(Claims(payload, now, expiresIn))));
      Split(token, '.') == [encodedHeader, encodedPayload, Encode(Mac(p, secret, encodedHeader + "." + encodedPayload))]
  {
    var encodedHeader := EncodeText(p, p.stringify(Header));
    var encodedPayload := EncodeText(p, p.stringify(Obj(Claims(payload, now, expiresIn))));
    var signingInput := encodedHeader + "." + encodedPayload;
    var signature := Encode(Mac(p, secret, signingInput));
    ThreeParts(encodedHeader, encodedPayload, signature);
    signingInput + "." + signature
  }

  /** Three dot-free strings joined by dots split back into themselves. */
  lemma ThreeParts(a: string, b: string, c: string)
    requires '.' !in a && '.' !in b && '.' !in c
    ensures Split(a + "." + b + "." + c, '.') == [a, b, c]
  {
    assert a + "." + b + "." + c == a + ['.'] + (b + ['.'] + c);
    SplitAfterFirst(a, '.', b + ['.'] + c);
    SplitAfterFirst(b, '.', c);
    SplitWithoutSeparator(c, '.');
  }

  // ---------------------------------------------------------------- verifying

  /** Why `verifyJWT` throws. */
  datatype VerifyError =
    | InvalidFormat         // 'Invalid token format'
    | UndecodableSignature  // atob rejects the signature part
    | InvalidSignature      // 'Invalid signature'
    | UndecodablePayload    // atob rejects the payload part
    | UnparsablePayload     // JSON.parse rejects the payload text
    | ClaimsUnreadable      // the payload is null, so reading `iss` throws
    | InvalidIssuer         // 'Invalid issuer'
    | Expired               // 'Token expired'

  /** `exp && exp < now`: a falsy or non-numeric `exp` never expires. */
  predicate IsExpired(exp: JsValue, now: int) {
    Truthy(exp) && ToNumber(exp).Int? && ToNumber(exp).i < now
  }

  /** A string `exp` written with an exponent expires as `Number` reads it: `"1e3"` is second 1000. */
  lemma ExponentExpiryRead(m: string, x: string, now: int)
    requires AllDigits(m) && |m| > 0 && AllDigits(x) && |x| > 0
    ensures IsExpired(Str(m + "e" + x), now) <==> DigitsValue(m) * Pow10(DigitsValue(x)) < now
  {
    NumberOfExponent(m, x);
  }

  /** The MAC in the third part matches the first two parts under `secret`. */
  predicate SignatureValid(p: Primitives, parts: seq<string>, secret: string)
    requires |parts| == 3
  {
    Decode(parts[2]) == Some(Mac(p, secret, parts[0] + "." + parts[1]))
  }

  /** The claims a token carries, or None when the payload part does not decode and parse. */
  function PayloadOf(p: Primitives, encodedPayload: string): Option<JsValue> {
    match Decode(encodedPayload)
    case None => None
    case Some(bytes) => p.parse(p.utf8Decode(bytes))
  }

  /** `verifyJWT(token, secret)` at `now`: the claims, or why it throws. */
  function Verify(p: Primitives, token: string, secret: string, now: int): (r: Result<JsValue, VerifyError>)
    ensures |Split(token, '.')| != 3 ==> r == Err(InvalidFormat)
    ensures |Split(token, '.')| == 3 && !SignatureValid(p, Split(token, '.'), secret) ==>
      r.Err? && r.error in {UndecodableSignature, InvalidSignature}
    ensures r.Ok? <==>
      |Split(token, '.')| == 3 && SignatureValid(p, Split(token, '.'), secret) &&
      PayloadOf(p, Split(token, '.')[1]).Some? &&
      var claims := PayloadOf(p, Split(token, '.')[1]).value;
      OptionalProp(claims, "iss") == Str(Issuer) && !IsExpired(OptionalProp(claims, "exp"), now)
    ensures r.Ok? ==> r == Ok(PayloadOf(p, Split(token, '.')[1]).value)
  {
    var parts := Split(token, '.');
    if |parts| != 3 then Err(InvalidFormat)
    else
      var signingInput := parts[0] + "." + parts[1];
      match Decode(parts[2])
      case None => Err(UndecodableSignature)
      case Some(signature) =>
        if signature != Mac(p, secret, signingInput) then Err(InvalidSignature)
        else
          match Decode(parts[1])
          case None => Err(UndecodablePayload)
          case Some(bytes) =>
            match p.parse(p.utf8Decode(bytes))
            case None => Err(UnparsablePayload)
            case Some(claims) =>
              if claims.Null? then Err(ClaimsUnreadable)
              else if OptionalProp(claims, "iss") != Str(Issuer) then Err(InvalidIssuer)
              else if IsExpired(OptionalProp(claims, "exp"), now) then Err(Expired)
              else Ok(claims)
  }

  /** A token whose claims carry no `exp` is never rejected as expired, however late it is checked. */
  lemma NoExpiryClaimNeverExpires(p: Primitives, token: string, secret: string, now: int, later: int)
    requires |Split(token, '.')| == 3 && PayloadOf(p, Split(token, '.')[1]).Some?
    requires OptionalProp(PayloadOf(p, Split(token, '.')[1]).value, "exp") == Undefined
    ensures Verify(p, token, secret, now) != Err(Expired)
    ensures Verify(p, token, secret, now).Ok? <==> Verify(p, token, secret, later).Ok?
  {
  }

  /**
   * With UTF-8 and JSON that round-trip on the claims, a token verifies under
   * the secret it was signed with, up to and including its expiry second, and
   * yields exactly the signed claims.
   */
  lemma SignThenVerify(p: Primitives, payload: Dicts.Dict<JsValue>, secret: string, now: int, expiresIn: int, later: int)
    requires var text := p.stringify(Obj(Claims(payload, now, expiresIn)));
      p.utf8Decode(p.utf8(text)) == text && p.parse(text) == Some(Obj(Claims(payload, now, expiresIn)))
    requires later <= now + expiresIn
    ensures Verify(p, Sign(p, payload, secret, now, expiresIn), secret, later) == Ok(Obj(Claims(payload, now, expiresIn)))
  {
    var claims := Claims(payload, now, expiresIn);
    var token := Sign(p, payload, secret, now, expiresIn);
    SignedPartsCheck(p, payload, secret, now, expiresIn);
    SignedClaimsRead(payload, now, expiresIn);
    assert !IsExpired(OptionalProp(Obj(claims), "exp"), later);
    VerifyAccepts(p, token, secret, later, Obj(claims));
  }

  /** The signature of a signed token checks out, and its payload part reads back as the claims. */
  lemma SignedPartsCheck(p: Primitives, payload: Dicts.Dict<JsValue>, secret: string, now: int, expiresIn: int)
    requires var text := p.stringify(Obj(Claims(payload, now, expiresIn)));
      p.utf8Decode(p.utf8(text)) == text && p.parse(text) == Some(Obj(Claims(payload, now, expiresIn)))
    ensures var parts := Split(Sign(p, payload, secret, now, expiresIn), '.');
      |parts| == 3 && SignatureValid(p, parts, secret) && PayloadOf(p, parts[1]) == Some(Obj(Claims(payload, now, expiresIn)))
  {
    var claims := Claims(payload, now, expiresIn);
    var encodedHeader := EncodeText(p, p.stringify(Header));
    var encodedPayload := EncodeText(p, p.stringify(Obj(claims)));
    var mac := Mac(p, secret, encodedHeader + "." + encodedPayload);
    var parts := Split(Sign(p, payload, secret, now, expiresIn), '.');
    assert parts == [encodedHeader, encodedPayload, Encode(mac)];
    DecodeEncode(mac);
    DecodeEncode(p.utf8(p.stringify(Obj(claims))));
  }

  /** The conditions under which `Verify` returns the claims. */
  lemma VerifyAccepts(p: Primitives, token: string, secret: string, now: int, claims: JsValue)
    requires |Split(token, '.')| == 3 && SignatureValid(p, Split(token, '.'), secret)
    requires PayloadOf(p, Split(token, '.')[1]) == Some(claims)
    requires OptionalProp(claims, "iss") == Str(Issuer) && !IsExpired(OptionalProp(claims, "exp"), now)
    ensures Verify(p, token, secret, now) == Ok(claims)
  {
  }

  /** Reading `iss` and `exp` off the signed claims finds the values `Claims` set. */
  lemma SignedClaimsRead(payload: Dicts.Dict<JsValue>, now: int, expiresIn: int)
    ensures OptionalProp(Obj(Claims(payload, now, expiresIn)), "iss") == Str(Issuer)
    ensures OptionalProp(Obj(Claims(payload, now, expiresIn)), "exp") == Num(Int(now + expiresIn))
  {
    var c := Claims(payload, now, expiresIn);
    FieldRead(c, "iss");
    FieldRead(c, "exp");
  }

  lemma FieldRead(c: Dicts.Dict<JsValue>, name: string)
    requires Dicts.Get(c, name).Some?
    ensures OptionalProp(Obj(c), name) == Dicts.Get(c, name).value
  {
  }

  /**
   * Replacing the claims part of a signed token while keeping its header and
   * signature is rejected, unless the MAC of the new header-and-claims text
   * happens to equal the old one.
   */
  lemma TamperedClaimsRejected(p: Primitives, payload: Dicts.Dict<JsValue>, secret: string, now: int, expiresIn: int,
                               forged: string, later: int)
    requires '.' !in forged
    requires var encodedHeader := EncodeText(p, p.stringify(Header));
      var encodedPayload := EncodeText(p, p.stringify(Obj(Claims(payload, now, expiresIn))));
      Mac(p, secret, encodedHeader + "." + forged) != Mac(p, secret, encodedHeader + "." + encodedPayload)
    ensures var encodedHeader := EncodeText(p, p.stringify(Header));
      var encodedPayload := EncodeText(p, p.stringify(Obj(Claims(payload, now, expiresIn))));
      var signature := Encode(Mac(p, secret, encodedHeader + "." + encodedPayload));
      Verify(p, encodedHeader + "." + forged + "." + signature, secret, later) == Err(InvalidSignature)
  {
    var encodedHeader := EncodeText(p, p.stringify(Header));
    var encodedPayload := EncodeText(p, p.stringify(Obj(Claims(payload, now, expiresIn))));
    var mac := Mac(p, secret, encodedHeader + "." + encodedPayload);
    ThreeParts(encodedHeader, forged, Encode(mac));
    DecodeEncode(mac);
  }
}

=== FILE: kv_tables.dfy ===
/**
 * The content tables kept in the key-value store: one JSON array per table,
 * read whole, changed, and written back. Items are identified by a partition
 * key (`itemName` in `products`, `sectionIndex` in the page tables) compared
 * as strings, so `6` and `"6"` name the same section.
 */
module KvTables {
  import opened Outcomes
  import opened JsValues
  import opened Http
  import Seqs

  // ---------------------------------------------------------------- table names

  const Products := "products"

  /** The four tables an admin may touch. */
  const AllowedTables: seq<string> := [Products, "home_page", "about_page", "contact_page"]

  /** `ALLOWED_TABLES.has(name)`: a `Set` lookup, so only an identical string matches. */
  predicate IsValidTableName(name: JsValue) {
    name.Str? && name.s in AllowedTables
  }

  /** The allow-list accepts exactly the four table names, compared exactly and case-sensitively. */
  lemma ValidTableNames(name: JsValue)
    ensures IsValidTableName(name) <==>
      name in {Str("products"), Str("home_page"), Str("about_page"), Str("contact_page")}
    ensures !IsValidTableName(Str("Products")) && !IsValidTableName(Null) && !IsValidTableName(Undefined)
  {
  }

  /** The store key that holds a table. */
  function StoreKey(tableName: string): string {
    "data/" + tableName + ".json"
  }

  /** The field that identifies an item: `itemName` for products, `sectionIndex` for page sections. */
  function PartitionKey(tableName: string): (pk: string)
    ensures tableName == Products <==> pk == "itemName"
    ensures tableName != Products <==> pk == "sectionIndex"
  {
    if tableName == Products then "itemName" else "sectionIndex"
  }

  // ---------------------------------------------------------------- partition-key search

  /** `String(d[pk])`, or `None` when reading the field throws (d is null or undefined). */
  function KeyOf(d: JsValue, pk: string): (r: Option<string>)
    ensures r.None? <==> d.Null? || d.Undefined?
  {
    match Prop(d, pk)
    case None => None
    case Some(v) => Some(ToJsString(v))
  }

  /** The element at `j` has a readable key different from `target`. */
  predicate Passes(data: seq<JsValue>, pk: string, target: string, j: int)
    requires 0 <= j < |data|
  {
    KeyOf(data[j], pk).Some? && KeyOf(data[j], pk).value != target
  }

  /** Reading the key of the element at `j` throws, and every element before it passes. */
  predicate ThrowsAt(data: seq<JsValue>, pk: string, target: string, j: int) {
    0 <= j < |data| && KeyOf(data[j], pk).None? &&
    forall k :: 0 <= k < j ==> Passes(data, pk, target, k)
  }

  /** The element at `i` has key `target`, and every element before it passes. */
  predicate FirstMatchAt(data: seq<JsValue>, pk: string, target: string, i: int) {
    0 <= i < |data| && KeyOf(data[i], pk) == Some(target) && forall j :: 0 <= j < i ==> Passes(data, pk, target, j)
  }

  /** What `findIndex` / `find` by partition key ends in. */
  datatype Search = Found(index: nat) | NotFound | Threw

  /**
   * `data.findIndex(d => String(d[pk]) === target)`: elements are examined
   * left to right, and the first null or undefined element reached throws.
   */
  function FindIndex(data: seq<JsValue>, pk: string, target: string): (r: Search)
    ensures r.Found? ==> r.index < |data| && KeyOf(data[r.index], pk) == Some(target)
    ensures r.Found? ==> forall j :: 0 <= j < r.index ==> Passes(data, pk, target, j)
    ensures r.NotFound? <==> forall j :: 0 <= j < |data| ==> Passes(data, pk, target, j)
    ensures r.Threw? ==> exists j :: ThrowsAt(data, pk, target, j)
  {
    if |data| == 0 then NotFound
    else
      match KeyOf(data[0], pk)
      case None =>
        assert ThrowsAt(data, pk, target, 0);
        assert !Passes(data, pk, target, 0);
        Threw
      case Some(k) =>
        if k == target then
          assert !Passes(data, pk, target, 0);
          Found(0)
        else
          var r := FindIndex(data[1..], pk, target);
          assert forall j :: 1 <= j < |data| ==> data[j] == data[1..][j - 1];
          match r
          case Found(i) =>
            assert data[i + 1] == data[1..][i];
            forall j | 0 <= j < i + 1 ensures Passes(data, pk, target, j) {
              if j > 0 {
                assert data[j] == data[1..][j - 1];
                assert Passes(data[1..], pk, target, j - 1);
              }
            }
            assert !Passes(data, pk, target, i + 1);
            Found(i + 1)
          case NotFound =>
            forall j | 0 <= j < |data| ensures Passes(data, pk, target, j) {
              if j > 0 {
                assert data[j] == data[1..][j - 1];
                assert Passes(data[1..], pk, target, j - 1);
              }
            }
            NotFound
          case Threw =>
            var j :| ThrowsAt(data[1..], pk, target, j);
            ShiftThrowsAt(data, pk, target, j);
            assert !Passes(data, pk, target, j + 1);
            Threw
  }

  lemma ShiftThrowsAt(data: seq<JsValue>, pk: string, target: string, j: int)
    requires |data| > 0 && Passes(data, pk, target, 0) && ThrowsAt(data[1..], pk, target, j)
    ensures ThrowsAt(data, pk, target, j + 1)
  {
    assert data[j + 1] == data[1..][j];
    forall k | 0 <= k < j + 1 ensures Passes(data, pk, target, k) {
      if k > 0 {
        assert data[k] == data[1..][k - 1];
        assert Passes(data[1..], pk, target, k - 1);
      }
    }
  }

  /** Whenever an element with key `target` is preceded only by passing elements, the search finds it. */
  lemma {:induction false} FindIndexFinds(data: seq<JsValue>, pk: string, target: string, i: nat)
    requires i < |data| && KeyOf(data[i], pk) == Some(target)
    requires forall j :: 0 <= j < i ==> Passes(data, pk, target, j)
    ensures FindIndex(data, pk, target) == Found(i)
  {
    if i > 0 {
      assert Passes(data, pk, target, 0);
      forall j | 0 <= j < i - 1 ensures Passes(data[1..], pk, target, j) {
        assert data[1..][j] == data[j + 1];
        assert Passes(data, pk, target, j + 1);
      }
      FindIndexFinds(data[1..], pk, target, i - 1);
    }
  }

  /**
   * The search throws exactly when some element with an unreadable key is
   * reached, that is, preceded only by elements that pass.
   */
  lemma FindIndexThrows(data: seq<JsValue>, pk: string, target: string)
    ensures FindIndex(data, pk, target).Threw? <==> exists j :: ThrowsAt(data, pk, target, j)
  {
    if j :| ThrowsAt(data, pk, target, j) {
      assert !Passes(data, pk, target, j);
      var r := FindIndex(data, pk, target);
      if r.Found? && r.index < j {
        assert Passes(data, pk, target, r.index);
      }
    }
  }

  /** The three ways the search ends, each stated without the search. */
  lemma FindIndexCases(data: seq<JsValue>, pk: string, target: string)
    ensures forall i :: FirstMatchAt(data, pk, target, i) ==> FindIndex(data, pk, target) == Found(i)
    ensures (forall j :: 0 <= j < |data| ==> Passes(data, pk, target, j)) ==> FindIndex(data, pk, target) == NotFound
    ensures (exists j :: ThrowsAt(data, pk, target, j)) ==> FindIndex(data, pk, target) == Threw
  {
    forall i | FirstMatchAt(data, pk, target, i)
      ensures FindIndex(data, pk, target) == Found(i)
    {
      FindIndexFinds(data, pk, target, i);
    }
    FindIndexThrows(data, pk, target);
  }

  // ---------------------------------------------------------------- upsert (save-data)

  /**
   * The upsert of save-data: the first element with the item's key is
   * replaced in place; with no such element the item is appended. Reading
   * the key of a null item, or of a null element met before a match, throws.
   */
  function Upsert(data: seq<JsValue>, pk: string, item: JsValue): (r: Option<seq<JsValue>>)
    ensures r.None? <==> KeyOf(item, pk).None? || FindIndex(data, pk, KeyOf(item, pk).value).Threw?
    ensures r.Some? ==> item in r.value
    ensures r.Some? && FindIndex(data, pk, KeyOf(item, pk).value).Found? ==>
      var i := FindIndex(data, pk, KeyOf(item, pk).value).index;
      |r.value| == |data| && r.value[i] == item &&
      forall j :: 0 <= j < |data| && j != i ==> r.value[j] == data[j]
    ensures r.Some? && FindIndex(data, pk, KeyOf(item, pk).value).NotFound? ==>
      r.value == data + [item]
  {
    match KeyOf(item, pk)
    case None => None
    case Some(target) =>
      match FindIndex(data, pk, target)
      case Found(i) =>
        assert data[i := item][i] == item;
        Some(data[i := item])
      case NotFound => Some(data + [item])
      case Threw => None
  }

  /** Saving the same item twice leaves the table as saving it once. */
  lemma UpsertIdempotent(data: seq<JsValue>, pk: string, item: JsValue)
    requires Upsert(data, pk, item).Some?
    ensures Upsert(Upsert(data, pk, item).value, pk, item) == Upsert(data, pk, item)
  {
    var target := KeyOf(item, pk).value;
    var once := Upsert(data, pk, item).value;
    match FindIndex(data, pk, target)
    case Found(i) =>
      forall j | 0 <= j < i ensures Passes(once, pk, target, j) {
        assert once[j] == data[j];
        assert Passes(data, pk, target, j);
      }
      FindIndexFinds(once, pk, target, i);
      assert once[i := item] == once;
    case NotFound =>
      forall j | 0 <= j < |data| ensures Passes(once, pk, target, j) {
        assert once[j] == data[j];
        assert Passes(data, pk, target, j);
      }
      FindIndexFinds(once, pk, target, |data|);
      assert once[|data| := item] == once;
  }

  // ---------------------------------------------------------------- filter (delete-data)

  /**
   * `data.filter(d => String(d[pk]) !== target)`: every element is examined,
   * so any null or undefined element makes it throw.
   */
  function RemoveByKey(data: seq<JsValue>, pk: string, target: string): (r: Option<seq<JsValue>>)
    ensures r.None? <==> exists j :: 0 <= j < |data| && KeyOf(data[j], pk).None?
    ensures r.Some? ==> forall x :: x in r.value <==> x in data && KeyOf(x, pk) != Some(target)
    ensures r.Some? ==> |r.value| <= |data|
    ensures r.Some? ==> r.value == Seqs.Filter(data, x => KeyOf(x, pk) != Some(target))
  {
    if |data| == 0 then Some([])
    else
      var rest := RemoveByKey(data[1..], pk, target);
      assert forall j :: 1 <= j < |data| ==> data[j] == data[1..][j - 1];
      assert rest.None? <==> exists j :: 1 <= j < |data| && KeyOf(data[j], pk).None? by {
        if rest.None? {
          var j :| 0 <= j < |data[1..]| && KeyOf(data[1..][j], pk).None?;
          assert KeyOf(data[j + 1], pk).None?;
        }
      }
      assert forall x :: x in data <==> x == data[0] || x in data[1..];
      match KeyOf(data[0], pk)
      case None => None
      case Some(k) =>
        if rest.None? then None
        else if k == target then rest
        else Some([data[0]] + rest.value)
  }

  /** Deleting a key a second time changes nothing. */
  lemma {:induction false} RemoveByKeyIdempotent(data: seq<JsValue>, pk: string, target: string)
    requires RemoveByKey(data, pk, target).Some?
    ensures RemoveByKey(RemoveByKey(data, pk, target).value, pk, target) == RemoveByKey(data, pk, target)
  {
    if |data| > 0 {
      RemoveByKeyIdempotent(data[1..], pk, target);
      var rest := RemoveByKey(data[1..], pk, target).value;
      if KeyOf(data[0], pk).value != target {
        assert ([data[0]] + rest)[1..] == rest;
      }
    }
  }

  // ---------------------------------------------------------------- the handlers

  /** What the store read gave: it may throw (unreadable JSON) or return a value (`null` when absent). */
  datatype StoredRead = ReadFailed | Stored(value: JsValue)

  /** The best-effort read of save-data and delete-data: anything but an array reads as `[]`. */
  function TableOf(read: StoredRead): (data: seq<JsValue>)
    ensures read.Stored? && read.value.Arr? ==> data == read.value.items
    ensures !(read.Stored? && read.value.Arr?) ==> data == []
  {
    if read.Stored? && read.value.Arr? then read.value.items else []
  }

  /** A handler's response, and the table it wrote back, if it wrote one. */
  datatype WriteOutcome = WriteOutcome(response: Response, written: Option<seq<JsValue>>)

  /** The parsed request names one of the allowed tables. */
  predicate NamesValidTable(body: Option<JsValue>) {
    body.Some? && Prop(body.value, "tableName").Some? && IsValidTableName(Prop(body.value, "tableName").value)
  }

  /**
   * POST /api/save-data. `denied` is the auth check's answer, `kvBound`
   * whether the store is configured, `body` the parsed request (None when it
   * is not JSON), and `stored` the read of the table.
   */
  function SaveData(denied: Option<Response>, kvBound: bool, body: Option<JsValue>, stored: StoredRead): (o: WriteOutcome)
    ensures denied.Some? ==> o == WriteOutcome(denied.value, None)
    ensures denied.None? && !kvBound ==> o == WriteOutcome(ErrorResponse(500, "KV binding not configured"), None)
    ensures denied.None? && kvBound && body.Some? && Prop(body.value, "tableName").Some? &&
            !IsValidTableName(Prop(body.value, "tableName").value) ==>
      o == WriteOutcome(ErrorResponse(400, "Invalid table name"), None)
    ensures denied.None? && kvBound && (body.None? || Prop(body.value, "tableName").None?) ==>
      o == WriteOutcome(InternalError, None)
    ensures denied.None? ==> (o.written.Some? <==> o.response == SuccessResponse)
    ensures o.written.Some? ==>
      denied.None? && body.Some? && Prop(body.value, "tableName").Some? &&
      var tableName := Prop(body.value, "tableName").value;
      var item := Prop(body.value, "item").value;
      IsValidTableName(tableName) &&
      Upsert(TableOf(stored), PartitionKey(tableName.s), item) == o.written
    ensures denied.None? && kvBound && NamesValidTable(body) ==>
      var tableName := Prop(body.value, "tableName").value;
      var upserted := Upsert(TableOf(stored), PartitionKey(tableName.s), Prop(body.value, "item").value);
      (upserted.Some? ==> o == WriteOutcome(SuccessResponse, upserted)) &&
      (upserted.None? ==> o == WriteOutcome(InternalError, None))
  {
    if denied.Some? then WriteOutcome(denied.value, None)
    else if !kvBound then WriteOutcome(ErrorResponse(500, "KV binding not configured"), None)
    else if body.None? || Prop(body.value, "tableName").None? then WriteOutcome(InternalError, None)
    else
      var tableName := Prop(body.value, "tableName").value;
      var item := Prop(body.value, "item").value;
      if !IsValidTableName(tableName) then WriteOutcome(ErrorResponse(400, "Invalid table name"), None)
      else
        match Upsert(TableOf(stored), PartitionKey(tableName.s), item)
        case None => WriteOutcome(InternalError, None)
        case Some(data) => WriteOutcome(SuccessResponse, Some(data))
  }

  /** POST /api/delete-data: same gatekeeping, then the filter by the requested key. */
  function DeleteData(denied: Option<Response>, kvBound: bool, body: Option<JsValue>, stored: StoredRead): (o: WriteOutcome)
    ensures denied.Some? ==> o == WriteOutcome(denied.value, None)
    ensures denied.None? && !kvBound ==> o == WriteOutcome(ErrorResponse(500, "KV binding not configured"), None)
    ensures denied.None? && kvBound && body.Some? && Prop(body.value, "tableName").Some? &&
            !IsValidTableName(Prop(body.value, "tableName").value) ==>
      o == WriteOutcome(ErrorResponse(400, "Invalid table name"), None)
    ensures denied.None? && kvBound && (body.None? || Prop(body.value, "tableName").None?) ==>
      o == WriteOutcome(InternalError, None)
    ensures denied.None? ==> (o.written.Some? <==> o.response == SuccessResponse)
    ensures o.written.Some? ==>
      denied.None? && body.Some? && Prop(body.value, "tableName").Some? &&
      var tableName := Prop(body.value, "tableName").value;
      var target := ToJsString(Prop(body.value, "key").value);
      IsValidTableName(tableName) &&
      o.written == RemoveByKey(TableOf(stored), PartitionKey(tableName.s), target) &&
      forall x :: x in o.written.value ==> KeyOf(x, PartitionKey(tableName.s)) != Some(target)
    ensures denied.None? && kvBound && NamesValidTable(body) ==>
      var tableName := Prop(body.value, "tableName").value;
      var kept := RemoveByKey(TableOf(stored), PartitionKey(tableName.s), ToJsString(Prop(body.value, "key").value));
      (kept.Some? ==> o == WriteOutcome(SuccessResponse, kept)) &&
      (kept.None? ==> o == WriteOutcome(InternalError, None))
  {
    if denied.Some? then WriteOutcome(denied.value, None)
    else if !kvBound then WriteOutcome(ErrorResponse(500, "KV binding not configured"), None)
    else if body.None? || Prop(body.value, "tableName").None? then WriteOutcome(InternalError, None)
    else
      var tableName := Prop(body.value, "tableName").value;
      var target := ToJsString(Prop(body.value, "key").value);
      if !IsValidTableName(tableName) then WriteOutcome(ErrorResponse(400, "Invalid table name"), None)
      else
        match RemoveByKey(TableOf(stored), PartitionKey(tableName.s), target)
        case None => WriteOutcome(InternalError, None)
        case Some(data) => WriteOutcome(SuccessResponse, Some(data))
  }

  /** The request got past the auth check, the store binding and the table-name check. */
  predicate Admitted(denied: Option<Response>, kvBound: bool, tableName: Option<string>) {
    denied.None? && kvBound && tableName.Some? && IsValidTableName(Str(tableName.value))
  }

  /**
   * GET /api/get-data. `tableName` and `key` are the query parameters (None
   * when absent). With no key the whole stored value is returned, a missing
   * or falsy one reading as `[]`; with a key, the first element whose
   * partition key matches, or null.
   */
  function GetData(denied: Option<Response>, kvBound: bool, tableName: Option<string>, key: Option<string>,
                   stored: StoredRead): (r: Response)
    ensures denied.Some? ==> r == denied.value
    ensures denied.None? && kvBound && (tableName.None? || !IsValidTableName(Str(tableName.value))) ==>
      r == ErrorResponse(400, "Invalid table name")
    ensures denied.None? && kvBound && tableName.Some? && IsValidTableName(Str(tableName.value)) &&
            key.None? && stored.Stored? ==>
      r == Response(200, Or(stored.value, Arr([])))
    ensures denied.None? && kvBound && tableName.Some? && IsValidTableName(Str(tableName.value)) &&
            key.Some? && stored.Stored? && !Or(stored.value, Arr([])).Arr? ==>
      r == Response(200, Null)
    ensures denied.None? && !kvBound ==> r == ErrorResponse(500, "KV binding not configured")
    ensures Admitted(denied, kvBound, tableName) && stored.ReadFailed? ==> r == InternalError
    ensures Admitted(denied, kvBound, tableName) && key.Some? && stored.Stored? && Or(stored.value, Arr([])).Arr? ==>
      var items := Or(stored.value, Arr([])).items;
      var pk := PartitionKey(tableName.value);
      (forall i :: FirstMatchAt(items, pk, key.value, i) ==> r == Response(200, Or(items[i], Null))) &&
      ((forall j :: 0 <= j < |items| ==> Passes(items, pk, key.value, j)) ==> r == Response(200, Null)) &&
      ((exists j :: ThrowsAt(items, pk, key.value, j)) ==> r == InternalError)
    ensures denied.None? && tableName.Some? && key.Some? && stored.Stored? &&
            r.status == 200 && Or(stored.value, Arr([])).Arr? && r.body != Null ==>
      var items := Or(stored.value, Arr([])).items;
      exists i :: 0 <= i < |items| && items[i] == r.body &&
        KeyOf(items[i], PartitionKey(tableName.value)) == Some(key.value) &&
        forall j :: 0 <= j < i ==> Passes(items, PartitionKey(tableName.value), key.value, j)
  {
    if denied.Some? then denied.value
    else if !kvBound then ErrorResponse(500, "KV binding not configured")
    else if tableName.None? || !IsValidTableName(Str(tableName.value)) then ErrorResponse(400, "Invalid table name")
    else if stored.ReadFailed? then InternalError
    else
      var data := Or(stored.value, Arr([]));
      if key.None? then Response(200, data)
      else if !data.Arr? then Response(200, Null)
      else
        FindIndexCases(data.items, PartitionKey(tableName.value), key.value);
        match FindIndex(data.items, PartitionKey(tableName.value), key.value)
        case Found(i) => Response(200, Or(data.items[i], Null))
        case NotFound => Response(200, Null)
        case Threw => InternalError
  }
}

=== FILE: mail.dfy ===
/**
 * The admin mail page: both boxes sorted newest first, each message shown
 * as five escaped fields, and the message the compose form sends. Fetching
 * the boxes and sending are I/O; the fetched messages are the input here.
 */
module Mail {
  import opened JsValues
  import opened Sorting
  import opened HtmlEscape

  /** A stored message; each field is whatever the stored JSON held. */
  datatype Message = Message(from: JsValue, to: JsValue, date: JsValue, subject: JsValue, body: JsValue)

  /** `(m.date || 0)` as a number: what the comparator subtracts. */
  function DateValue(m: Message): Number {
    ToNumber(Or(m.date, Num(Int(0))))
  }

  /** `-n`. */
  function Negate(n: Number): (r: Number)
    ensures r.Int? <==> n.Int?
    ensures r.Int? ==> r.i == -n.i
  {
    match n
    case NaN => NaN
    case Int(i) => Int(-i)
  }

  /**
   * `(b.date || 0) - (a.date || 0)` is `rank(a) - rank(b)` for the rank
   * below, so the comparator is the ascending sort on the negated date.
   */
  function NewestRank(m: Message): Number {
    Negate(DateValue(m))
  }

  /** `box.sort((a, b) => (b.date || 0) - (a.date || 0))`. */
  function SortNewestFirst(box: seq<Message>): (r: seq<Message>)
    ensures multiset(r) == multiset(box) && |r| == |box|
  {
    SortByRank(box, NewestRank)
  }

  /** Every date reads as a number (a missing or empty date reads as 0). */
  predicate AllDated(box: seq<Message>) {
    forall i :: 0 <= i < |box| ==> DateValue(box[i]).Int?
  }

  /** `a` is dated no earlier than `b`. */
  predicate NotOlder(a: Message, b: Message) {
    DateValue(a).Int? && DateValue(b).Int? && DateValue(a).i >= DateValue(b).i
  }

  /** Dates never increase from one message to the next. */
  predicate NewestToOldest(box: seq<Message>) {
    forall i, j :: 0 <= i < j < |box| ==> NotOlder(box[i], box[j])
  }

  /** When every date is a number, the sorted box runs from the newest date to the oldest. */
  lemma NewestFirst(box: seq<Message>)
    requires AllDated(box)
    ensures NewestToOldest(SortNewestFirst(box))
  {
    assert AllRanked(box, NewestRank) by {
      forall i | 0 <= i < |box| ensures NewestRank(box[i]).Int? {
        assert DateValue(box[i]).Int?;
      }
    }
    var r := SortNewestFirst(box);
    assert Ascending(r, NewestRank);
    forall i, j | 0 <= i < j < |r| ensures NotOlder(r[i], r[j]) {
      AscendingPair(r, NewestRank, i, j);
    }
  }

  /** The newer of two messages has the smaller rank. */
  lemma NotOlderRanksFirst(a: Message, b: Message)
    requires NotOlder(a, b)
    ensures RankedBefore(NewestRank, a, b)
  {
  }

  /** A box already newest first is left as it is, ties included. */
  lemma SortedBoxUnchanged(box: seq<Message>)
    requires NewestToOldest(box)
    ensures SortNewestFirst(box) == box
  {
    NewestToOldestAscends(box);
    SortOrderedIsIdentity(box, NewestRank);
  }

  /** Newest first is ascending in the comparator's rank. */
  lemma NewestToOldestAscends(box: seq<Message>)
    requires NewestToOldest(box)
    ensures Ascending(box, NewestRank)
  {
    forall i, j | 0 <= i < j < |box| ensures RankedBefore(NewestRank, box[i], box[j]) {
      NotOlderRanksFirst(box[i], box[j]);
    }
  }

  // ---------------------------------------------------------------- showing a message

  /** The five lines of one message card. */
  datatype Card = Card(from: string, to: string, date: string, subject: string, body: string)

  /** No character that could open a tag or close an attribute value. */
  predicate Escaped(s: string) {
    '<' !in s && '>' !in s && '"' !in s && '\'' !in s
  }

  /** A card: every field `|| ''`, then escaped; the body also has its newlines turned into `<br>`. */
  function CardOf(m: Message): (c: Card)
    ensures Escaped(c.from) && Escaped(c.to) && Escaped(c.date) && Escaped(c.subject)
    ensures '"' !in c.body && '\'' !in c.body && '\n' !in c.body
    ensures Truthy(m.from) ==> c.from == EscapeChars(ToJsString(m.from))
    ensures !Truthy(m.from) ==> c.from == ""
    ensures Truthy(m.to) ==> c.to == EscapeChars(ToJsString(m.to))
    ensures !Truthy(m.to) ==> c.to == ""
    ensures Truthy(m.date) ==> c.date == EscapeChars(ToJsString(m.date))
    ensures !Truthy(m.date) ==> c.date == ""
    ensures Truthy(m.subject) ==> c.subject == EscapeChars(ToJsString(m.subject))
    ensures !Truthy(m.subject) ==> c.subject == ""
    ensures Truthy(m.body) ==> c.body == BodyChars(ToJsString(m.body))
    ensures !Truthy(m.body) ==> c.body == ""
  {
    Card(EscapeHtml(Or(m.from, Str(""))), EscapeHtml(Or(m.to, Str(""))), EscapeHtml(Or(m.date, Str(""))),
         EscapeHtml(Or(m.subject, Str(""))), FormatBody(Or(m.body, Str(""))))
  }

  /** What the card shows as the sender reads back to the sender's text. */
  lemma CardShowsSender(m: Message)
    requires Truthy(m.from)
    ensures Unescape(CardOf(m).from) == ToJsString(m.from)
  {
    UnescapeEscape(ToJsString(m.from));
  }

  // ---------------------------------------------------------------- the two boxes

  datatype BoxView = BoxView(emptyNotice: bool, cards: seq<Card>)

  /** One box: the notice when it is empty, and a card per message, newest first. */
  function ShowBox(box: seq<Message>): (v: BoxView)
    ensures v.emptyNotice <==> |box| == 0
    ensures |v.cards| == |box|
    ensures forall i :: 0 <= i < |v.cards| ==> v.cards[i] == CardOf(SortNewestFirst(box)[i])
  {
    var sorted := SortNewestFirst(box);
    BoxView(|box| == 0, seq(|sorted|, i requires 0 <= i < |sorted| => CardOf(sorted[i])))
  }

  // ---------------------------------------------------------------- composing

  const SupportAddress := "support@sweethopebakeryy.com"

  /**
   * The message the compose form sends: from the support address, to a
   * one-element list holding the recipients field as typed (commas and
   * all), dated with the clock reading `now`.
   */
  function Compose(recipients: string, subject: string, body: string, now: int): (m: Message)
    ensures m.from == Str(SupportAddress) && m.to == Arr([Str(recipients)])
    ensures DateValue(m) == Int(now)
    ensures m.subject == Str(subject) && m.body == Str(body)
  {
    Message(Str(SupportAddress), Arr([Str(recipients)]), Num(Int(now)), Str(subject), Str(body))
  }
}

=== FILE: menu.dfy ===
/**
 * The menu page: product records from the `products` table are normalised
 * (defaults for missing fields, prices ordered by quantity), laid out two
 * to a row, and each price becomes a `<qty>_<price>` option whose quantity
 * the add-to-cart handler splits back out.
 */
module Menu {
  import opened Outcomes
  import opened Strings
  import opened JsValues
  import opened Dicts
  import opened Sorting

  // ---------------------------------------------------------------- sortPrices

  /** `Number(key)` for a price entry. */
  function KeyRank(e: (string, JsValue)): Number {
    NumberOf(e.0)
  }

  /** `Object.keys(v)` paired with `v[k]`, for a value that is neither null nor undefined. */
  function Entries(v: JsValue): (es: Dict<JsValue>)
    requires !v.Null? && !v.Undefined?
    ensures Keys(es) == ObjectKeys(v)
    ensures v.Obj? && UniqueKeys(v.fields) ==> es == v.fields
  {
    var ks := ObjectKeys(v);
    var es := seq(|ks|, i requires 0 <= i < |ks| => (ks[i], Member(v, ks[i]).value));
    assert v.Obj? && UniqueKeys(v.fields) ==> es == v.fields by {
      if v.Obj? && UniqueKeys(v.fields) {
        forall i | 0 <= i < |ks| ensures es[i] == v.fields[i] {
          GetAtUniqueIndex(v.fields, i);
        }
      }
    }
    es
  }

  /**
   * `sortPrices(prices)`: the same entries, copied into a fresh object in
   * ascending numeric order of their keys.
   */
  function SortPrices(prices: JsValue): (r: Dict<JsValue>)
    requires !prices.Null? && !prices.Undefined?
    ensures multiset(r) == multiset(Entries(prices))
    ensures AllRanked(Entries(prices), KeyRank) ==> Ascending(r, KeyRank)
  {
    SortByRank(Entries(prices), KeyRank)
  }

  /** Sorting never puts two entries with the same key into an object whose keys were unique. */
  lemma {:induction false} SortKeepsUniqueKeys(xs: Dict<JsValue>)
    requires UniqueKeys(xs)
    ensures UniqueKeys(SortByRank(xs, KeyRank))
    decreases |xs|
  {
    if |xs| > 0 {
      var init, x := xs[..|xs| - 1], xs[|xs| - 1];
      assert UniqueKeys(init);
      SortKeepsUniqueKeys(init);
      var s := SortByRank(init, KeyRank);
      var p := InsertionPoint(KeyRank, x, s);
      forall k | 0 <= k < |s| ensures s[k].0 != x.0 {
        assert s[k] in multiset(init);
        var m :| 0 <= m < |init| && init[m] == s[k];
        assert xs[m] == s[k];
      }
      InsertFreshKey(s, x, p);
    }
  }

  /** Inserting an entry whose key is new keeps the keys unique. */
  lemma InsertFreshKey(s: Dict<JsValue>, x: (string, JsValue), p: nat)
    requires UniqueKeys(s) && p <= |s|
    requires forall k :: 0 <= k < |s| ==> s[k].0 != x.0
    ensures UniqueKeys(s[..p] + [x] + s[p..])
  {
    var r := s[..p] + [x] + s[p..];
    forall i, j | 0 <= i < j < |r| ensures r[i].0 != r[j].0 {
      if j < p {
        assert r[i] == s[i] && r[j] == s[j];
      } else if j == p {
        assert r[i] == s[i] && r[j] == x;
      } else if i < p {
        assert r[i] == s[i] && r[j] == s[j - 1];
      } else if i == p {
        assert r[i] == x && r[j] == s[j - 1];
      } else {
        assert r[i] == s[i - 1] && r[j] == s[j - 1];
      }
    }
  }

  /** Sorting keeps every quantity's price: a lookup in the sorted object finds what the original held. */
  lemma SortPricesKeepsPairs(fields: Dict<JsValue>, k: string)
    requires UniqueKeys(fields)
    ensures UniqueKeys(SortPrices(Obj(fields)))
    ensures Get(SortPrices(Obj(fields)), k) == Get(fields, k)
  {
    var r := SortPrices(Obj(fields));
    assert multiset(r) == multiset(fields);
    SortKeepsUniqueKeys(fields);
    if HasKey(fields, k) {
      var i := IndexOf(fields, k);
      assert fields[i] in multiset(r);
      var j :| 0 <= j < |r| && r[j] == fields[i];
      GetAtUniqueIndex(fields, i);
      GetAtUniqueIndex(r, j);
    } else {
      forall j | 0 <= j < |r| ensures r[j].0 != k {
        assert r[j] in multiset(fields);
      }
    }
  }

  // ---------------------------------------------------------------- normalisation

  /** A product as the menu renders it. */
  datatype Product = Product(itemName: JsValue, description: JsValue, imageURLs: JsValue,
                             prices: Dict<JsValue>, customizations: JsValue)

  /**
   * The normalisation applied to each stored record: the description
   * defaults to `''`, the image list to `[]`, the prices to `{}` (then
   * sorted) and the customizations to `{}`.
   */
  function NormaliseRecord(p: JsValue): (r: Product)
    requires !p.Null? && !p.Undefined?
    ensures r.itemName == Prop(p, "itemName").value
    ensures Truthy(r.description) == Truthy(Prop(p, "description").value)
    ensures Truthy(Prop(p, "description").value) ==> r.description == Prop(p, "description").value
    ensures !Truthy(Prop(p, "description").value) ==> r.description == Str("")
    ensures Truthy(Prop(p, "imageURLs").value) ==> r.imageURLs == Prop(p, "imageURLs").value
    ensures !Truthy(Prop(p, "imageURLs").value) ==> r.imageURLs == Arr([])
    ensures Truthy(Prop(p, "customizations").value) ==> r.customizations == Prop(p, "customizations").value
    ensures !Truthy(Prop(p, "customizations").value) ==> r.customizations == Obj([])
    ensures multiset(r.prices) == multiset(Entries(Or(Prop(p, "prices").value, Obj([]))))
    ensures AllRanked(Entries(Or(Prop(p, "prices").value, Obj([]))), KeyRank) ==> Ascending(r.prices, KeyRank)
    ensures !Truthy(Prop(p, "prices").value) ==> r.prices == []
  {
    var prices := Or(Prop(p, "prices").value, Obj([]));
    Product(Prop(p, "itemName").value,
            Or(Prop(p, "description").value, Str("")),
            Or(Prop(p, "imageURLs").value, Arr([])),
            SortPrices(prices),
            Or(Prop(p, "customizations").value, Obj([])))
  }

  /**
   * `rawProducts.map(normalise)`: one product per record, in order; reading
   * a field of a null or undefined record throws, which is None.
   */
  function NormaliseAll(raw: seq<JsValue>): (r: Option<seq<Product>>)
    ensures r.Some? <==> forall i :: 0 <= i < |raw| ==> !raw[i].Null? && !raw[i].Undefined?
    ensures r.Some? ==> |r.value| == |raw| && forall i :: 0 <= i < |raw| ==> r.value[i] == NormaliseRecord(raw[i])
  {
    if exists i :: 0 <= i < |raw| && (raw[i].Null? || raw[i].Undefined?) then None
    else Some(seq(|raw|, i requires 0 <= i < |raw| => NormaliseRecord(raw[i])))
  }

  /** A normalised product written back as a record. */
  function RecordOf(p: Product): JsValue {
    Obj([("itemName", p.itemName), ("description", p.description), ("imageURLs", p.imageURLs),
         ("prices", Obj(p.prices)), ("customizations", p.customizations)])
  }

  /** Reading the fields of a written-back product. */
  lemma RecordFields(p: Product)
    ensures Get(RecordOf(p).fields, "itemName") == Some(p.itemName)
    ensures Get(RecordOf(p).fields, "description") == Some(p.description)
    ensures Get(RecordOf(p).fields, "imageURLs") == Some(p.imageURLs)
    ensures Get(RecordOf(p).fields, "prices") == Some(Obj(p.prices))
    ensures Get(RecordOf(p).fields, "customizations") == Some(p.customizations)
  {
    var f4: Dict<JsValue> := [("customizations", p.customizations)];
    var f3 := [("prices", Obj(p.prices))] + f4;
    var f2 := [("imageURLs", p.imageURLs)] + f3;
    var f1 := [("description", p.description)] + f2;
    var f0 := [("itemName", p.itemName)] + f1;
    assert RecordOf(p).fields == f0;
    GetCons(("itemName", p.itemName), f1, "itemName");
    GetCons(("itemName", p.itemName), f1, "description");
    GetCons(("description", p.description), f2, "description");
    GetCons(("itemName", p.itemName), f1, "imageURLs");
    GetCons(("description", p.description), f2, "imageURLs");
    GetCons(("imageURLs", p.imageURLs), f3, "imageURLs");
    GetCons(("itemName", p.itemName), f1, "prices");
    GetCons(("description", p.description), f2, "prices");
    GetCons(("imageURLs", p.imageURLs), f3, "prices");
    GetCons(("prices", Obj(p.prices)), f4, "prices");
    GetCons(("itemName", p.itemName), f1, "customizations");
    GetCons(("description", p.description), f2, "customizations");
    GetCons(("imageURLs", p.imageURLs), f3, "customizations");
    GetCons(("prices", Obj(p.prices)), f4, "customizations");
    assert f4 == [("customizations", p.customizations)] + [];
    GetCons(("customizations", p.customizations), [], "customizations");
  }

  /**
   * Normalising is idempotent: a normalised product, written back and read
   * again, normalises to itself, when its price keys are distinct numbers.
   */
  lemma NormaliseIdempotent(raw: JsValue)
    requires !raw.Null? && !raw.Undefined?
    requires var es := Entries(Or(Prop(raw, "prices").value, Obj([])));
      UniqueKeys(es) && AllRanked(es, KeyRank)
    ensures NormaliseRecord(RecordOf(NormaliseRecord(raw))) == NormaliseRecord(raw)
  {
    var n := NormaliseRecord(raw);
    NormalisedPrices(raw);
    ReadBack(n);
  }

  /**
   * A product whose defaults are already applied and whose prices are in
   * order with unique keys reads back as itself.
   */
  lemma ReadBack(n: Product)
    requires Truthy(n.description) || n.description == Str("")
    requires Truthy(n.imageURLs) && Truthy(n.customizations)
    requires Ascending(n.prices, KeyRank) && UniqueKeys(n.prices) && Entries(Obj(n.prices)) == n.prices
    ensures NormaliseRecord(RecordOf(n)) == n
  {
    var rec := RecordOf(n);
    SortOrderedIsIdentity(n.prices, KeyRank);
    RecordFields(n);
    var m := NormaliseRecord(rec);
    assert m.prices == n.prices by {
      assert Prop(rec, "prices") == Some(Obj(n.prices));
      assert Or(Prop(rec, "prices").value, Obj([])) == Obj(n.prices);
      assert m.prices == SortPrices(Obj(n.prices));
    }
    assert m.itemName == n.itemName by { assert Prop(rec, "itemName") == Some(n.itemName); }
    assert m.description == n.description by { assert Prop(rec, "description") == Some(n.description); }
    assert m.imageURLs == n.imageURLs by { assert Prop(rec, "imageURLs") == Some(n.imageURLs); }
    assert m.customizations == n.customizations by { assert Prop(rec, "customizations") == Some(n.customizations); }
  }

  /** Normalised prices are in order, with unique keys, and read back as themselves. */
  lemma NormalisedPrices(raw: JsValue)
    requires !raw.Null? && !raw.Undefined?
    requires var es := Entries(Or(Prop(raw, "prices").value, Obj([])));
      UniqueKeys(es) && AllRanked(es, KeyRank)
    ensures var ps := NormaliseRecord(raw).prices;
      Ascending(ps, KeyRank) && UniqueKeys(ps) && Entries(Obj(ps)) == ps
  {
    var es := Entries(Or(Prop(raw, "prices").value, Obj([])));
    var ps := SortByRank(es, KeyRank);
    assert NormaliseRecord(raw).prices == ps;
    SortKeepsUniqueKeys(es);
  }

  // ---------------------------------------------------------------- the grid

  /** A row of the grid: two products side by side, or the last one centred. */
  datatype Row = Pair(left: nat, right: nat) | Centred(only: nat)

  function RowCells(row: Row): seq<nat> {
    match row
    case Pair(l, r) => [l, r]
    case Centred(o) => [o]
  }

  /** The product positions in the order the rows show them. */
  function Cells(rows: seq<Row>): seq<nat> {
    if |rows| == 0 then [] else Cells(rows[..|rows| - 1]) + RowCells(rows[|rows| - 1])
  }

  lemma CellsAppend(rows: seq<Row>, row: Row)
    ensures Cells(rows + [row]) == Cells(rows) + RowCells(row)
  {
    assert (rows + [row])[..|rows|] == rows;
  }

  function Upto(n: nat): (r: seq<nat>)
    ensures |r| == n && forall i :: 0 <= i < n ==> r[i] == i
  {
    seq(n, i requires 0 <= i < n => i)
  }

  /**
   * The layout loop: pairs `(i, i + 1)` for even `i` while `i < n - 1`,
   * then the last product alone when `n` is odd.
   */
  method GridLayout(n: nat) returns (rows: seq<Row>)
    ensures Cells(rows) == Upto(n)
    ensures |rows| == (n + 1) / 2
    ensures forall k :: 0 <= k < n / 2 ==> rows[k] == Pair(2 * k, 2 * k + 1)
    ensures n % 2 == 1 <==> |rows| > 0 && rows[|rows| - 1].Centred?
    ensures n % 2 == 1 ==> rows[|rows| - 1] == Centred(n - 1)
  {
    rows := [];
    var i := 0;
    while i < n - 1
      invariant 0 <= i <= n && i == 2 * |rows|
      invariant forall k :: 0 <= k < |rows| ==> rows[k] == Pair(2 * k, 2 * k + 1)
      invariant Cells(rows) == Upto(i)
    {
      CellsAppend(rows, Pair(i, i + 1));
      assert Upto(i) + [i, i + 1] == Upto(i + 2);
      rows := rows + [Pair(i, i + 1)];
      i := i + 2;
    }
    assert i == n || i == n - 1;
    if i == n - 1 {
      CellsAppend(rows, Centred(n - 1));
      assert Upto(n - 1) + [n - 1] == Upto(n);
      rows := rows + [Centred(n - 1)];
    }
  }

  // ---------------------------------------------------------------- quantity options

  /** The value of a quantity option: `${qty}_${price}`. */
  function OptionValue(qty: string, price: JsValue): string {
    qty + "_" + ToJsString(price)
  }

  /** No price key holds `_`, the separator of an option value. */
  predicate PlainKeys(es: Dict<JsValue>) {
    forall k :: 0 <= k < |es| ==> '_' !in es[k].0
  }

  /**
   * The quantity options of a product card: the price entries sorted by
   * numeric key, each as `${qty}_${price}`. `Object.entries` of null or
   * undefined prices throws, which is None.
   */
  function OptionValues(prices: JsValue): (r: Option<seq<string>>)
    ensures r.None? <==> prices.Null? || prices.Undefined?
    ensures r.Some? ==> |r.value| == |Entries(prices)|
    ensures r.Some? && PlainKeys(Entries(prices)) ==>
      forall i :: 0 <= i < |r.value| ==> SelectedQuantity(r.value[i]) == SortPrices(prices)[i].0
  {
    if prices.Null? || prices.Undefined? then None
    else
      var sorted := SortPrices(prices);
      assert |sorted| == |Entries(prices)| by {
        assert |multiset(sorted)| == |multiset(Entries(prices))|;
      }
      var vs := seq(|sorted|, i requires 0 <= i < |sorted| => OptionValue(sorted[i].0, sorted[i].1));
      assert PlainKeys(Entries(prices)) ==> forall i :: 0 <= i < |vs| ==> SelectedQuantity(vs[i]) == sorted[i].0 by {
        if PlainKeys(Entries(prices)) {
          forall i | 0 <= i < |vs| ensures SelectedQuantity(vs[i]) == sorted[i].0 {
            assert sorted[i] in multiset(Entries(prices));
            QuantityRecovered(sorted[i].0, sorted[i].1);
          }
        }
      }
      Some(vs)
  }

  /** `const [qty, price] = value.split('_')`: the quantity handed to `addToCart`. */
  function SelectedQuantity(value: string): (qty: string)
    ensures '_' !in qty
  {
    Split(value, '_')[0]
  }

  /** The quantity comes back out of an option value whenever it holds no `_`. */
  lemma QuantityRecovered(qty: string, price: JsValue)
    requires '_' !in qty
    ensures SelectedQuantity(OptionValue(qty, price)) == qty
  {
    assert OptionValue(qty, price) == qty + ['_'] + ToJsString(price);
    SplitAfterFirst(qty, '_', ToJsString(price));
  }

  /** With plain keys, the options offer every price key of the product and nothing else. */
  lemma OptionsOfferEveryKey(prices: JsValue, k: string)
    requires !prices.Null? && !prices.Undefined? && PlainKeys(Entries(prices))
    ensures var vs := OptionValues(prices).value;
      k in ObjectKeys(prices) <==> exists i :: 0 <= i < |vs| && SelectedQuantity(vs[i]) == k
  {
    var vs := OptionValues(prices).value;
    if k in ObjectKeys(prices) {
      var i := OfferedAt(prices, k);
    }
    if i :| 0 <= i < |vs| && SelectedQuantity(vs[i]) == k {
      OfferedIsKey(prices, i);
    }
  }

  lemma OfferedAt(prices: JsValue, k: string) returns (i: int)
    requires !prices.Null? && !prices.Undefined? && PlainKeys(Entries(prices))
    requires k in ObjectKeys(prices)
    ensures 0 <= i < |OptionValues(prices).value| && SelectedQuantity(OptionValues(prices).value[i]) == k
  {
    var es := Entries(prices);
    var sorted := SortPrices(prices);
    var m :| 0 <= m < |es| && Keys(es)[m] == k;
    assert es[m] in multiset(sorted);
    i :| 0 <= i < |sorted| && sorted[i] == es[m];
  }

  lemma OfferedIsKey(prices: JsValue, i: int)
    requires !prices.Null? && !prices.Undefined? && PlainKeys(Entries(prices))
    requires 0 <= i < |OptionValues(prices).value|
    ensures SelectedQuantity(OptionValues(prices).value[i]) in ObjectKeys(prices)
  {
    var es := Entries(prices);
    var sorted := SortPrices(prices);
    assert sorted[i] in multiset(es);
    var m :| 0 <= m < |es| && es[m] == sorted[i];
    assert Keys(es)[m] == sorted[i].0;
  }

  /** With plain keys that are all numbers, the options come in ascending order of quantity. */
  lemma OptionsAscend(prices: JsValue, i: int, j: int)
    requires !prices.Null? && !prices.Undefined? && PlainKeys(Entries(prices)) && AllRanked(Entries(prices), KeyRank)
    requires 0 <= i < j < |OptionValues(prices).value|
    ensures var vs := OptionValues(prices).value;
      NumberOf(SelectedQuantity(vs[i])).Int? && NumberOf(SelectedQuantity(vs[j])).Int? &&
      NumberOf(SelectedQuantity(vs[i])).i <= NumberOf(SelectedQuantity(vs[j])).i
  {
    var sorted := SortPrices(prices);
    assert |OptionValues(prices).value| == |sorted|;
    AscendingPair(sorted, KeyRank, i, j);
  }
}

=== FILE: outcomes.dfy ===
/** Failure-carrying wrappers shared by every module of the model. */
module Outcomes {

  /** A value that may be absent (JavaScript `null` / `undefined` at an API boundary). */
  datatype Option<+T> = None | Some(value: T)

  /** The outcome of a computation that throws in the source: the thrown error, or the value. */
  datatype Result<+T, +E> = Ok(value: T) | Err(error: E)
}

=== FILE: password_auth.dfy ===
/**
 * POST /api/rate/authenticate: the admin password is hashed with PBKDF2
 * using the salt and iteration count stored beside the expected hash in
 * `ADMIN_PASSWORD_HASH` (`pbkdf2$<iterations>$<salt>$<hash>`), compared in
 * constant time, and exchanged for a signed token. PBKDF2 itself is a
 * parameter; the model fixes the hash-string format, the comparison and the
 * order of the decisions.
 */
module PasswordAuth {
  import opened Outcomes
  import opened Strings
  import opened JsValues
  import opened Http
  import opened Jwt
  import opened AuthGate

  // ---------------------------------------------------------------- constant-time comparison

  /**
   * Bitwise exclusive or of two non-negative integers, bit by bit from the
   * lowest. Character codes stay below 2^21, so JavaScript's 32-bit operators
   * never wrap on them.
   */
  function BitXor(x: nat, y: nat): nat
    decreases x + y
  {
    if x == 0 && y == 0 then 0
    else 2 * BitXor(x / 2, y / 2) + (if x % 2 != y % 2 then 1 else 0)
  }

  /** Bitwise or of two non-negative integers. */
  function BitOr(x: nat, y: nat): nat
    decreases x + y
  {
    if x == 0 && y == 0 then 0
    else 2 * BitOr(x / 2, y / 2) + (if x % 2 == 1 || y % 2 == 1 then 1 else 0)
  }

  lemma {:induction false} BitXorZero(x: nat, y: nat)
    ensures BitXor(x, y) == 0 <==> x == y
    decreases x + y
  {
    if !(x == 0 && y == 0) {
      BitXorZero(x / 2, y / 2);
    }
  }

  lemma {:induction false} BitOrZero(x: nat, y: nat)
    ensures BitOr(x, y) == 0 <==> x == 0 && y == 0
    decreases x + y
  {
    if !(x == 0 && y == 0) {
      BitOrZero(x / 2, y / 2);
    }
  }

  /** `s.charCodeAt(i)`. */
  function Code(c: char): nat {
    c as int
  }

  /** `result |= a.charCodeAt(i) ^ b.charCodeAt(i)` over the first `n` positions. */
  function XorFold(a: string, b: string, n: nat): nat
    requires n <= |a| == |b|
  {
    if n == 0 then 0 else BitOr(XorFold(a, b, n - 1), BitXor(Code(a[n - 1]), Code(b[n - 1])))
  }

  /** The accumulator stays zero exactly as long as the characters agree. */
  lemma {:induction false} XorFoldZero(a: string, b: string, n: nat)
    requires n <= |a| == |b|
    ensures XorFold(a, b, n) == 0 <==> a[..n] == b[..n]
  {
    if n > 0 {
      XorFoldZero(a, b, n - 1);
      BitOrZero(XorFold(a, b, n - 1), BitXor(Code(a[n - 1]), Code(b[n - 1])));
      BitXorZero(Code(a[n - 1]), Code(b[n - 1]));
      assert a[..n] == a[..n - 1] + [a[n - 1]] && b[..n] == b[..n - 1] + [b[n - 1]];
    }
  }

  /**
   * `timingSafeEqual(a, b)`: false for non-strings and for strings of
   * different lengths; otherwise every position is compared, and the answer
   * is whether all agreed.
   */
  function TimingSafeEqual(a: JsValue, b: JsValue): (eq: bool)
    ensures !a.Str? || !b.Str? ==> !eq
    ensures a.Str? && b.Str? && |a.s| != |b.s| ==> !eq
    ensures eq <==> a.Str? && b.Str? && a.s == b.s
  {
    if !a.Str? || !b.Str? then false
    else if |a.s| != |b.s| then false
    else
      XorFoldZero(a.s, b.s, |a.s|);
      assert a.s[..|a.s|] == a.s && b.s[..|b.s|] == b.s;
      XorFold(a.s, b.s, |a.s|) == 0
  }

  // ---------------------------------------------------------------- the stored hash

  datatype Pbkdf2Params = Pbkdf2Params(iterations: int, saltB64: string, hashB64: string)

  /**
   * `parsePbkdf2Hash(value)`: four `$`-separated fields, the first `pbkdf2`,
   * the second a finite positive number; the salt and hash are taken verbatim.
   */
  function ParsePbkdf2Hash(value: JsValue): (r: Option<Pbkdf2Params>)
    ensures var parts := Split(ToJsString(Or(value, Str(""))), '$');
      r.Some? <==>
        |parts| == 4 && parts[0] == "pbkdf2" && NumberOf(parts[1]).IsFinite() && NumberOf(parts[1]).i > 0
    ensures var parts := Split(ToJsString(Or(value, Str(""))), '$');
      r.Some? ==> r.value == Pbkdf2Params(NumberOf(parts[1]).i, parts[2], parts[3]) && r.value.iterations > 0
  {
    var parts := Split(ToJsString(Or(value, Str(""))), '$');
    if |parts| != 4 || parts[0] != "pbkdf2" then None
    else
      var iterations := NumberOf(parts[1]);
      if !iterations.IsFinite() || iterations.i <= 0 then None
      else Some(Pbkdf2Params(iterations.i, parts[2], parts[3]))
  }

  /** The stored form of a hash: `pbkdf2$<iterations>$<salt>$<hash>`. */
  function FormatPbkdf2Hash(params: Pbkdf2Params): string
    requires params.iterations >= 0
  {
    "pbkdf2$" + NatToString(params.iterations) + "$" + params.saltB64 + "$" + params.hashB64
  }

  /** The stored form splits back into its four fields. */
  lemma SplitFormattedHash(params: Pbkdf2Params)
    requires params.iterations >= 0 && '$' !in params.saltB64 && '$' !in params.hashB64
    ensures Split(FormatPbkdf2Hash(params), '$') ==
      ["pbkdf2", NatToString(params.iterations), params.saltB64, params.hashB64]
  {
    var digits := NatToString(params.iterations);
    var salt, hash := params.saltB64, params.hashB64;
    assert '$' !in digits by {
      assert forall i :: 0 <= i < |digits| ==> IsDigit(digits[i]);
    }
    assert FormatPbkdf2Hash(params) == "pbkdf2" + ['$'] + (digits + ['$'] + (salt + ['$'] + hash));
    SplitAfterFirst("pbkdf2", '$', digits + ['$'] + (salt + ['$'] + hash));
    SplitAfterFirst(digits, '$', salt + ['$'] + hash);
    SplitAfterFirst(salt, '$', hash);
    SplitWithoutSeparator(hash, '$');
  }

  /** Parsing the stored form gives back what was formatted, when salt and hash hold no `$` and iterations are positive. */
  lemma ParseFormattedHash(params: Pbkdf2Params)
    requires params.iterations > 0 && '$' !in params.saltB64 && '$' !in params.hashB64
    ensures ParsePbkdf2Hash(Str(FormatPbkdf2Hash(params))) == Some(params)
  {
    var stored := FormatPbkdf2Hash(params);
    SplitFormattedHash(params);
    assert ToJsString(Or(Str(stored), Str(""))) == stored;
    NumberOfDigits(NatToString(params.iterations));
    DigitsValueOfNatToString(params.iterations);
  }

  /** Four `$`-free fields joined by `$` split back into those fields. */
  lemma SplitStoredHash(count: string, salt: string, hash: string)
    requires '$' !in count && '$' !in salt && '$' !in hash
    ensures Split("pbkdf2$" + count + "$" + salt + "$" + hash, '$') == ["pbkdf2", count, salt, hash]
  {
    assert "pbkdf2$" + count + "$" + salt + "$" + hash == "pbkdf2" + ['$'] + (count + ['$'] + (salt + ['$'] + hash));
    SplitAfterFirst("pbkdf2", '$', count + ['$'] + (salt + ['$'] + hash));
    SplitAfterFirst(count, '$', salt + ['$'] + hash);
    SplitAfterFirst(salt, '$', hash);
    SplitWithoutSeparator(hash, '$');
  }

  /** A stored hash with `$`-free fields parses exactly when `Number` reads its count as a positive integer. */
  lemma ParseStoredHash(count: string, salt: string, hash: string)
    requires '$' !in count && '$' !in salt && '$' !in hash
    ensures ParsePbkdf2Hash(Str("pbkdf2$" + count + "$" + salt + "$" + hash)) ==
      if NumberOf(count).IsFinite() && NumberOf(count).i > 0 then Some(Pbkdf2Params(NumberOf(count).i, salt, hash))
      else None
  {
    var stored := "pbkdf2$" + count + "$" + salt + "$" + hash;
    SplitStoredHash(count, salt, hash);
    assert ToJsString(Or(Str(stored), Str(""))) == stored;
  }

  lemma ExponentTextHasNoDollar(m: string, x: string)
    requires AllDigits(m) && AllDigits(x)
    ensures '$' !in m + "e" + x
  {
    var count := m + "e" + x;
    assert forall i :: 0 <= i < |count| ==> count[i] == 'e' || IsDigit(count[i]);
  }

  /** An iteration count written with an exponent is read as `Number` reads it: `pbkdf2$1e5$…` runs 100000 rounds. */
  lemma ExponentIterationsAccepted(m: string, x: string, salt: string, hash: string)
    requires AllDigits(m) && |m| > 0 && DigitsValue(m) > 0 && AllDigits(x) && |x| > 0
    requires '$' !in salt && '$' !in hash
    ensures ParsePbkdf2Hash(Str("pbkdf2$" + (m + "e" + x) + "$" + salt + "$" + hash)) ==
      Some(Pbkdf2Params(DigitsValue(m) * Pow10(DigitsValue(x)), salt, hash))
  {
    ExponentTextHasNoDollar(m, x);
    ParseStoredHash(m + "e" + x, salt, hash);
    NumberOfExponent(m, x);
    PositiveProduct(DigitsValue(m), Pow10(DigitsValue(x)));
  }

  lemma PositiveProduct(a: int, b: int)
    requires a > 0 && b > 0
    ensures a * b > 0
  {
  }

  // ---------------------------------------------------------------- the handler

  /** `{ error: 'Hash parse failed', parts: parts.length, prefix: parts[0] }`. */
  function HashParseFailed(stored: string): Response {
    var parts := Split(stored, '$');
    Response(500, Obj([("error", Str("Hash parse failed")), ("parts", Num(Int(|parts|))), ("prefix", Str(parts[0]))]))
  }

  /** The claims the handler has signed: `{ sub: 'admin' }`. */
  const AdminClaims: seq<(string, JsValue)> := [("sub", Str("admin"))]

  /** Both variables are set and the stored hash parses: the handler goes on to read the request. */
  predicate Configured(passwordHash: Option<string>, jwtSecret: Option<string>) {
    !Unset(passwordHash) && !Unset(jwtSecret) && ParsePbkdf2Hash(Str(passwordHash.value)).Some?
  }

  /** The answer carrying a fresh token for the configured secret. */
  function TokenResponse(p: Primitives, secret: string, now: int): Response {
    Response(200, Obj([("token", Str(Sign(p, AdminClaims, secret, now, DefaultLifetime)))]))
  }

  /**
   * The handler. `passwordHash` and `jwtSecret` are the environment
   * variables; `body` is the parsed request, or the message of the error
   * reading it threw; `derive(password, salt, iterations)` is the base64 of
   * the PBKDF2-SHA-256 key, or the message of the error it threw.
   */
  function Authenticate(p: Primitives, passwordHash: Option<string>, jwtSecret: Option<string>,
                        body: Result<JsValue, string>, derive: (JsValue, string, int) -> Result<string, string>,
                        now: int): (r: Response)
    ensures Unset(passwordHash) ==> r == ErrorResponse(500, "ADMIN_PASSWORD_HASH not set")
    ensures !Unset(passwordHash) && Unset(jwtSecret) ==> r == ErrorResponse(500, "JWT_SECRET not set")
    ensures !Unset(passwordHash) && ParsePbkdf2Hash(Str(passwordHash.value)).None? && !Unset(jwtSecret) ==>
      r == HashParseFailed(passwordHash.value)
    ensures r.status == 200 <==>
      !Unset(passwordHash) && !Unset(jwtSecret) && ParsePbkdf2Hash(Str(passwordHash.value)).Some? &&
      body.Ok? && !body.value.Null? && !body.value.Undefined? &&
      var params := ParsePbkdf2Hash(Str(passwordHash.value)).value;
      derive(Prop(body.value, "password").value, params.saltB64, params.iterations) == Ok(params.hashB64)
    ensures r.status == 200 ==> r == TokenResponse(p, jwtSecret.value, now)
    ensures r.status == 401 <==>
      !Unset(passwordHash) && !Unset(jwtSecret) && ParsePbkdf2Hash(Str(passwordHash.value)).Some? &&
      body.Ok? && !body.value.Null? && !body.value.Undefined? &&
      var params := ParsePbkdf2Hash(Str(passwordHash.value)).value;
      var derived := derive(Prop(body.value, "password").value, params.saltB64, params.iterations);
      derived.Ok? && derived.value != params.hashB64
    ensures r.status == 401 ==> r == ErrorResponse(401, "Invalid password")
    ensures Configured(passwordHash, jwtSecret) && body.Err? ==> r == ErrorResponse(500, "Internal error: " + body.error)
    ensures Configured(passwordHash, jwtSecret) && body.Ok? && (body.value.Null? || body.value.Undefined?) ==>
      r == ErrorResponse(500, "Internal error: " + NullBodyError)
    ensures Configured(passwordHash, jwtSecret) && body.Ok? && !body.value.Null? && !body.value.Undefined? ==>
      var params := ParsePbkdf2Hash(Str(passwordHash.value)).value;
      var derived := derive(Prop(body.value, "password").value, params.saltB64, params.iterations);
      derived.Err? ==> r == ErrorResponse(500, "Internal error: " + derived.error)
  {
    if Unset(passwordHash) then ErrorResponse(500, "ADMIN_PASSWORD_HASH not set")
    else if Unset(jwtSecret) then ErrorResponse(500, "JWT_SECRET not set")
    else
      match ParsePbkdf2Hash(Str(passwordHash.value))
      case None => HashParseFailed(passwordHash.value)
      case Some(params) =>
        if body.Err? then ErrorResponse(500, "Internal error: " + body.error)
        else if body.value.Null? || body.value.Undefined? then ErrorResponse(500, "Internal error: " + NullBodyError)
        else
          var password := Prop(body.value, "password").value;
          match derive(password, params.saltB64, params.iterations)
          case Err(message) => ErrorResponse(500, "Internal error: " + message)
          case Ok(derived) =>
            if !TimingSafeEqual(Str(derived), Str(params.hashB64)) then ErrorResponse(401, "Invalid password")
            else TokenResponse(p, jwtSecret.value, now)
  }

  /** A missing hash or secret is answered before the request body or the hash function is looked at. */
  lemma ConfigCheckedFirst(p: Primitives, passwordHash: Option<string>, jwtSecret: Option<string>,
                           body1: Result<JsValue, string>, body2: Result<JsValue, string>,
                           derive1: (JsValue, string, int) -> Result<string, string>,
                           derive2: (JsValue, string, int) -> Result<string, string>, now: int)
    requires Unset(passwordHash) || Unset(jwtSecret)
    ensures Authenticate(p, passwordHash, jwtSecret, body1, derive1, now) ==
            Authenticate(p, passwordHash, jwtSecret, body2, derive2, now)
    ensures Authenticate(p, passwordHash, jwtSecret, body1, derive1, now).status == 500
  {
  }

  /**
   * The token a successful login hands out lets its bearer through the
   * admin gate for the next 24 hours, given UTF-8 and JSON that round-trip
   * on its claims.
   */
  lemma LoginTokenAuthorizes(p: Primitives, passwordHash: Option<string>, jwtSecret: Option<string>,
                             body: Result<JsValue, string>, derive: (JsValue, string, int) -> Result<string, string>,
                             now: int, later: int)
    requires Authenticate(p, passwordHash, jwtSecret, body, derive, now).status == 200
    requires var claims := Obj(Jwt.Claims(AdminClaims, now, DefaultLifetime)); var text := p.stringify(claims);
      p.utf8Decode(p.utf8(text)) == text && p.parse(text) == Some(claims)
    requires later <= now + DefaultLifetime
    ensures var token := Authenticate(p, passwordHash, jwtSecret, body, derive, now).body.fields[0].1.s;
      CheckAuth(p, jwtSecret, Some(BearerPrefix + token), later).None?
  {
    FreshTokenAuthorizes(p, AdminClaims, jwtSecret.value, now, DefaultLifetime, later);
  }
}

=== FILE: seqs.dfy ===
/** Whole-sequence folds the handlers use: "all succeed or the first failure", and "the last match". */
module Seqs {
  import opened Outcomes

  /** Every element present: their values in order; otherwise None. */
  function AllSome<T>(xs: seq<Option<T>>): (r: Option<seq<T>>)
    ensures r.Some? <==> forall i :: 0 <= i < |xs| ==> xs[i].Some?
    ensures r.Some? ==> |r.value| == |xs| && forall i :: 0 <= i < |xs| ==> r.value[i] == xs[i].value
  {
    if |xs| == 0 then Some([])
    else if xs[0].None? then None
    else
      var rest := AllSome(xs[1..]);
      assert forall i :: 1 <= i < |xs| ==> xs[i] == xs[1..][i - 1];
      if rest.None? then None else Some([xs[0].value] + rest.value)
  }

  /** Every element Ok: their values in order; otherwise the first error, as a loop that throws would. */
  function AllOk<T, E(==)>(xs: seq<Result<T, E>>): (r: Result<seq<T>, E>)
    ensures r.Ok? <==> forall i :: 0 <= i < |xs| ==> xs[i].Ok?
    ensures r.Ok? ==> |r.value| == |xs| && forall i :: 0 <= i < |xs| ==> r.value[i] == xs[i].value
    ensures r.Err? ==> exists i :: FirstErrAt(xs, i) && xs[i].error == r.error
    ensures r.Err? ==> exists i :: 0 <= i < |xs| && xs[i] == Err(r.error)
  {
    if |xs| == 0 then Ok([])
    else if xs[0].Err? then
      assert FirstErrAt(xs, 0);
      Err(xs[0].error)
    else
      var rest := AllOk(xs[1..]);
      assert forall i :: 1 <= i < |xs| ==> xs[i] == xs[1..][i - 1];
      match rest
      case Err(e) =>
        var i :| FirstErrAt(xs[1..], i) && xs[1..][i].error == e;
        assert FirstErrAt(xs, i + 1);
        Err(e)
      case Ok(vs) => Ok([xs[0].value] + vs)
  }

  /** Position `i` holds an error and every earlier position is Ok. */
  predicate FirstErrAt<T, E>(xs: seq<Result<T, E>>, i: int) {
    0 <= i < |xs| && xs[i].Err? && forall j :: 0 <= j < i ==> xs[j].Ok?
  }

  /** The last position holding true, or -1. */
  function LastWhere(bs: seq<bool>): (i: int)
    ensures -1 <= i < |bs|
    ensures i >= 0 ==> bs[i] && forall j :: i < j < |bs| ==> !bs[j]
    ensures i < 0 ==> forall j :: 0 <= j < |bs| ==> !bs[j]
  {
    if |bs| == 0 then -1
    else if bs[|bs| - 1] then |bs| - 1
    else
      assert forall j :: 0 <= j < |bs| - 1 ==> bs[..|bs| - 1][j] == bs[j];
      LastWhere(bs[..|bs| - 1])
  }

  /**
   * `xs.filter(keep)` for a test that cannot throw: the elements that pass,
   * each as often as it occurs and in their original order.
   */
  function Filter<T>(xs: seq<T>, keep: T -> bool): (r: seq<T>)
    ensures |r| <= |xs|
    ensures forall x :: x in r ==> x in xs && keep(x)
    ensures forall i :: 0 <= i < |xs| && keep(xs[i]) ==> xs[i] in r
  {
    if |xs| == 0 then []
    else
      assert forall i :: 1 <= i < |xs| ==> xs[i] == xs[1..][i - 1];
      (if keep(xs[0]) then [xs[0]] else []) + Filter(xs[1..], keep)
  }

  /** Filtering a sequence with a known head: the head survives exactly when it is kept. */
  lemma FilterCons<T>(x: T, xs: seq<T>, keep: T -> bool)
    ensures Filter([x] + xs, keep) == (if keep(x) then [x] else []) + Filter(xs, keep)
  {
    assert ([x] + xs)[1..] == xs;
  }

  /** The concatenation of a sequence of sequences, in order. */
  function Concat<T>(xss: seq<seq<T>>): seq<T> {
    if |xss| == 0 then [] else xss[0] + Concat(xss[1..])
  }
}

=== FILE: server_cart.dfy ===
/**
 * Server-side pricing of a checkout cart against the product catalog: each
 * cart line names a product and a quantity key, the catalog gives the
 * price for that key, and the lines are aggregated per product name into
 * `{quantity, price}` entries plus a grand total. Two endpoints do this
 * with slightly different rules; both are here, with the aggregation
 * they share.
 */
module ServerCart {
  import opened Outcomes
  import opened Strings
  import opened JsValues
  import opened Seqs
  import Dicts

  // ---------------------------------------------------------------- the catalog

  /** Building `new Map(products.map(p => [... p.itemName ..., p]))` reads `itemName` of every product. */
  predicate AllReadable(products: seq<JsValue>) {
    forall i :: 0 <= i < |products| ==> !(products[i].Null? || products[i].Undefined?)
  }

  /**
   * How the catalog map is keyed: by `String(p.itemName)` (payment
   * verification) or by `p.itemName` itself (checkout creation), in which
   * case only a string item name can equal a line's name.
   */
  datatype NameKey = Stringified | Exact

  predicate NamedAs(p: JsValue, mode: NameKey, name: string)
    requires !(p.Null? || p.Undefined?)
  {
    match mode
    case Stringified => ToJsString(Prop(p, "itemName").value) == name
    case Exact => Prop(p, "itemName").value == Str(name)
  }

  /** `productMap.get(name)`: a later product with the same name replaces an earlier one. */
  function CatalogGet(products: seq<JsValue>, mode: NameKey, name: string): (r: Option<JsValue>)
    requires AllReadable(products)
    ensures r.None? <==> forall i :: 0 <= i < |products| ==> !NamedAs(products[i], mode, name)
    ensures r.Some? ==> exists i :: LastNamed(products, mode, name, i) && products[i] == r.value
  {
    var bs := seq(|products|, j requires 0 <= j < |products| => NamedAs(products[j], mode, name));
    assert forall j :: 0 <= j < |products| ==> bs[j] == NamedAs(products[j], mode, name);
    var i := LastWhere(bs);
    if i < 0 then None
    else
      assert LastNamed(products, mode, name, i);
      Some(products[i])
  }

  /** The product at `i` carries the name and no later product does. */
  predicate LastNamed(products: seq<JsValue>, mode: NameKey, name: string, i: int)
    requires AllReadable(products)
  {
    0 <= i < |products| && NamedAs(products[i], mode, name) &&
    forall j :: i < j < |products| ==> !NamedAs(products[j], mode, name)
  }

  /** With only string item names the two keyings find the same product. */
  lemma CatalogKeyingsAgree(products: seq<JsValue>, name: string)
    requires AllReadable(products)
    requires forall i :: 0 <= i < |products| ==> Prop(products[i], "itemName").value.Str?
    ensures CatalogGet(products, Stringified, name) == CatalogGet(products, Exact, name)
  {
    assert forall i :: 0 <= i < |products| ==>
      (NamedAs(products[i], Stringified, name) <==> NamedAs(products[i], Exact, name));
  }

  // ---------------------------------------------------------------- aggregation

  /** A cart entry: summed quantity and summed price of one product's lines. */
  datatype Entry = Entry(quantity: int, price: int)

  /** One accepted cart line: the product name, its numeric quantity and its catalog price. */
  datatype Priced = Priced(name: string, quantity: int, price: int)

  datatype Summary = Summary(cart: Dicts.Dict<Entry>, total: int)

  /** Sum of the prices of all lines. */
  function TotalPrice(ps: seq<Priced>): int {
    if |ps| == 0 then 0 else TotalPrice(ps[..|ps| - 1]) + ps[|ps| - 1].price
  }

  /** Sum of the quantities of the lines named `name`. */
  function QuantityOf(ps: seq<Priced>, name: string): int {
    if |ps| == 0 then 0
    else QuantityOf(ps[..|ps| - 1], name) + (if ps[|ps| - 1].name == name then ps[|ps| - 1].quantity else 0)
  }

  /** Sum of the prices of the lines named `name`. */
  function PriceOf(ps: seq<Priced>, name: string): int {
    if |ps| == 0 then 0
    else PriceOf(ps[..|ps| - 1], name) + (if ps[|ps| - 1].name == name then ps[|ps| - 1].price else 0)
  }

  predicate Named(ps: seq<Priced>, name: string) {
    exists i :: 0 <= i < |ps| && ps[i].name == name
  }

  /** A name with no line sums to zero quantity and zero price. */
  lemma {:induction false} UnnamedSumsToZero(ps: seq<Priced>, name: string)
    ensures !Named(ps, name) ==> QuantityOf(ps, name) == 0 && PriceOf(ps, name) == 0
  {
    if |ps| > 0 && !Named(ps, name) {
      var front := ps[..|ps| - 1];
      assert !Named(front, name) by {
        forall i | 0 <= i < |front| ensures front[i].name != name {
          assert front[i] == ps[i];
        }
      }
      UnnamedSumsToZero(front, name);
    }
  }

  /** Named in `ps + [p]` is named in `ps` or named `p.name`. */
  lemma NamedSnoc(ps: seq<Priced>, p: Priced, name: string)
    ensures Named(ps + [p], name) <==> Named(ps, name) || p.name == name
  {
    var q := ps + [p];
    if Named(ps, name) {
      var i :| 0 <= i < |ps| && ps[i].name == name;
      assert q[i] == ps[i];
    }
    if p.name == name {
      assert q[|ps|] == p;
    }
    if Named(q, name) && p.name != name {
      var i :| 0 <= i < |q| && q[i].name == name;
      assert ps[i] == q[i];
    }
  }

  /**
   * One iteration of the builders' loop: the first line of a name creates
   * `{quantity: 0, price: 0}`, and every line adds its quantity and price
   * to its entry and its price to the total.
   */
  function AddLine(s: Summary, p: Priced): (r: Summary)
    ensures r.total == s.total + p.price
    ensures Dicts.HasKey(s.cart, p.name) ==>
      Dicts.Get(r.cart, p.name) == Some(Entry(Dicts.Get(s.cart, p.name).value.quantity + p.quantity,
                                              Dicts.Get(s.cart, p.name).value.price + p.price))
    ensures !Dicts.HasKey(s.cart, p.name) ==> r.cart == s.cart + [(p.name, Entry(p.quantity, p.price))]
    ensures forall name :: name != p.name ==> Dicts.Get(r.cart, name) == Dicts.Get(s.cart, name)
    ensures forall name :: Dicts.HasKey(r.cart, name) <==> Dicts.HasKey(s.cart, name) || name == p.name
    ensures Dicts.UniqueKeys(s.cart) ==> Dicts.UniqueKeys(r.cart)
  {
    var prev := match Dicts.Get(s.cart, p.name) case Some(e) => e case None => Entry(0, 0);
    var cart := Dicts.Set(s.cart, p.name, Entry(prev.quantity + p.quantity, prev.price + p.price));
    forall name ensures Dicts.HasKey(cart, name) <==> Dicts.HasKey(s.cart, name) || name == p.name {
      assert Dicts.Get(cart, name).Some? <==> Dicts.HasKey(cart, name);
    }
    Summary(cart, s.total + p.price)
  }

  /** What one loop iteration does to the per-name sums. */
  lemma AddLineSums(front: seq<Priced>, p: Priced, s: Summary)
    requires Dicts.UniqueKeys(s.cart)
    requires forall name :: Dicts.HasKey(s.cart, name) <==> Named(front, name)
    requires forall name :: Named(front, name) ==>
      Dicts.Get(s.cart, name) == Some(Entry(QuantityOf(front, name), PriceOf(front, name)))
    requires s.total == TotalPrice(front)
    ensures var r := AddLine(s, p); var ps := front + [p];
      Dicts.UniqueKeys(r.cart) &&
      (forall name :: Dicts.HasKey(r.cart, name) <==> Named(ps, name)) &&
      (forall name :: Named(ps, name) ==>
        Dicts.Get(r.cart, name) == Some(Entry(QuantityOf(ps, name), PriceOf(ps, name)))) &&
      r.total == TotalPrice(ps)
  {
    var r := AddLine(s, p);
    var ps := front + [p];
    assert ps[..|ps| - 1] == front;
    forall name ensures Named(ps, name) <==> Named(front, name) || p.name == name {
      NamedSnoc(front, p, name);
    }
    forall name | Named(ps, name)
      ensures Dicts.Get(r.cart, name) == Some(Entry(QuantityOf(ps, name), PriceOf(ps, name)))
    {
      if name == p.name {
        UnnamedSumsToZero(front, name);
      }
    }
  }

  /** The builders' loop over lines already priced. */
  function Summarize(ps: seq<Priced>): (s: Summary)
    ensures Dicts.UniqueKeys(s.cart)
    ensures forall name :: Dicts.HasKey(s.cart, name) <==> Named(ps, name)
    ensures forall name :: Named(ps, name) ==>
      Dicts.Get(s.cart, name) == Some(Entry(QuantityOf(ps, name), PriceOf(ps, name)))
    ensures s.total == TotalPrice(ps)
  {
    if |ps| == 0 then Summary([], 0)
    else
      var front := ps[..|ps| - 1];
      var p := ps[|ps| - 1];
      assert ps == front + [p];
      var s := Summarize(front);
      AddLineSums(front, p, s);
      AddLine(s, p)
  }

  /** Sum of the prices stored in a cart's entries. */
  function EntryPrices(cart: Dicts.Dict<Entry>): int {
    if |cart| == 0 then 0 else cart[0].1.price + EntryPrices(cart[1..])
  }

  lemma {:induction false} EntryPricesAppend(cart: Dicts.Dict<Entry>, x: (string, Entry))
    ensures EntryPrices(cart + [x]) == EntryPrices(cart) + x.1.price
  {
    if |cart| > 0 {
      assert (cart + [x])[1..] == cart[1..] + [x];
      EntryPricesAppend(cart[1..], x);
    }
  }

  lemma {:induction false} EntryPricesUpdate(cart: Dicts.Dict<Entry>, i: int, x: (string, Entry))
    requires 0 <= i < |cart|
    ensures EntryPrices(cart[i := x]) == EntryPrices(cart) - cart[i].1.price + x.1.price
  {
    if i > 0 {
      assert cart[i := x][1..] == cart[1..][i - 1 := x];
      EntryPricesUpdate(cart[1..], i - 1, x);
    }
  }

  /** The grand total equals the sum of the per-product prices in the cart. */
  lemma {:induction false} TotalIsSumOfEntries(ps: seq<Priced>)
    ensures Summarize(ps).total == EntryPrices(Summarize(ps).cart)
  {
    if |ps| > 0 {
      var front := ps[..|ps| - 1];
      var p := ps[|ps| - 1];
      TotalIsSumOfEntries(front);
      AddLineKeepsEntrySum(Summarize(front), p);
    }
  }

  lemma AddLineKeepsEntrySum(s: Summary, p: Priced)
    requires s.total == EntryPrices(s.cart)
    ensures AddLine(s, p).total == EntryPrices(AddLine(s, p).cart)
  {
    var prev := match Dicts.Get(s.cart, p.name) case Some(e) => e case None => Entry(0, 0);
    var e := Entry(prev.quantity + p.quantity, prev.price + p.price);
    var i := Dicts.IndexOf(s.cart, p.name);
    if i >= 0 {
      assert s.cart[i].1 == prev;
      assert AddLine(s, p).cart == s.cart[i := (p.name, e)];
      EntryPricesUpdate(s.cart, i, (p.name, e));
    } else {
      EntryPricesAppend(s.cart, (p.name, e));
    }
  }

  // ---------------------------------------------------------------- the lines

  /** `String(line?.field || '')`. */
  function LineField(line: JsValue, field: string): string {
    ToJsString(Or(OptionalProp(line, field), Str("")))
  }

  /** `product.prices?.[quantityKey]` for a product that is truthy. */
  function CatalogPrice(product: JsValue, quantityKey: string): JsValue
    requires Truthy(product)
  {
    OptionalMember(Prop(product, "prices").value, quantityKey)
  }

  /** The catalog product for a name, when there is one and it is truthy (`if (!product) throw` or reject). */
  function FoundProduct(products: seq<JsValue>, mode: NameKey, name: string): (r: Option<JsValue>)
    requires AllReadable(products)
    ensures r.Some? ==> Truthy(r.value) && r == CatalogGet(products, mode, name)
    ensures r.None? ==> CatalogGet(products, mode, name).None? || !Truthy(CatalogGet(products, mode, name).value)
  {
    var g := CatalogGet(products, mode, name);
    if g.Some? && Truthy(g.value) then g else None
  }

  /**
   * The price and quantity checks both builders share: `Number` of the
   * catalog price for the quantity key and `Number` of the key itself must
   * both be finite.
   */
  function PriceLine(product: JsValue, name: string, quantityKey: string): (r: Option<Priced>)
    requires Truthy(product)
    ensures r.Some? <==> ToNumber(CatalogPrice(product, quantityKey)).IsFinite() && NumberOf(quantityKey).IsFinite()
    ensures r.Some? ==> (r.value.name == name &&
      Int(r.value.price) == ToNumber(CatalogPrice(product, quantityKey)) &&
      Int(r.value.quantity) == NumberOf(quantityKey))
  {
    var price := ToNumber(CatalogPrice(product, quantityKey));
    var quantity := NumberOf(quantityKey);
    if price.Int? && quantity.Int? then Some(Priced(name, quantity.i, price.i)) else None
  }

  /**
   * One line as payment verification prices it: an empty name or quantity
   * key, a product missing from the catalog (or falsy), or a price or
   * quantity that is not a finite number rejects it.
   */
  function ValidateLine(line: JsValue, products: seq<JsValue>): (r: Option<Priced>)
    requires AllReadable(products)
    ensures LineField(line, "name") == "" || LineField(line, "quantityKey") == "" ==> r.None?
    ensures FoundProduct(products, Stringified, LineField(line, "name")).None? ==> r.None?
    ensures r.Some? ==> r.value.name == LineField(line, "name")
    ensures (LineField(line, "name") != "" && LineField(line, "quantityKey") != "" &&
      FoundProduct(products, Stringified, LineField(line, "name")).Some?) ==>
      r == PriceLine(FoundProduct(products, Stringified, LineField(line, "name")).value,
                     LineField(line, "name"), LineField(line, "quantityKey"))
  {
    var name := LineField(line, "name");
    var quantityKey := LineField(line, "quantityKey");
    if name == "" || quantityKey == "" then None
    else
      var product := FoundProduct(products, Stringified, name);
      if product.None? then None else PriceLine(product.value, name, quantityKey)
  }

  /** Every line validated, or None as soon as one is rejected. */
  function ValidateLines(lines: seq<JsValue>, products: seq<JsValue>): (r: Option<seq<Priced>>)
    requires AllReadable(products)
    ensures r.Some? <==> forall i :: 0 <= i < |lines| ==> ValidateLine(lines[i], products).Some?
    ensures r.Some? ==> (|r.value| == |lines| &&
      forall i :: 0 <= i < |lines| ==> r.value[i] == ValidateLine(lines[i], products).value)
  {
    var xs := seq(|lines|, i requires 0 <= i < |lines| => ValidateLine(lines[i], products));
    assert forall i :: 0 <= i < |lines| ==> xs[i] == ValidateLine(lines[i], products);
    AllSome(xs)
  }

  /** `{valid: false, cart: {}, total: 0}`, or a valid cart with its total. */
  datatype Validated = Invalid | Valid(cart: Dicts.Dict<Entry>, total: int)

  /**
   * `buildValidatedCart(cartLines, products)`. An empty or non-array cart
   * is invalid; a null product makes building the catalog map throw (Err).
   */
  function BuildValidatedCart(cartLines: JsValue, products: seq<JsValue>): (r: Result<Validated, string>)
    ensures !cartLines.Arr? || |cartLines.items| == 0 ==> r == Ok(Invalid)
    ensures r.Err? <==> cartLines.Arr? && |cartLines.items| > 0 && !AllReadable(products)
    ensures r.Ok? && r.value.Valid? <==>
      (cartLines.Arr? && |cartLines.items| > 0 && AllReadable(products) &&
       forall i :: 0 <= i < |cartLines.items| ==> ValidateLine(cartLines.items[i], products).Some?)
  {
    if !cartLines.Arr? || |cartLines.items| == 0 then Ok(Invalid)
    else if !AllReadable(products) then Err("Cannot read properties of null (reading 'itemName')")
    else
      match ValidateLines(cartLines.items, products)
      case None => Ok(Invalid)
      case Some(ps) =>
        var s := Summarize(ps);
        Ok(Valid(s.cart, s.total))
  }

  /**
   * A valid cart has one entry per distinct line name, each holding the
   * sums over that name's lines, and its total is the sum of all line
   * prices, which is also the sum of the entries' prices.
   */
  lemma ValidCartSums(cartLines: JsValue, products: seq<JsValue>)
    requires BuildValidatedCart(cartLines, products).Ok? && BuildValidatedCart(cartLines, products).value.Valid?
    ensures var v := BuildValidatedCart(cartLines, products).value;
      var ps := ValidateLines(cartLines.items, products).value;
      Dicts.UniqueKeys(v.cart) &&
      (forall name :: Dicts.HasKey(v.cart, name) <==> exists i :: 0 <= i < |cartLines.items| && LineField(cartLines.items[i], "name") == name) &&
      (forall name :: Dicts.HasKey(v.cart, name) ==> Dicts.Get(v.cart, name) == Some(Entry(QuantityOf(ps, name), PriceOf(ps, name)))) &&
      v.total == TotalPrice(ps) && v.total == EntryPrices(v.cart)
  {
    var lines := cartLines.items;
    var ps := ValidateLines(lines, products).value;
    TotalIsSumOfEntries(ps);
    PricedNames(lines, products);
  }

  /** The validated lines carry the lines' names, position by position. */
  lemma PricedNames(lines: seq<JsValue>, products: seq<JsValue>)
    requires AllReadable(products) && ValidateLines(lines, products).Some?
    ensures forall name :: Named(ValidateLines(lines, products).value, name) <==>
      exists i :: 0 <= i < |lines| && LineField(lines[i], "name") == name
  {
    var ps := ValidateLines(lines, products).value;
    assert forall i :: 0 <= i < |lines| ==> ps[i].name == LineField(lines[i], "name");
    forall name ensures Named(ps, name) <==> exists i :: 0 <= i < |lines| && LineField(lines[i], "name") == name {
      if Named(ps, name) {
        var i :| 0 <= i < |ps| && ps[i].name == name;
        assert LineField(lines[i], "name") == name;
      }
      if exists i :: 0 <= i < |lines| && LineField(lines[i], "name") == name {
        var i :| 0 <= i < |lines| && LineField(lines[i], "name") == name;
        assert ps[i].name == name;
      }
    }
  }

  // ---------------------------------------------------------------- checkout creation

  /**
   * One line as checkout creation prices it for the summary: no check for
   * empty fields, the catalog keyed by the raw item name, and failures
   * thrown as messages naming the product.
   */
  function SummaryLine(line: JsValue, products: seq<JsValue>): (r: Result<Priced, string>)
    requires AllReadable(products)
    ensures FoundProduct(products, Exact, LineField(line, "name")).None? ==>
      r == Err("Unknown product: " + LineField(line, "name"))
    ensures FoundProduct(products, Exact, LineField(line, "name")).Some? ==>
      var priced := PriceLine(FoundProduct(products, Exact, LineField(line, "name")).value,
                              LineField(line, "name"), LineField(line, "quantityKey"));
      (priced.None? ==> r == Err("Invalid quantity for " + LineField(line, "name"))) &&
      (priced.Some? ==> r == Ok(priced.value))
  {
    var name := LineField(line, "name");
    var quantityKey := LineField(line, "quantityKey");
    var product := FoundProduct(products, Exact, name);
    if product.None? then Err("Unknown product: " + name)
    else
      var priced := PriceLine(product.value, name, quantityKey);
      if priced.None? then Err("Invalid quantity for " + name) else Ok(priced.value)
  }

  /** The lines in order; the first failing line's error is thrown. */
  function SummaryLines(lines: seq<JsValue>, products: seq<JsValue>): (r: Result<seq<Priced>, string>)
    requires AllReadable(products)
    ensures r.Ok? <==> forall i :: 0 <= i < |lines| ==> SummaryLine(lines[i], products).Ok?
    ensures r.Ok? ==> (|r.value| == |lines| &&
      forall i :: 0 <= i < |lines| ==> r.value[i] == SummaryLine(lines[i], products).value)
    ensures r.Err? ==> exists i :: 0 <= i < |lines| && SummaryLine(lines[i], products) == Err(r.error)
  {
    var xs := seq(|lines|, i requires 0 <= i < |lines| => SummaryLine(lines[i], products));
    assert forall i :: 0 <= i < |lines| ==> xs[i] == SummaryLine(lines[i], products);
    AllOk(xs)
  }

  /** `buildCartSummary(cartLines, products)`. */
  function BuildCartSummary(lines: seq<JsValue>, products: seq<JsValue>): (r: Result<Summary, string>)
    ensures !AllReadable(products) ==> r.Err?
    ensures AllReadable(products) ==> match SummaryLines(lines, products)
      case Ok(ps) => r == Ok(Summarize(ps))
      case Err(m) => r == Err(m)
  {
    if !AllReadable(products) then Err("Cannot read properties of null (reading 'itemName')")
    else
      match SummaryLines(lines, products)
      case Err(m) => Err(m)
      case Ok(ps) => Ok(Summarize(ps))
  }

  /**
   * When every catalog item name is a string, a cart that payment
   * verification accepts gets the same entries and total from the summary
   * built at checkout creation.
   */
  lemma SummaryAgreesWithValidation(cartLines: JsValue, products: seq<JsValue>)
    requires forall i :: 0 <= i < |products| ==> Prop(products[i], "itemName").Some? && Prop(products[i], "itemName").value.Str?
    requires BuildValidatedCart(cartLines, products).Ok? && BuildValidatedCart(cartLines, products).value.Valid?
    ensures var v := BuildValidatedCart(cartLines, products).value;
      BuildCartSummary(cartLines.items, products) == Ok(Summary(v.cart, v.total))
  {
    LinesAgree(cartLines.items, products);
  }

  lemma LinesAgree(lines: seq<JsValue>, products: seq<JsValue>)
    requires forall i :: 0 <= i < |products| ==> Prop(products[i], "itemName").Some? && Prop(products[i], "itemName").value.Str?
    requires AllReadable(products) && ValidateLines(lines, products).Some?
    ensures SummaryLines(lines, products) == Ok(ValidateLines(lines, products).value)
  {
    var ps := ValidateLines(lines, products).value;
    forall i | 0 <= i < |lines| ensures SummaryLine(lines[i], products) == Ok(ps[i]) {
      LineAgrees(lines[i], products);
    }
    var r := SummaryLines(lines, products);
    assert r.Ok?;
    assert r.value == ps;
  }

  /** A line payment verification accepts is priced the same way by checkout creation. */
  lemma LineAgrees(line: JsValue, products: seq<JsValue>)
    requires forall i :: 0 <= i < |products| ==> Prop(products[i], "itemName").Some? && Prop(products[i], "itemName").value.Str?
    requires AllReadable(products) && ValidateLine(line, products).Some?
    ensures SummaryLine(line, products) == Ok(ValidateLine(line, products).value)
  {
    CatalogKeyingsAgree(products, LineField(line, "name"));
    assert FoundProduct(products, Stringified, LineField(line, "name")) == FoundProduct(products, Exact, LineField(line, "name"));
  }

  /** One Stripe line item: the product name, the quantity key as metadata, and the unit amount in cents. */
  datatype LineItem = LineItem(name: string, actualQuantity: string, unitAmount: Number)

  /** `Math.round(Number(price) * 100)`, on integer prices. */
  function Cents(price: JsValue): (r: Number)
    ensures ToNumber(price).Int? <==> r.Int?
    ensures r.Int? ==> r.i == ToNumber(price).i * 100
  {
    match ToNumber(price)
    case NaN => NaN
    case Int(p) => Int(p * 100)
  }

  /**
   * The Stripe line item for one cart line. The line is read without
   * optional chaining, so a null line throws; an unknown product or a
   * missing price for the quantity key throws a message naming the product.
   */
  function StripeLineItem(line: JsValue, products: seq<JsValue>): (r: Result<LineItem, string>)
    requires AllReadable(products)
    ensures (line.Null? || line.Undefined?) ==> r.Err?
    ensures !(line.Null? || line.Undefined?) && FoundProduct(products, Exact, LineField(line, "name")).None? ==>
      r == Err("Unknown product: " + LineField(line, "name"))
    ensures r.Err? && !(line.Null? || line.Undefined?) ==>
      (r.error == "Unknown product: " + LineField(line, "name") ||
       r.error == "Invalid quantity for " + LineField(line, "name"))
    ensures r.Ok? ==> (r.value.name == LineField(line, "name") &&
      r.value.actualQuantity == LineField(line, "quantityKey"))
    ensures r.Ok? ==>
      var product := FoundProduct(products, Exact, r.value.name);
      product.Some? &&
      var price := CatalogPrice(product.value, r.value.actualQuantity);
      price != Undefined && r.value.unitAmount == Cents(price)
  {
    if line.Null? || line.Undefined? then Err("Cannot read properties of null (reading 'name')")
    else
      var name := LineField(line, "name");
      var quantityKey := LineField(line, "quantityKey");
      var product := FoundProduct(products, Exact, name);
      if product.None? then Err("Unknown product: " + name)
      else
        var price := CatalogPrice(product.value, quantityKey);
        if price == Undefined then Err("Invalid quantity for " + name)
        else Ok(LineItem(name, quantityKey, Cents(price)))
  }

  /** `buildStripeLineItems(cartLines, products)`: one item per line, in order, or the first line's error. */
  function BuildStripeLineItems(lines: seq<JsValue>, products: seq<JsValue>): (r: Result<seq<LineItem>, string>)
    ensures AllReadable(products) ==>
      (r.Ok? <==> forall i :: 0 <= i < |lines| ==> StripeLineItem(lines[i], products).Ok?)
    ensures r.Ok? ==> (AllReadable(products) && |r.value| == |lines| &&
      forall i :: 0 <= i < |lines| ==> r.value[i] == StripeLineItem(lines[i], products).value)
    ensures r.Err? && AllReadable(products) ==>
      exists i :: 0 <= i < |lines| && StripeLineItem(lines[i], products) == Err(r.error)
  {
    if !AllReadable(products) then Err("Cannot read properties of null (reading 'itemName')")
    else StripeLineItemsFrom(lines, products)
  }

  function StripeLineItemsFrom(lines: seq<JsValue>, products: seq<JsValue>): (r: Result<seq<LineItem>, string>)
    requires AllReadable(products)
    ensures r.Ok? <==> forall i :: 0 <= i < |lines| ==> StripeLineItem(lines[i], products).Ok?
    ensures r.Ok? ==> (|r.value| == |lines| &&
      forall i :: 0 <= i < |lines| ==> r.value[i] == StripeLineItem(lines[i], products).value)
    ensures r.Err? ==> exists i :: 0 <= i < |lines| && StripeLineItem(lines[i], products) == Err(r.error)
  {
    var xs := seq(|lines|, i requires 0 <= i < |lines| => StripeLineItem(lines[i], products));
    assert forall i :: 0 <= i < |lines| ==> xs[i] == StripeLineItem(lines[i], products);
    AllOk(xs)
  }

  /** The JSON form of a line item that is sent to Stripe: quantity 1, currency usd. */
  function LineItemJson(item: LineItem): JsValue {
    Obj([
      ("price_data", Obj([
        ("currency", Str("usd")),
        ("product_data", Obj([
          ("name", Str(item.name)),
          ("metadata", Obj([("actual_quantity", Str(item.actualQuantity))]))])),
        ("unit_amount", Num(item.unitAmount))])),
      ("quantity", Num(Int(1)))])
  }
}

=== FILE: slider.dfy ===
/**
 * The image slider shared by the content pages: a current index that the
 * arrows and swipes move round a ring of slides, and the horizontal offset
 * the wrapper is translated by.
 */
module Slider {
  import opened JsValues

  /** The slider's state: `currentIndex` and `totalSlides`. */
  datatype Slider = Slider(index: Number, total: nat)

  /** A freshly built slider shows the first slide. */
  function Initial(total: nat): (s: Slider)
    ensures s.index == Int(0) && s.total == total
    ensures total > 0 ==> InRange(s)
  {
    Slider(Int(0), total)
  }

  /** The index names a slide. */
  predicate InRange(s: Slider) {
    s.total > 0 && s.index.Int? && 0 <= s.index.i < s.total
  }

  /**
   * `a % n` on numbers: NaN when either side is NaN or `n` is 0; otherwise
   * the remainder takes the sign of `a` (truncating division), which for a
   * non-negative `a` is the usual remainder.
   */
  function Rem(a: Number, n: int): (r: Number)
    ensures r.Int? <==> a.Int? && n != 0
    ensures r.Int? && a.i >= 0 ==> r.i >= 0
    ensures r.Int? && a.i < 0 ==> r.i <= 0
    ensures r.Int? && 0 <= a.i < n ==> r.i == a.i
    ensures r.Int? && 0 < n <= a.i < 2 * n ==> r.i == a.i - n
  {
    if a.NaN? || n == 0 then NaN
    else
      var m := if n > 0 then n else -n;
      if a.i >= 0 then ModFacts(a.i, m); Int(a.i % m) else Int(-((-a.i) % m))
  }

  /** The remainder of a number below twice the divisor. */
  lemma ModFacts(x: nat, m: nat)
    requires m > 0
    ensures x < m ==> x % m == x
    ensures m <= x < 2 * m ==> x % m == x - m
  {
    if x < m {
      assert x == 0 * m + x;
    } else if x < 2 * m {
      assert x == 1 * m + (x - m);
    }
  }

  /** `nextSlide`: one step forward, wrapping from the last slide to the first. */
  function Next(s: Slider): (r: Slider)
    ensures r.total == s.total
    ensures InRange(s) ==> InRange(r) && r.index.i == if s.index.i + 1 == s.total then 0 else s.index.i + 1
    ensures s.total == 0 ==> r.index == NaN
  {
    Slider(Rem(Plus(s.index, Int(1)), s.total), s.total)
  }

  /** `prevSlide`: one step back, wrapping from the first slide to the last. */
  function Prev(s: Slider): (r: Slider)
    ensures r.total == s.total
    ensures InRange(s) ==> InRange(r) && r.index.i == if s.index.i == 0 then s.total - 1 else s.index.i - 1
    ensures s.total == 0 ==> r.index == NaN
  {
    Slider(Rem(Plus(Plus(s.index, Int(-1)), Int(s.total)), s.total), s.total)
  }

  /** Back then forward, or forward then back, returns to the same slide. */
  lemma NextPrevInverse(s: Slider)
    requires InRange(s)
    ensures Next(Prev(s)) == s && Prev(Next(s)) == s
  {
  }

  /** `k` presses of the right arrow. */
  function Steps(s: Slider, k: nat): Slider {
    if k == 0 then s else Next(Steps(s, k - 1))
  }

  lemma {:induction false} StepsCompose(s: Slider, a: nat, b: nat)
    ensures Steps(s, a + b) == Steps(Steps(s, a), b)
    decreases b
  {
    if b > 0 {
      StepsCompose(s, a, b - 1);
    }
  }

  /** Before the wrap, each press moves one slide on. */
  lemma {:induction false} StepsBeforeWrap(s: Slider, k: nat)
    requires InRange(s) && s.index.i + k < s.total
    ensures Steps(s, k) == Slider(Int(s.index.i + k), s.total)
    decreases k
  {
    if k > 0 {
      StepsBeforeWrap(s, k - 1);
    }
  }

  /** From any slide, pressing until past the last slide lands on the first. */
  lemma WrapToFirst(s: Slider)
    requires InRange(s)
    ensures Steps(s, s.total - s.index.i) == Slider(Int(0), s.total)
  {
    var n, i := s.total, s.index.i;
    StepsBeforeWrap(s, n - 1 - i);
    assert Steps(s, n - i) == Next(Slider(Int(n - 1), n));
  }

  /** As many presses as there are slides come back to the slide shown before. */
  lemma FullTurn(s: Slider)
    requires InRange(s)
    ensures Steps(s, s.total) == s
  {
    var n, i := s.total, s.index.i;
    WrapToFirst(s);
    var first := Slider(Int(0), n);
    StepsBeforeWrap(first, i);
    StepsCompose(s, n - i, i);
  }

  /** A swipe moves only when it travels more than this many pixels. */
  const SwipeThreshold := 50

  /** `handleSwipe`: right to left goes forward, left to right goes back, a short swipe does nothing. */
  function HandleSwipe(s: Slider, startX: int, endX: int): (r: Slider)
    ensures startX - endX > SwipeThreshold ==> r == Next(s)
    ensures endX - startX > SwipeThreshold ==> r == Prev(s)
    ensures -SwipeThreshold <= startX - endX <= SwipeThreshold ==> r == s
  {
    var diff := startX - endX;
    var magnitude := if diff < 0 then -diff else diff;
    if magnitude > SwipeThreshold then (if diff > 0 then Next(s) else Prev(s)) else s
  }

  /** `updateSlider`: the wrapper is shifted left by a whole slide width per index, in percent. */
  function Offset(s: Slider): (r: Number)
    ensures r.Int? <==> s.index.Int?
    ensures r.Int? ==> r.i == -100 * s.index.i
    ensures InRange(s) ==> -100 * (s.total - 1) <= r.i <= 0
  {
    Times(Times(s.index, Int(-1)), Int(100))
  }
}

=== FILE: sorting.dfy ===
/**
 * `Array.prototype.sort` with a comparator of the form
 * `(a, b) => rank(a) - rank(b)`, which the menu and mail pages use. The
 * sort is stable; an element whose rank is NaN compares as equal to
 * everything, so only inputs whose ranks are all numbers are promised to
 * come out in order.
 */
module Sorting {
  import opened JsValues

  /** `rank(a) - rank(b) < 0`. */
  predicate Less<T>(rank: T -> Number, a: T, b: T) {
    rank(a).Int? && rank(b).Int? && rank(a).i < rank(b).i
  }

  /** Every element has a numeric rank. */
  predicate AllRanked<T>(xs: seq<T>, rank: T -> Number) {
    forall i :: 0 <= i < |xs| ==> rank(xs[i]).Int?
  }

  /** `a` may stand before `b`: both ranked, `a` no higher. */
  predicate RankedBefore<T>(rank: T -> Number, a: T, b: T) {
    rank(a).Int? && rank(b).Int? && rank(a).i <= rank(b).i
  }

  /** Ranks never decrease from left to right. */
  predicate Ascending<T>(xs: seq<T>, rank: T -> Number) {
    forall i, j :: 0 <= i < j < |xs| ==> RankedBefore(rank, xs[i], xs[j])
  }

  /** One pair of positions of an ordered list. */
  lemma AscendingPair<T>(xs: seq<T>, rank: T -> Number, i: int, j: int)
    requires Ascending(xs, rank) && 0 <= i < j < |xs|
    ensures rank(xs[i]).Int? && rank(xs[j]).Int? && rank(xs[i]).i <= rank(xs[j]).i
  {
  }

  /** Where `x` goes in `s`: before the first element it is less than, after every other. */
  function InsertionPoint<T>(rank: T -> Number, x: T, s: seq<T>): (p: nat)
    ensures p <= |s|
    ensures forall k :: 0 <= k < p ==> !Less(rank, x, s[k])
    ensures p < |s| ==> Less(rank, x, s[p])
  {
    if |s| == 0 || Less(rank, x, s[0]) then 0 else 1 + InsertionPoint(rank, x, s[1..])
  }

  /** Inserting into an ordered list keeps it ordered, when every rank is a number. */
  lemma InsertKeepsOrder<T>(rank: T -> Number, x: T, s: seq<T>)
    requires Ascending(s, rank) && AllRanked(s, rank) && rank(x).Int?
    ensures var p := InsertionPoint(rank, x, s); Ascending(s[..p] + [x] + s[p..], rank)
  {
    var p := InsertionPoint(rank, x, s);
    var r := s[..p] + [x] + s[p..];
    forall i, j | 0 <= i < j < |r|
      ensures rank(r[i]).Int? && rank(r[j]).Int? && rank(r[i]).i <= rank(r[j]).i
    {
      InsertedPair(rank, x, s, p, i, j);
    }
  }

  /** One pair of positions after placing `x` at `p`, where nothing before `p` is above `x` and `s[p]` is. */
  lemma InsertedPair<T>(rank: T -> Number, x: T, s: seq<T>, p: nat, i: int, j: int)
    requires Ascending(s, rank) && AllRanked(s, rank) && rank(x).Int?
    requires p <= |s| && (forall k :: 0 <= k < p ==> !Less(rank, x, s[k])) && (p < |s| ==> Less(rank, x, s[p]))
    requires 0 <= i < j <= |s|
    ensures var r := s[..p] + [x] + s[p..];
      rank(r[i]).Int? && rank(r[j]).Int? && rank(r[i]).i <= rank(r[j]).i
  {
    var r := s[..p] + [x] + s[p..];
    var a := if i < p then s[i] else if i == p then x else s[i - 1];
    var b := if j < p then s[j] else if j == p then x else s[j - 1];
    assert r[i] == a && r[j] == b;
    if j == p {
      assert !Less(rank, x, s[i]);
    } else if i == p {
      assert Less(rank, x, s[p]);
      if p < j - 1 {
        AscendingPair(s, rank, p, j - 1);
      }
    } else if i < p {
      AscendingPair(s, rank, i, if j < p then j else j - 1);
    } else {
      AscendingPair(s, rank, i - 1, j - 1);
    }
  }

  /** Placing `x` anywhere in `s` adds one `x` and keeps every other count. */
  lemma SpliceCounts<T>(s: seq<T>, p: nat, x: T)
    requires p <= |s|
    ensures multiset(s[..p] + [x] + s[p..]) == multiset(s) + multiset{x}
  {
    assert s == s[..p] + s[p..];
  }

  /** `x` placed at its insertion point. */
  function Insert<T>(rank: T -> Number, x: T, s: seq<T>): (r: seq<T>)
    ensures r == s[..InsertionPoint(rank, x, s)] + [x] + s[InsertionPoint(rank, x, s)..]
    ensures multiset(r) == multiset(s) + multiset{x}
    ensures Ascending(s, rank) && AllRanked(s, rank) && rank(x).Int? ==> Ascending(r, rank)
  {
    var p := InsertionPoint(rank, x, s);
    SpliceCounts(s, p, x);
    assert Ascending(s, rank) && AllRanked(s, rank) && rank(x).Int? ==> Ascending(s[..p] + [x] + s[p..], rank) by {
      if Ascending(s, rank) && AllRanked(s, rank) && rank(x).Int? {
        InsertKeepsOrder(rank, x, s);
      }
    }
    s[..p] + [x] + s[p..]
  }

  /**
   * The sort: each element in turn is inserted into the sorted prefix
   * after every element it is not less than, which keeps equal elements in
   * their original order.
   */
  function SortByRank<T>(xs: seq<T>, rank: T -> Number): (r: seq<T>)
    ensures multiset(r) == multiset(xs)
    ensures |r| == |xs|
    ensures AllRanked(xs, rank) ==> Ascending(r, rank)
  {
    if |xs| == 0 then []
    else
      var init := xs[..|xs| - 1];
      var s := SortByRank(init, rank);
      assert xs == init + [xs[|xs| - 1]];
      assert AllRanked(xs, rank) ==> AllRanked(s, rank) by {
        if AllRanked(xs, rank) {
          RankedPermutation(init, s, rank);
        }
      }
      Insert(rank, xs[|xs| - 1], s)
  }

  /** Rearranging elements keeps every rank a number. */
  lemma RankedPermutation<T>(xs: seq<T>, ys: seq<T>, rank: T -> Number)
    requires multiset(xs) == multiset(ys) && AllRanked(xs, rank)
    ensures AllRanked(ys, rank)
  {
    forall k | 0 <= k < |ys| ensures rank(ys[k]).Int? {
      assert ys[k] in multiset(xs);
      var m :| 0 <= m < |xs| && xs[m] == ys[k];
    }
  }

  /** A list already in order comes back unchanged: the sort is stable. */
  lemma {:induction false} SortOrderedIsIdentity<T>(xs: seq<T>, rank: T -> Number)
    requires Ascending(xs, rank)
    ensures SortByRank(xs, rank) == xs
    decreases |xs|
  {
    if |xs| > 0 {
      var init, x := xs[..|xs| - 1], xs[|xs| - 1];
      assert Ascending(init, rank);
      SortOrderedIsIdentity(init, rank);
      var p := InsertionPoint(rank, x, init);
      forall k | 0 <= k < |init| ensures !Less(rank, x, init[k]) {
        assert init[k] == xs[k] && rank(xs[k]).i <= rank(xs[|xs| - 1]).i;
      }
      assert p == |init|;
      assert init[..|init|] + [x] + init[|init|..] == xs;
    }
  }
}

=== FILE: strings.dfy ===
/**
 * The JavaScript string operations the source relies on, over `seq<char>`:
 * `trim`, `split` on one character, `startsWith`, `includes`, ASCII
 * `toLowerCase`, and decimal rendering of integers.
 */
module Strings {

  /** JavaScript WhiteSpace and LineTerminator code points: what `trim` strips and `\s` matches. */
  predicate IsJsWhitespace(c: char) {
    || c == '\t' || c == '\n' || c == '\U{000B}' || c == '\U{000C}' || c == '\r' || c == ' '
    || c == '\U{00A0}' || c == '\U{1680}' || ('\U{2000}' <= c <= '\U{200A}')
    || c == '\U{2028}' || c == '\U{2029}' || c == '\U{202F}' || c == '\U{205F}'
    || c == '\U{3000}' || c == '\U{FEFF}'
  }

  predicate IsDigit(c: char) {
    '0' <= c <= '9'
  }

  predicate AllDigits(s: string) {
    forall i :: 0 <= i < |s| ==> IsDigit(s[i])
  }

  predicate HasNoWhitespace(s: string) {
    forall i :: 0 <= i < |s| ==> !IsJsWhitespace(s[i])
  }

  // ---------------------------------------------------------------- trim

  function TrimStart(s: string): (r: string)
    ensures |r| <= |s| && r == s[|s| - |r|..]
    ensures |r| > 0 ==> !IsJsWhitespace(r[0])
    ensures forall i :: 0 <= i < |s| - |r| ==> IsJsWhitespace(s[i])
  {
    if |s| > 0 && IsJsWhitespace(s[0]) then TrimStart(s[1..]) else s
  }

  function TrimEnd(s: string): (r: string)
    ensures |r| <= |s| && r == s[..|r|]
    ensures |r| > 0 ==> !IsJsWhitespace(r[|r| - 1])
    ensures forall i :: |r| <= i < |s| ==> IsJsWhitespace(s[i])
  {
    if |s| > 0 && IsJsWhitespace(s[|s| - 1]) then TrimEnd(s[..|s| - 1]) else s
  }

  /** `String.prototype.trim`: no whitespace at either end, and only whitespace removed. */
  function Trim(s: string): (r: string)
    ensures |r| > 0 ==> !IsJsWhitespace(r[0]) && !IsJsWhitespace(r[|r| - 1])
    ensures exists a, b :: 0 <= a <= b <= |s| && r == s[a..b]
  {
    var t := TrimStart(s);
    var r := TrimEnd(t);
    assert r == s[|s| - |t|..][..|r|] == s[|s| - |t|..|s| - |t| + |r|];
    r
  }

  /** `r` is `s[a..b]` and everything before `a` and from `b` on is whitespace. */
  predicate TrimmedAt(s: string, r: string, a: int, b: int) {
    0 <= a <= b <= |s| && r == s[a..b] &&
    (forall i :: 0 <= i < a ==> IsJsWhitespace(s[i])) && (forall i :: b <= i < |s| ==> IsJsWhitespace(s[i]))
  }

  /** What `Trim` removes from either end is whitespace and nothing else. */
  lemma TrimRemovesOnlyWhitespace(s: string)
    ensures exists a, b :: TrimmedAt(s, Trim(s), a, b)
  {
    var t := TrimStart(s);
    var r := TrimEnd(t);
    assert Trim(s) == r;
    var a := |s| - |t|;
    var b := a + |r|;
    assert t == s[a..];
    assert r == t[..|r|];
    assert r == s[a..b];
    assert forall i :: 0 <= i < a ==> IsJsWhitespace(s[i]);
    assert forall i :: b <= i < |s| ==> IsJsWhitespace(s[i]) by {
      forall i | b <= i < |s| ensures IsJsWhitespace(s[i]) {
        assert s[i] == t[i - a];
        assert |r| <= i - a < |t|;
      }
    }
    assert TrimmedAt(s, r, a, b);
  }

  lemma TrimOfWhitespaceFree(s: string)
    requires |s| == 0 || (!IsJsWhitespace(s[0]) && !IsJsWhitespace(s[|s| - 1]))
    ensures Trim(s) == s
  {
  }

  // ---------------------------------------------------------------- split / join

  /** `s.split(c)` for a one-character separator: always at least one part, and `''` splits to `['']`. */
  function Split(s: string, c: char): (parts: seq<string>)
    ensures |parts| >= 1
    ensures forall k :: 0 <= k < |parts| ==> c !in parts[k]
    decreases |s|
  {
    if |s| == 0 then [""]
    else if s[0] == c then [""] + Split(s[1..], c)
    else
      var rest := Split(s[1..], c);
      [[s[0]] + rest[0]] + rest[1..]
  }

  /** `parts.join(c)`, the partner of `Split`. */
  function Join(parts: seq<string>, c: char): string
    requires |parts| >= 1
  {
    if |parts| == 1 then parts[0] else parts[0] + [c] + Join(parts[1..], c)
  }

  lemma JoinConsFirst(x: char, parts: seq<string>, c: char)
    requires |parts| >= 1
    ensures Join([[x] + parts[0]] + parts[1..], c) == [x] + Join(parts, c)
  {
    var q := [[x] + parts[0]] + parts[1..];
    if |parts| > 1 {
      assert q[1..] == parts[1..];
    }
  }

  /** Joining the parts of a split with the same separator gives back the string. */
  lemma {:induction false} JoinSplit(s: string, c: char)
    ensures Join(Split(s, c), c) == s
    decreases |s|
  {
    if |s| == 0 {
    } else if s[0] == c {
      JoinSplit(s[1..], c);
      var q := [""] + Split(s[1..], c);
      assert q[1..] == Split(s[1..], c);
      assert s == [c] + s[1..];
    } else {
      JoinSplit(s[1..], c);
      JoinConsFirst(s[0], Split(s[1..], c), c);
      assert s == [s[0]] + s[1..];
    }
  }

  /** A string free of the separator splits into itself alone. */
  lemma {:induction false} SplitWithoutSeparator(s: string, c: char)
    requires c !in s
    ensures Split(s, c) == [s]
    decreases |s|
  {
    if |s| > 0 {
      assert c !in s[1..];
      SplitWithoutSeparator(s[1..], c);
      assert [s[0]] + s[1..] == s;
    }
  }

  /** Splitting `a + [c] + b` where `a` has no separator puts `a` first and `b`'s parts after it. */
  lemma {:induction false} SplitAfterFirst(a: string, c: char, b: string)
    requires c !in a
    ensures Split(a + [c] + b, c) == [a] + Split(b, c)
    decreases |a|
  {
    if |a| == 0 {
      assert a + [c] + b == [c] + b;
      assert ([c] + b)[1..] == b;
    } else {
      assert (a + [c] + b)[1..] == a[1..] + [c] + b;
      assert c !in a[1..];
      SplitAfterFirst(a[1..], c, b);
      assert [a[0]] + a[1..] == a;
    }
  }

  /** Splitting a join gives back the parts, when none holds the separator. */
  lemma {:induction false} SplitJoin(parts: seq<string>, c: char)
    requires |parts| >= 1 && forall k :: 0 <= k < |parts| ==> c !in parts[k]
    ensures Split(Join(parts, c), c) == parts
    decreases |parts|
  {
    if |parts| == 1 {
      SplitWithoutSeparator(parts[0], c);
    } else {
      SplitJoin(parts[1..], c);
      SplitAfterFirst(parts[0], c, Join(parts[1..], c));
      assert [parts[0]] + parts[1..] == parts;
    }
  }

  /**
   * The text after the last separator: what `s.split(c).pop()` returns. It
   * is the suffix of `s` that starts at the beginning or just after a
   * separator and holds none.
   */
  function LastPart(s: string, c: char): (r: string)
    ensures c !in r
    ensures c !in s ==> r == s
    ensures exists i :: PartStart(s, c, i) && r == s[i..]
  {
    var parts := Split(s, c);
    assert c !in s ==> parts == [s] by {
      if c !in s {
        SplitWithoutSeparator(s, c);
      }
    }
    SplitLastIsSuffix(s, c);
    parts[|parts| - 1]
  }

  /** `i` is where a part of `s` split on `c` can start: the beginning, or just after a separator. */
  predicate PartStart(s: string, c: char, i: int) {
    0 <= i <= |s| && (i == 0 || s[i - 1] == c)
  }

  lemma {:induction false} SplitLastIsSuffix(s: string, c: char)
    ensures var parts := Split(s, c);
      exists i :: PartStart(s, c, i) && parts[|parts| - 1] == s[i..]
    decreases |s|
  {
    var parts := Split(s, c);
    if |s| == 0 {
      assert PartStart(s, c, 0) && parts[|parts| - 1] == s[0..];
    } else {
      var rest := Split(s[1..], c);
      SplitLastIsSuffix(s[1..], c);
      var j :| PartStart(s[1..], c, j) && rest[|rest| - 1] == s[1..][j..];
      assert s[1..][j..] == s[j + 1..];
      SplitSingle(s[1..], c);
      if s[0] == c {
        assert parts == [""] + rest;
        assert j > 0 ==> s[j] == s[1..][j - 1];
        assert PartStart(s, c, j + 1) && parts[|parts| - 1] == s[j + 1..];
      } else if |rest| == 1 {
        assert forall k :: 0 <= k < |s[1..]| ==> s[1..][k] != c;
        assert j == 0;
        assert parts == [[s[0]] + rest[0]];
        assert [s[0]] + s[1..] == s;
        assert PartStart(s, c, 0) && parts[|parts| - 1] == s[0..];
      } else {
        assert parts[|parts| - 1] == rest[|rest| - 1];
        assert c in s[1..] && c !in rest[|rest| - 1];
        assert s[1..][0..] == s[1..];
        assert j > 0;
        assert s[j] == s[1..][j - 1];
        assert PartStart(s, c, j + 1) && parts[|parts| - 1] == s[j + 1..];
      }
    }
  }

  /** A split yields a single part exactly when the separator does not occur. */
  lemma {:induction false} SplitSingle(s: string, c: char)
    ensures |Split(s, c)| == 1 <==> c !in s
    decreases |s|
  {
    if |s| > 0 {
      SplitSingle(s[1..], c);
      assert c in s <==> s[0] == c || c in s[1..];
    }
  }

  // ---------------------------------------------------------------- replace

  /** `s.replace(/x/g, y)` for single characters `x` and `y`. */
  function ReplaceAll(s: string, from: char, to: char): (r: string)
    ensures |r| == |s|
    ensures forall i :: 0 <= i < |s| ==> r[i] == if s[i] == from then to else s[i]
  {
    seq(|s|, i requires 0 <= i < |s| => if s[i] == from then to else s[i])
  }

  lemma ReplaceAllConcat(a: string, b: string, from: char, to: char)
    ensures ReplaceAll(a + b, from, to) == ReplaceAll(a, from, to) + ReplaceAll(b, from, to)
  {
  }

  /** `s.replace(/c+$/, '')`: the trailing run of `c` removed. */
  function TrimTrailing(s: string, c: char): (r: string)
    ensures |r| <= |s| && r == s[..|r|]
    ensures |r| > 0 ==> r[|r| - 1] != c
    ensures forall i :: |r| <= i < |s| ==> s[i] == c
  {
    if |s| > 0 && s[|s| - 1] == c then TrimTrailing(s[..|s| - 1], c) else s
  }

  /** `n` copies of `c`. */
  function Repeat(c: char, n: nat): (r: string)
    ensures |r| == n && forall i :: 0 <= i < n ==> r[i] == c
  {
    seq(n, _ => c)
  }

  /** Trimming a run of `c` appended to a string that does not end in `c` gives the string back. */
  lemma {:induction false} TrimTrailingAppended(s: string, c: char, n: nat)
    requires |s| == 0 || s[|s| - 1] != c
    ensures TrimTrailing(s + Repeat(c, n), c) == s
  {
    var t := s + Repeat(c, n);
    if n == 0 {
      assert t == s;
    } else {
      assert t[|t| - 1] == c;
      assert t[..|t| - 1] == s + Repeat(c, n - 1);
      TrimTrailingAppended(s, c, n - 1);
    }
  }

  // ---------------------------------------------------------------- search

  /** `s.startsWith(p)`. */
  predicate StartsWith(s: string, p: string) {
    |p| <= |s| && s[..|p|] == p
  }

  /** `sub` occurs in `s` starting at position `i`. */
  predicate OccursAt(s: string, sub: string, i: int) {
    0 <= i <= |s| - |sub| && s[i..i + |sub|] == sub
  }

  /** `s.includes(sub)`: some position of `s` begins a copy of `sub`. */
  ghost predicate Contains(s: string, sub: string) {
    exists i :: OccursAt(s, sub, i)
  }

  /** An executable search for `sub` in `s`, scanning positions from the left. */
  function Includes(s: string, sub: string): (b: bool)
    ensures b <==> Contains(s, sub)
    decreases |s|
  {
    if StartsWith(s, sub) then
      assert OccursAt(s, sub, 0);
      true
    else if |s| == 0 then false
    else
      var r := Includes(s[1..], sub);
      if r then
        var i :| OccursAt(s[1..], sub, i);
        assert OccursAt(s, sub, i + 1);
        true
      else
        assert forall i :: OccursAt(s, sub, i) ==> i > 0 && OccursAt(s[1..], sub, i - 1);
        false
  }

  lemma ContainsOfPrefixPlus(a: string, b: string, sub: string)
    requires Contains(a, sub)
    ensures Contains(a + b, sub)
  {
    var i :| OccursAt(a, sub, i);
    assert (a + b)[i..i + |sub|] == sub;
    assert OccursAt(a + b, sub, i);
  }

  /** A one-character string occurs exactly when the character does. */
  lemma ContainsOneChar(s: string, a: char)
    ensures Contains(s, [a]) <==> a in s
  {
    if Contains(s, [a]) {
      var i :| OccursAt(s, [a], i);
      assert s[i] == s[i..i + 1][0];
    }
    if a in s {
      var i :| 0 <= i < |s| && s[i] == a;
      assert OccursAt(s, [a], i);
    }
  }

  /** A two-character string occurs exactly when some adjacent pair of `s` spells it. */
  lemma ContainsTwoChars(s: string, a: char, b: char)
    ensures Contains(s, [a, b]) <==> exists i :: 0 <= i < |s| - 1 && s[i] == a && s[i + 1] == b
  {
    if Contains(s, [a, b]) {
      var i :| OccursAt(s, [a, b], i);
      assert s[i] == s[i..i + 2][0] && s[i + 1] == s[i..i + 2][1];
    }
    if exists i :: 0 <= i < |s| - 1 && s[i] == a && s[i + 1] == b {
      var i :| 0 <= i < |s| - 1 && s[i] == a && s[i + 1] == b;
      assert OccursAt(s, [a, b], i);
    }
  }

  // ---------------------------------------------------------------- case

  function LowerChar(c: char): char {
    if 'A' <= c <= 'Z' then (c as int - 'A' as int + 'a' as int) as char else c
  }

  /**
   * `toLowerCase` on ASCII letters. Other code points are left as they are; no
   * non-ASCII code point lower-cases to a string the callers compare against.
   */
  function ToLowerAscii(s: string): (r: string)
    ensures |r| == |s|
    ensures forall i :: 0 <= i < |s| ==> r[i] == LowerChar(s[i])
  {
    seq(|s|, i requires 0 <= i < |s| => LowerChar(s[i]))
  }

  // ---------------------------------------------------------------- numbers as text

  function DigitChar(d: nat): char
    requires d < 10
  {
    ('0' as int + d) as char
  }

  /** The decimal rendering of a natural number, with no leading zeros. */
  function NatToString(n: nat): (r: string)
    ensures |r| >= 1 && AllDigits(r)
    ensures |r| > 1 ==> r[0] != '0'
  {
    if n < 10 then [DigitChar(n)] else NatToString(n / 10) + [DigitChar(n % 10)]
  }

  /** The value of a string of decimal digits. */
  function DigitsValue(s: string): nat
    requires AllDigits(s)
  {
    if |s| == 0 then 0 else 10 * DigitsValue(s[..|s| - 1]) + (s[|s| - 1] as int - '0' as int)
  }

  lemma {:induction false} DigitsValueOfNatToString(n: nat)
    ensures DigitsValue(NatToString(n)) == n
  {
    if n >= 10 {
      DigitsValueOfNatToString(n / 10);
      var r := NatToString(n);
      assert r[..|r| - 1] == NatToString(n / 10);
    }
  }

  /** `String(n)` for an integer `n`. */
  function IntToString(n: int): string {
    if n < 0 then "-" + NatToString(-n) else NatToString(n)
  }
}

=== FILE: stripe_form.dfy ===
/**
 * Requests to the Stripe API: the body is form-encoded by flattening a
 * nested JSON value into `key[i][child]=value` pairs, the headers carry the
 * secret key, and a non-ok reply becomes an error whose message is the one
 * Stripe sent, when there is one. The HTTP exchange itself is a parameter.
 */
module StripeForm {
  import opened Outcomes
  import opened Strings
  import opened JsValues
  import opened Seqs
  import Dicts

  type FormPair = (string, string)

  /** `${key}[${index}]`. */
  function IndexKey(key: string, i: nat): string {
    key + "[" + NatToString(i) + "]"
  }

  /** `${key}[${childKey}]`. */
  function ChildKey(key: string, child: string): string {
    key + "[" + child + "]"
  }

  /**
   * `appendForm(params, key, value)`, returning the pairs it appends: null
   * and undefined add nothing, an array recurses on its elements under
   * `key[i]`, an object on its entries under `key[childKey]`, and any other
   * value adds `(key, String(value))`.
   */
  function AppendForm(key: string, value: JsValue): (pairs: seq<FormPair>)
    decreases value, 1
  {
    match value
    case Undefined => []
    case Null => []
    case Arr(_) => ElementPairs(key, value, 0)
    case Obj(_) => FieldPairs(key, value, 0)
    case _ => [(key, ToJsString(value))]
  }

  /** The `forEach` over the elements of array `v` from position `from` on. */
  function ElementPairs(key: string, v: JsValue, from: nat): seq<FormPair>
    requires v.Arr?
    decreases v, 0, |v.items| - from
  {
    if from >= |v.items| then []
    else AppendForm(IndexKey(key, from), v.items[from]) + ElementPairs(key, v, from + 1)
  }

  /** The `for … of Object.entries(value)` over the fields of object `v` from position `from` on. */
  function FieldPairs(key: string, v: JsValue, from: nat): seq<FormPair>
    requires v.Obj?
    decreases v, 0, |v.fields| - from
  {
    if from >= |v.fields| then []
    else AppendForm(ChildKey(key, v.fields[from].0), v.fields[from].1) + FieldPairs(key, v, from + 1)
  }

  // ---------------------------------------------------------------- what the pairs carry

  /** The scalar leaves of a JSON value other than null and undefined, in document order. */
  function Leaves(v: JsValue): seq<JsValue>
    decreases v, 1
  {
    match v
    case Undefined => []
    case Null => []
    case Arr(_) => Concat(ElementLeaves(v))
    case Obj(_) => Concat(FieldLeaves(v))
    case _ => [v]
  }

  function ElementLeaves(v: JsValue): (r: seq<seq<JsValue>>)
    requires v.Arr?
    decreases v, 0
    ensures |r| == |v.items| && forall i :: 0 <= i < |r| ==> r[i] == Leaves(v.items[i])
  {
    seq(|v.items|, i requires 0 <= i < |v.items| => Leaves(v.items[i]))
  }

  function FieldLeaves(v: JsValue): (r: seq<seq<JsValue>>)
    requires v.Obj?
    decreases v, 0
    ensures |r| == |v.fields| && forall i :: 0 <= i < |r| ==> r[i] == Leaves(v.fields[i].1)
  {
    seq(|v.fields|, i requires 0 <= i < |v.fields| => Leaves(v.fields[i].1))
  }

  /** The pairs are the leaves, one each and in order, as strings under keys that extend `key`. */
  predicate Renders(pairs: seq<FormPair>, leaves: seq<JsValue>, key: string) {
    |pairs| == |leaves| &&
    forall i :: 0 <= i < |pairs| ==> pairs[i].1 == ToJsString(leaves[i]) && StartsWith(pairs[i].0, key)
  }

  lemma RendersAppend(p1: seq<FormPair>, l1: seq<JsValue>, p2: seq<FormPair>, l2: seq<JsValue>, key: string)
    requires Renders(p1, l1, key) && Renders(p2, l2, key)
    ensures Renders(p1 + p2, l1 + l2, key)
  {
    forall i | 0 <= i < |p1 + p2|
      ensures (p1 + p2)[i].1 == ToJsString((l1 + l2)[i]) && StartsWith((p1 + p2)[i].0, key)
    {
      if i >= |p1| {
        assert (p1 + p2)[i] == p2[i - |p1|] && (l1 + l2)[i] == l2[i - |p1|];
      }
    }
  }

  lemma RendersUnder(pairs: seq<FormPair>, leaves: seq<JsValue>, key: string, ext: string)
    requires Renders(pairs, leaves, ext) && StartsWith(ext, key)
    ensures Renders(pairs, leaves, key)
  {
    forall i | 0 <= i < |pairs| ensures StartsWith(pairs[i].0, key) {
      var k := pairs[i].0;
      assert k[..|ext|][..|key|] == k[..|key|];
    }
  }

  lemma ExtendsKey(key: string, suffix: string)
    ensures StartsWith(key + suffix, key)
  {
    assert (key + suffix)[..|key|] == key;
  }

  /**
   * The pairs `appendForm` emits are exactly the non-null scalar leaves of
   * the value, each once, in document order, rendered with `String`, and
   * every key starts with the key it was called with. In particular the
   * number of pairs is the number of such leaves.
   */
  lemma {:induction false} FormRendersLeaves(key: string, v: JsValue)
    ensures Renders(AppendForm(key, v), Leaves(v), key)
    decreases v, 1
  {
    match v
    case Undefined =>
    case Null =>
    case Arr(items) =>
      ElementsRender(key, v, 0);
      assert ElementLeaves(v)[0..] == ElementLeaves(v);
    case Obj(fields) =>
      FieldsRender(key, v, 0);
      assert FieldLeaves(v)[0..] == FieldLeaves(v);
    case _ =>
      assert AppendForm(key, v)[0].0 == key;
  }

  lemma {:induction false} ElementsRender(key: string, v: JsValue, from: nat)
    requires v.Arr? && from <= |v.items|
    ensures Renders(ElementPairs(key, v, from), Concat(ElementLeaves(v)[from..]), key)
    decreases v, 0, |v.items| - from
  {
    var ls := ElementLeaves(v);
    if from < |v.items| {
      FormRendersLeaves(IndexKey(key, from), v.items[from]);
      ExtendsKey(key, "[" + NatToString(from) + "]");
      assert IndexKey(key, from) == key + ("[" + NatToString(from) + "]");
      RendersUnder(AppendForm(IndexKey(key, from), v.items[from]), ls[from], key, IndexKey(key, from));
      ElementsRender(key, v, from + 1);
      assert ls[from..][1..] == ls[from + 1..];
      RendersAppend(AppendForm(IndexKey(key, from), v.items[from]), ls[from],
                    ElementPairs(key, v, from + 1), Concat(ls[from + 1..]), key);
    }
  }

  lemma {:induction false} FieldsRender(key: string, v: JsValue, from: nat)
    requires v.Obj? && from <= |v.fields|
    ensures Renders(FieldPairs(key, v, from), Concat(FieldLeaves(v)[from..]), key)
    decreases v, 0, |v.fields| - from
  {
    var ls := FieldLeaves(v);
    if from < |v.fields| {
      var child := ChildKey(key, v.fields[from].0);
      FormRendersLeaves(child, v.fields[from].1);
      ExtendsKey(key, "[" + v.fields[from].0 + "]");
      assert child == key + ("[" + v.fields[from].0 + "]");
      RendersUnder(AppendForm(child, v.fields[from].1), ls[from], key, child);
      FieldsRender(key, v, from + 1);
      assert ls[from..][1..] == ls[from + 1..];
      RendersAppend(AppendForm(child, v.fields[from].1), ls[from],
                    FieldPairs(key, v, from + 1), Concat(ls[from + 1..]), key);
    }
  }

  /** Null and undefined contribute nothing, and a scalar exactly one pair under the key itself. */
  lemma FormOfScalars(key: string, v: JsValue)
    ensures v.Null? || v.Undefined? ==> AppendForm(key, v) == []
    ensures v.Bool? || v.Num? || v.Str? ==> AppendForm(key, v) == [(key, ToJsString(v))]
    ensures v.Arr? && |v.items| == 0 ==> AppendForm(key, v) == []
  {
  }

  /** The elements of an array are flattened in index order, element `i` under `key[i]`. */
  lemma ArrayFormInOrder(key: string, items: seq<JsValue>)
    ensures AppendForm(key, Arr(items)) ==
      Concat(seq(|items|, i requires 0 <= i < |items| => AppendForm(IndexKey(key, i), items[i])))
  {
    var v := Arr(items);
    var parts := seq(|items|, i requires 0 <= i < |items| => AppendForm(IndexKey(key, i), items[i]));
    ElementsInOrder(key, v, parts, 0);
    assert parts[0..] == parts;
  }

  lemma {:induction false} ElementsInOrder(key: string, v: JsValue, parts: seq<seq<FormPair>>, from: nat)
    requires v.Arr? && from <= |v.items| && |parts| == |v.items|
    requires forall i :: 0 <= i < |parts| ==> parts[i] == AppendForm(IndexKey(key, i), v.items[i])
    ensures ElementPairs(key, v, from) == Concat(parts[from..])
    decreases |v.items| - from
  {
    if from < |v.items| {
      ElementsInOrder(key, v, parts, from + 1);
      assert parts[from..][1..] == parts[from + 1..];
    }
  }

  /** The entries of an object are flattened in entry order, each under `key[childKey]`. */
  lemma ObjectFormInOrder(key: string, fields: Dicts.Dict<JsValue>)
    ensures AppendForm(key, Obj(fields)) ==
      Concat(seq(|fields|, i requires 0 <= i < |fields| => AppendForm(ChildKey(key, fields[i].0), fields[i].1)))
  {
    var v := Obj(fields);
    var parts := seq(|fields|, i requires 0 <= i < |fields| => AppendForm(ChildKey(key, fields[i].0), fields[i].1));
    FieldsInOrder(key, v, parts, 0);
    assert parts[0..] == parts;
  }

  lemma {:induction false} FieldsInOrder(key: string, v: JsValue, parts: seq<seq<FormPair>>, from: nat)
    requires v.Obj? && from <= |v.fields| && |parts| == |v.fields|
    requires forall i :: 0 <= i < |parts| ==> parts[i] == AppendForm(ChildKey(key, v.fields[i].0), v.fields[i].1)
    ensures FieldPairs(key, v, from) == Concat(parts[from..])
    decreases |v.fields| - from
  {
    if from < |v.fields| {
      FieldsInOrder(key, v, parts, from + 1);
      assert parts[from..][1..] == parts[from + 1..];
    }
  }

  // ---------------------------------------------------------------- the request

  /** `Object.entries(v)`: an object's fields, or an array's or string's indexed elements. */
  function Entries(v: JsValue): (es: Dicts.Dict<JsValue>)
    ensures v.Obj? ==> es == v.fields
    ensures v.Arr? ==> |es| == |v.items| && forall i :: 0 <= i < |es| ==> es[i] == (NatToString(i), v.items[i])
  {
    match v
    case Obj(fields) => fields
    case Arr(items) => seq(|items|, i requires 0 <= i < |items| => (NatToString(i), items[i]))
    case Str(s) => seq(|s|, i requires 0 <= i < |s| => (NatToString(i), Str([s[i]])))
    case _ => []
  }

  /** The whole form: each top-level entry flattened under its own name, in entry order. */
  function FormBody(body: JsValue): seq<FormPair> {
    var es := Entries(body);
    Concat(seq(|es|, i requires 0 <= i < |es| => AppendForm(es[i].0, es[i].1)))
  }

  const StripeVersion := "2026-01-28.clover"
  const FormContentType := "application/x-www-form-urlencoded"
  const ApiBase := "https://api.stripe.com/v1"

  /**
   * The three copies of `stripeRequest`: the shared helper sets Content-Type
   * only when there is a body; checkout creation's own copy always sets it;
   * payment verification's copy sends only Authorization and never a body.
   */
  datatype Client = Shared | CheckoutCopy | VerifyCopy

  datatype StripeCall = StripeCall(verb: string, url: string, headers: Dicts.Dict<string>, form: Option<seq<FormPair>>)

  /** The request `stripeRequest(secretKey, method, path, body)` sends. */
  function BuildRequest(client: Client, secretKey: string, verb: string, path: string, body: JsValue): (c: StripeCall)
    ensures c.url == ApiBase + path && c.verb == verb
    ensures Dicts.Get(c.headers, "Authorization") == Some("Bearer " + secretKey)
    ensures c.form.Some? <==> client != VerifyCopy && Truthy(body)
    ensures c.form.Some? ==> c.form.value == FormBody(body)
    ensures client == Shared ==> (Dicts.HasKey(c.headers, "Content-Type") <==> c.form.Some?)
    ensures client == CheckoutCopy ==> Dicts.Get(c.headers, "Content-Type") == Some(FormContentType)
    ensures client == VerifyCopy ==> Dicts.Keys(c.headers) == ["Authorization"]
    ensures client != VerifyCopy ==> Dicts.Get(c.headers, "Stripe-Version") == Some(StripeVersion)
  {
    var auth := ("Authorization", "Bearer " + secretKey);
    var version := ("Stripe-Version", StripeVersion);
    var contentType := ("Content-Type", FormContentType);
    var hasBody := client != VerifyCopy && Truthy(body);
    var headers := match client
      case Shared => if hasBody then [auth, version, contentType] else [auth, version]
      case CheckoutCopy => [auth, contentType, version]
      case VerifyCopy => [auth];
    assert headers[0] == auth;
    assert client != VerifyCopy ==> Dicts.IndexOf(headers, "Stripe-Version") == (if client == Shared then 1 else 2);
    assert client == Shared && hasBody ==> headers[2].0 == "Content-Type";
    assert client == Shared && !hasBody ==> forall i :: 0 <= i < |headers| ==> headers[i].0 != "Content-Type";
    StripeCall(verb, ApiBase + path, headers, if hasBody then Some(FormBody(body)) else None)
  }

  /** What came back: the status and the text, with `JSON.parse(text)` as a parameter (None when it throws). */
  datatype Reply = Reply(status: int, text: string, parsed: Option<JsValue>)

  /** `res.ok`. */
  predicate Ok2xx(status: int) {
    200 <= status < 300
  }

  /** `data`: the parsed reply, or `{error: {message: text || 'Stripe API error'}}` when the text is not JSON. */
  function ReplyData(reply: Reply): JsValue {
    if reply.parsed.Some? then reply.parsed.value
    else Obj([("error", Obj([("message", Str(if reply.text == "" then "Stripe API error" else reply.text))]))])
  }

  /** `data?.error?.message`. */
  function ErrorMessage(data: JsValue): JsValue {
    OptionalProp(OptionalProp(data, "error"), "message")
  }

  /**
   * The value `stripeRequest` resolves to, or the message of the error it
   * throws: an ok reply gives the data, whatever it is; a failed one gives
   * Stripe's own message when it is truthy and `Stripe API error (status)`
   * otherwise.
   */
  function Receive(reply: Reply): (r: Result<JsValue, string>)
    ensures r.Ok? <==> Ok2xx(reply.status)
    ensures r.Ok? && reply.parsed.Some? ==> r.value == reply.parsed.value
    ensures r.Err? && reply.parsed.None? ==>
      r.error == (if reply.text == "" then "Stripe API error" else reply.text)
    ensures r.Err? && reply.parsed.Some? && Truthy(ErrorMessage(reply.parsed.value)) ==>
      r.error == ToJsString(ErrorMessage(reply.parsed.value))
    ensures r.Err? && reply.parsed.Some? && !Truthy(ErrorMessage(reply.parsed.value)) ==>
      r.error == "Stripe API error (" + IntToString(reply.status) + ")"
  {
    var data := ReplyData(reply);
    if Ok2xx(reply.status) then Ok(data)
    else
      var message := Or(ErrorMessage(data), Str("Stripe API error (" + IntToString(reply.status) + ")"));
      Err(ToJsString(message))
  }
}
